=== FILE: README.md ===
# OpenRemote Android console library, modelled in Dafny

This project models the client side of the OpenRemote Android console library. The library talks to an OpenRemote controller over its REST interface. It contains two generations of the same design.

- **Newer tree** (`org.openremote.console.controller`):
  - an HTTP connector builds request paths, classifies responses and keeps the connection flags;
  - a transport layer chooses HEAD, GET or POST and handles transport failures;
  - UDP/TCP discovery uses a probing server and a reply receiver;
  - a session object (`Controller`) registers panels; for each panel it creates a sensor monitor that long-polls the controller, a command sender and a resource locator; all three are switched off while disconnected;
  - registration handles cache the sensor ids of a panel or a device.
- **Older tree** (`org.openremote.java.console.controller`): the same roles.
  - Its connector has a different response classification.
  - Its probe schedule is one probe per second.
  - Its receiver de-duplicates replies by remote address.
  - Its session keeps inner "handler" objects with a `cancelled` flag.

## How the model is organised

| module | file | what it holds |
|---|---|---|
| Protocol | protocol.dfy | shared vocabulary |
| Text | text.dfy | string helpers |
| RequestPaths | request_paths.dfy | request-path building |
| ResourceHeaders | resource_headers.dfy | resource-header scanning |
| SensorValues | sensor_values.dfy | sensor-value maps; sensor-id collection and delta fan-out |
| ResponseClassifier | response_classifier.dfy | newer `handleResponse` / `processError` |
| LegacyClassifier | legacy_classifier.dfy | older `handleResponse` / `processError` |
| ConsoleConnector | console_connector.dfy | newer connector and its transport, as one class |
| LegacyConnector | legacy_connector.dfy | older connector |
| DiscoveryClient | discovery_client.dfy | newer discovery client |
| DiscoveryServer | discovery_server.dfy | newer discovery server |
| DiscoveryReceiver | discovery_receiver.dfy | newer discovery receiver |
| LegacyDiscovery | legacy_discovery.dfy | older discovery server and receiver |
| Gates | gates.dfy | command sender and resource locator |
| SensorMonitors | sensor_monitor.dfy | sensor monitor |
| RegistrationHandles | registration_handles.dfy | registration handles |
| Session | session.dfy | newer `Controller` |
| LegacyHandlers | legacy_handlers.dfy | older inner handlers |
| LegacySession | legacy_session.dfy | older `Controller` |

Objects whose fields the source updates in place are classes. Their methods state the whole new state. Pure computations are functions, with lemmas that relate them to an independent description.

**Model conventions**
- **Callbacks** are identities (`CallbackId`). A callback invocation is an event appended to a log or returned as a sequence.
- **Requests handed to a collaborator** are appended to a list or returned as a sequence (`sent`). A later completion names the request it completes.
- **JSON decoding** is represented by the `Body` datatype: the document kind a body would decode to. `Protocol.Decode` fixes which kinds a target accepts.
- **Map iteration order** of a Java `HashMap` is an input `order`. Each fan-out property is proved for every order.
- **Concurrency and I/O outcomes** are inputs:
  - when a cancel is observed;
  - whether a socket binds;
  - whether a connect attempt timed out.

**Two behaviours of the code a reader might not expect:**
- The newer discovery server doubles its pause while it is below 60 s, so the pause reaches 64 s (`DiscoveryServer.PauseIsBoundedPowerOfTwo`).
- Every REST command is POSTed except resource details (HEAD) and `controller.xml` (GET) (`ConsoleConnector.HttpMethodFor`).

## Model

| member | source | states |
|---|---|---|
| Protocol.Decode | AndroidLibrary/src/org/openremote/console/controller/connector/HttpConnector.java:442-494 | a body decodes to a document exactly when it holds JSON of the requested kind, to null exactly when it holds a JSON null, and otherwise the decoder throws |
| Text.DigitChar | AndroidLibrary/src/org/openremote/console/controller/connector/HttpConnector.java:271 | a decimal digit is rendered as the character whose offset from '0' is the digit |
| Text.NatToString | AndroidLibrary/src/org/openremote/console/controller/connector/HttpConnector.java:271 | the decimal rendering of a natural number is non-empty, made of digits, and has no leading zero |
| Text.IntToString | AndroidLibrary/src/org/openremote/console/controller/connector/HttpConnector.java:271 | the rendering of an integer is digits with a leading minus sign exactly when the integer is negative |
| Text.NatToStringValue | AndroidLibrary/src/org/openremote/console/controller/connector/HttpConnector.java:271 | reading the digits of a natural number's rendering back gives the number |
| Text.IntToStringValue | AndroidLibrary/src/org/openremote/console/controller/connector/HttpConnector.java:271 | reading an integer's rendering back (minus sign included) gives the integer, so each id or sender in a request path is the right number |
| Text.IntsToStrings | AndroidLibrary/src/org/openremote/console/controller/connector/HttpConnector.java:238 | renders each id in place: same length, element i is the rendering of id i |
| Text.ReplaceAllSkips | AndroidLibrary/src/org/openremote/console/controller/connector/HttpConnector.java:238-239 | text free of the pattern's first character passes through a replace-all unchanged |
| Text.JoinWithNoneOf | AndroidLibrary/src/org/openremote/console/controller/connector/HttpConnector.java:238-239 | joining parts free of a set of characters with a separator free of them yields text free of them |
| Text.SensorIdSegmentIsCommaJoin | AndroidLibrary/src/org/openremote/console/controller/connector/HttpConnector.java:238-239 | the id segment built from `Arrays.toString` by stripping ", ", "[" and "]" is exactly the ids joined by commas, and holds no space or bracket |
| Text.IdStringsArePlain | AndroidLibrary/src/org/openremote/console/controller/connector/HttpConnector.java:238-239 | no rendered id contains a comma, a space or a bracket |
| Text.CommaSpacesRemoved | AndroidLibrary/src/org/openremote/console/controller/connector/HttpConnector.java:238 | replacing ", " by "," in the bracketed `Arrays.toString` text turns the list separator into a bare comma |
| Text.ClosingBracketRemoved | AndroidLibrary/src/org/openremote/console/controller/connector/HttpConnector.java:238 | removing "]" drops only the closing bracket of the list text |
| Text.OpeningBracketRemoved | AndroidLibrary/src/org/openremote/console/controller/connector/HttpConnector.java:238-239 | removing "[" drops only the opening bracket of the list text |
| Text.JoinReplacesSeparator | AndroidLibrary/src/org/openremote/console/controller/connector/HttpConnector.java:238 | replacing ", " by "," turns a ", "-join of comma-free parts into their ","-join |
| RequestPaths.WithSlash | AndroidLibrary/src/org/openremote/console/controller/connector/HttpConnector.java:757-760 | the base URL always ends with '/' after normalisation: unchanged if it already did, else extended by exactly one '/' |
| RequestPaths.BuildRequestPath | AndroidLibrary/src/org/openremote/console/controller/connector/HttpConnector.java:757-773 | the loop that appends each parameter (with '/' between parameters whose predecessor does not end in '/') yields the request path function |
| RequestPaths.AppendJoinsWithSlash | AndroidLibrary/src/org/openremote/console/controller/connector/HttpConnector.java:767-773 | when no parameter but the last ends in '/', the appended parameters are the '/'-join of the list |
| RequestPaths.AppendConcatenates | AndroidLibrary/src/org/openremote/console/controller/connector/HttpConnector.java:767-773 | when every parameter but the last ends in '/', the parameters are concatenated without extra separators |
| RequestPaths.AppendKeepsPrefix | AndroidLibrary/src/org/openremote/console/controller/connector/HttpConnector.java:767-773 | appending parameters keeps what was built so far as a prefix and ends with the last parameter |
| RequestPaths.RequestPathShape | AndroidLibrary/src/org/openremote/console/controller/connector/HttpConnector.java:757-773 | a request path starts with the slash-terminated base and the command fragment, is exactly that with no parameters, and ends with the last parameter |
| RequestPaths.NamedCommandPath | AndroidLibrary/src/org/openremote/console/controller/connector/HttpConnector.java:281-288 | a named command goes to `rest/devices/<device>/commands?name=<command>` under the base URL |
| RequestPaths.NamedCommandContentRoundTrip | AndroidLibrary/src/org/openremote/console/controller/connector/HttpConnector.java:299-300 | a JSON body is sent exactly when the parameter is present and non-empty, and the parameter can be read back from it unchanged |
| ResourceHeaders.ScanResourceHeaders | AndroidLibrary/src/org/openremote/console/controller/connector/HttpConnector.java:689-700 | the header loop computes the header-scan function |
| ResourceHeaders.ScanHeadersPicksLast | AndroidLibrary/src/org/openremote/console/controller/connector/HttpConnector.java:689-700 | the content type is the value of the last Content-Type header and the modification date the last Last-Modified header that parses as a date; each is absent exactly when no such header exists |
| ResourceHeaders.EqualsIgnoreCaseTransitive | AndroidLibrary/src/org/openremote/console/controller/connector/HttpConnector.java:692-697 | case-insensitive name comparison is transitive, so renaming a header up to case cannot change a match |
| ResourceHeaders.ScanHeadersIgnoresCase | AndroidLibrary/src/org/openremote/console/controller/connector/HttpConnector.java:692-697 | header names are compared ignoring case: headers that differ only in name case give the same details |
| SensorValues.SensorValuesOf | AndroidLibrary/src/org/openremote/console/controller/connector/HttpConnector.java:741-751 | a null status list gives a null payload, otherwise the id-to-value map of the list |
| SensorValues.GetSensorValueMap | AndroidLibrary/src/org/openremote/console/controller/connector/HttpConnector.java:741-751 | the loop over the status list builds the same map: null for a null list, else each id mapped to a value from the list |
| SensorValues.ValueMapLastWins | AndroidLibrary/src/org/openremote/console/controller/connector/HttpConnector.java:741-751 | the map's keys are exactly the listed ids, and a repeated id keeps the value of its last occurrence |
| SensorValues.ValueMapKeys | AndroidLibrary/src/org/openremote/console/controller/connector/HttpConnector.java:741-751 | the map's keys are exactly the ids in the status list |
| SensorValues.ValueMapValues | AndroidLibrary/src/org/openremote/console/controller/connector/HttpConnector.java:741-751 | each id maps to the value of its last occurrence in the list |
| SensorValues.ValueMapValueAt | AndroidLibrary/src/org/openremote/console/controller/connector/HttpConnector.java:741-751 | the status at the last occurrence of an id determines that id's value |
| SensorValues.Refs | AndroidLibrary/src/org/openremote/console/controller/Controller.java:171-175 | the refs of a link list, one per link, in order |
| SensorValues.FirstIndex | AndroidLibrary/src/org/openremote/console/controller/Controller.java:172-174 | the first position of an id in a list: it holds the id and no earlier position does |
| SensorValues.FirstIndexOfPrefix | AndroidLibrary/src/org/openremote/console/controller/Controller.java:172-174 | appending an element does not move the first position of an id already present |
| SensorValues.DedupProperties | AndroidLibrary/src/org/openremote/console/controller/Controller.java:164-177 | the monitored id list holds exactly the ids of the input, each once, in order of first appearance |
| SensorValues.RefsMembership | AndroidLibrary/src/org/openremote/console/controller/Controller.java:171 | an id is among a widget's refs exactly when it has a link with that ref |
| SensorValues.SensorRefsMembership | AndroidLibrary/src/org/openremote/console/controller/Controller.java:168-177 | an id is collected exactly when some sensory widget has a link to it |
| SensorValues.SensorIdsOfWidgets | AndroidLibrary/src/org/openremote/console/controller/Controller.java:164-182 | the ids polled for a panel are exactly the refs of its sensory widgets' links, without duplicates, in first-appearance order |
| SensorValues.AddNewRefs | AndroidLibrary/src/org/openremote/console/controller/Controller.java:171-175 | the 'add if not already contained' loop over one widget's links extends the de-duplicated list as if the links had been part of the input |
| SensorValues.CollectSensorIds | AndroidLibrary/src/org/openremote/console/controller/Controller.java:164-182 | the registration loop collects exactly the sensory widgets and the de-duplicated ids of their links |
| SensorValues.PushDelta | AndroidLibrary/src/org/openremote/console/controller/Controller.java:213-225 | the fan-out loop over delta entries, widgets and links produces the fan-out notifications in iteration order |
| SensorValues.PushEntry | AndroidLibrary/src/org/openremote/console/controller/Controller.java:217-223 | the loop over widgets for one entry produces that entry's notifications |
| SensorValues.PushLinks | AndroidLibrary/src/org/openremote/console/controller/Controller.java:218-222 | the loop over one widget's links notifies each link whose ref equals the entry's key |
| SensorValues.LinkHitsMembership | AndroidLibrary/src/org/openremote/console/controller/Controller.java:218-222 | one widget is notified of an entry exactly when it has a link with the entry's key, with the entry's value |
| SensorValues.WidgetHitsMembership | AndroidLibrary/src/org/openremote/console/controller/Controller.java:217-223 | a notification for one entry reaches exactly the widgets that link to the entry's key, with its value |
| SensorValues.FanOutMembership | AndroidLibrary/src/org/openremote/console/controller/Controller.java:213-225 | a widget receives (ref, value) exactly when the delta maps ref to value and the widget links to ref, whatever the iteration order |
| SensorValues.FanOutPrefixMembership | AndroidLibrary/src/org/openremote/console/controller/Controller.java:216-224 | after a prefix of the iteration only the entries visited so far have been pushed |
| ResponseClassifier.ProcessError | AndroidLibrary/src/org/openremote/console/controller/connector/HttpConnector.java:728-739 | an error response never lets an exception escape and yields at most one callback call, always a failure |
| ResponseClassifier.ProcessErrorCases | AndroidLibrary/src/org/openremote/console/controller/connector/HttpConnector.java:728-739 | a controller error document is reported with its own code, a JSON null is silent, and anything else is reported as an unknown error |
| ResponseClassifier.SuccessOnlyOnAcceptedStatus | AndroidLibrary/src/org/openremote/console/controller/connector/HttpConnector.java:426-726 | a success is delivered only for the status codes each command's branch accepts (200; 204 for named commands; 504 for polling) |
| ResponseClassifier.PollingEmptyDelta | AndroidLibrary/src/org/openremote/console/controller/connector/HttpConnector.java:620-650 | the empty delta is delivered exactly for a 504, or a 200 whose body is a time-out error document or a null status list |
| ResponseClassifier.PollingClassification | AndroidLibrary/src/org/openremote/console/controller/connector/HttpConnector.java:620-650 | a poll delivers the value map of a non-null status list on 200, and any other status is treated as an error |
| ResponseClassifier.PollingNullBodyIsSilent | AndroidLibrary/src/org/openremote/console/controller/connector/HttpConnector.java:620-650 | a poll answered by a JSON null calls no callback at all |
| ResponseClassifier.LogoutClassification | AndroidLibrary/src/org/openremote/console/controller/connector/HttpConnector.java:668-676 | logout succeeds exactly on 200 or 401, and is an error otherwise |
| ResponseClassifier.NamedCommandClassification | AndroidLibrary/src/org/openremote/console/controller/connector/HttpConnector.java:591-599 | a named command succeeds exactly on 204 with no content |
| ResponseClassifier.ControlCommandEchoesSender | AndroidLibrary/src/org/openremote/console/controller/connector/HttpConnector.java:576-590 | a control command succeeds exactly on 200, echoing the sender id of the request |
| ResponseClassifier.XmlErrorsAreUnknown | AndroidLibrary/src/org/openremote/console/controller/connector/HttpConnector.java:442-494 | a failed controller.xml fetch is always an unknown error |
| ResponseClassifier.ResourceDetailsFromHeaders | AndroidLibrary/src/org/openremote/console/controller/connector/HttpConnector.java:677-705 | a 200 HEAD reply delivers the details scanned from its headers, names compared ignoring case |
| ConsoleConnector.HttpMethodFor | AndroidLibrary/src/org/openremote/console/controller/connector/AndroidHttpConnector.java:122-191 | resource details are fetched with HEAD, controller.xml with GET, everything else is POSTed |
| ConsoleConnector.TransportFailure | AndroidLibrary/src/org/openremote/console/controller/connector/AndroidHttpConnector.java:160-167 | a transport failure is an unknown error, except a poll that timed out connecting, which delivers the empty delta |
| ConsoleConnector.EventsOf | AndroidLibrary/src/org/openremote/console/controller/connector/AndroidHttpConnector.java:141-157 | a response's callback calls reach the request's callback in order, followed by the escaping exception if any |
| ConsoleConnector.ConnectFailureAsWrittenWedges | AndroidLibrary/src/org/openremote/console/controller/connector/HttpConnector.java:152-174 | as written, after one failed connect the in-progress flag stays set: every later connect is refused and disconnect cannot clear it |
| ConsoleConnector.ConnectFailureAllowsRetry | AndroidLibrary/src/org/openremote/console/controller/connector/HttpConnector.java:152-174 | with the flag cleared on failure a new connect is sent again, and 'connected and connecting at once' never arises |
| ConsoleConnector.ThroughConnectWrapper | AndroidLibrary/src/org/openremote/console/controller/connector/HttpConnector.java:158-171 | the connect wrapper never leaves the connector both connected and connecting |
| ConsoleConnector.SilentConnectErrorKeepsFlags | AndroidLibrary/src/org/openremote/console/controller/connector/HttpConnector.java:495-505 | a refused connect whose body is a JSON null calls no callback, so even the corrected wrapper leaves the flags, in-progress included, as they were |
| ConsoleConnector.Connector.constructor | AndroidLibrary/src/org/openremote/console/controller/connector/AndroidHttpConnector.java:50-58 | a fresh connector: disconnected, no URL, no credentials, default timeout, nothing pending |
| ConsoleConnector.Connector.SetControllerUrl | AndroidLibrary/src/org/openremote/console/controller/connector/HttpConnector.java:116-118 | replaces the URL and nothing else |
| ConsoleConnector.Connector.SetTimeout | AndroidLibrary/src/org/openremote/console/controller/connector/HttpConnector.java:137-139 | replaces the timeout and nothing else |
| ConsoleConnector.Connector.SetCredentials | AndroidLibrary/src/org/openremote/console/controller/connector/AndroidHttpConnector.java:195-203 | stores the credentials and the basic-auth header they imply, nothing else |
| ConsoleConnector.Connector.Send | AndroidLibrary/src/org/openremote/console/controller/connector/AndroidHttpConnector.java:122-191 | queues one request with the method its command requires, leaving the session state alone |
| ConsoleConnector.Connector.Issue | AndroidLibrary/src/org/openremote/console/controller/connector/HttpConnector.java:753-773 | with a URL set, queues the request for the built path; without one, sends nothing |
| ConsoleConnector.Connector.Connect | AndroidLibrary/src/org/openremote/console/controller/connector/HttpConnector.java:152-174 | sends `rest/servers` only when a URL is set and the connector is neither connected nor connecting, updating the flags as the source does |
| ConsoleConnector.Connector.Complete | AndroidLibrary/src/org/openremote/console/controller/connector/HttpConnector.java:152-174 | a completed request reports its events; only a connect completion changes the connection flags, through the wrapper |
| ConsoleConnector.Connector.DoDisconnect | AndroidLibrary/src/org/openremote/console/controller/connector/AndroidHttpConnector.java:60-70 | cancels all pending requests, marks disconnected, and tells a stored connect callback that the connection was dropped |
| ConsoleConnector.Connector.Disconnect | AndroidLibrary/src/org/openremote/console/controller/connector/HttpConnector.java:177-183 | does nothing more than clear `connected` unless connected; when connected, runs the transport disconnect. Either way the flags follow the disconnect transition, so the in-progress flag is never cleared |
| ConsoleConnector.Connector.GetPanelList | AndroidLibrary/src/org/openremote/console/controller/connector/HttpConnector.java:186-192 | queues a POST to `rest/panels/` when a URL is set |
| ConsoleConnector.Connector.GetPanel | AndroidLibrary/src/org/openremote/console/controller/connector/HttpConnector.java:195-201 | queues a POST to `rest/panel/<name>` when a URL is set |
| ConsoleConnector.Connector.GetDeviceList | AndroidLibrary/src/org/openremote/console/controller/connector/HttpConnector.java:204-210 | queues a POST to `rest/devices/` when a URL is set |
| ConsoleConnector.Connector.GetDevice | AndroidLibrary/src/org/openremote/console/controller/connector/HttpConnector.java:213-219 | queues a POST to `rest/devices/<name>` when a URL is set |
| ConsoleConnector.Connector.GetWidgetsCommandInfo | AndroidLibrary/src/org/openremote/console/controller/connector/HttpConnector.java:222-227 | queues a GET of `resources/controller.xml` when a URL is set |
| ConsoleConnector.Connector.MonitorSensors | AndroidLibrary/src/org/openremote/console/controller/connector/HttpConnector.java:230-249 | queues a poll `rest/polling/<uuid>/<ids>` with the fixed 55 s timeout when a URL is set |
| ConsoleConnector.Connector.GetSensorValues | AndroidLibrary/src/org/openremote/console/controller/connector/HttpConnector.java:252-262 | queues `rest/status/<ids>` with the comma-joined ids when a URL is set |
| ConsoleConnector.Connector.SendControlCommand | AndroidLibrary/src/org/openremote/console/controller/connector/HttpConnector.java:265-275 | queues `rest/control/<sender>/<data>` remembering the sender id for the reply |
| ConsoleConnector.Connector.SendCommand | AndroidLibrary/src/org/openremote/console/controller/connector/HttpConnector.java:278-305 | queues the named-command request, with the JSON parameter body when a parameter is given |
| ConsoleConnector.Connector.GetResourceInfoDetails | AndroidLibrary/src/org/openremote/console/controller/connector/HttpConnector.java:308-316 | queues a HEAD of the resource when a URL is set |
| ConsoleConnector.Connector.GetResourceData | AndroidLibrary/src/org/openremote/console/controller/connector/HttpConnector.java:319-327 | queues a fetch of the resource, remembering its name for the reply |
| ConsoleConnector.Connector.StartDiscovery | AndroidLibrary/src/org/openremote/console/controller/connector/HttpConnector.java:330-334 | starts a discovery server for the port and duration only if none is running |
| ConsoleConnector.Connector.StopDiscovery | AndroidLibrary/src/org/openremote/console/controller/connector/HttpConnector.java:337-339 | the running discovery server, if any, is cancelled and none is left held |
| ConsoleConnector.Connector.IsDiscoveryRunning | AndroidLibrary/src/org/openremote/console/controller/connector/AndroidHttpConnector.java:218-220 | true exactly while a discovery server is running |
| ConsoleConnector.Connector.OnDiscoveryReply | AndroidLibrary/src/org/openremote/console/controller/connector/HttpConnector.java:706-722 | a discovery reply is classified as a discovery response and reported to the discovery callback |
| ConsoleConnector.Connector.Logout | AndroidLibrary/src/org/openremote/console/controller/connector/AndroidHttpConnector.java:206-215 | forgets the credentials; sends a logout request if a URL is set, otherwise reports success at once |
| ConsoleConnector.Connector.OnHttpSuccess | AndroidLibrary/src/org/openremote/console/controller/connector/AndroidHttpConnector.java:141-157 | removes the request; a logout only clears the auth header, anything else reports its classified outcome, and a connect stores its callback. A connect reply moves the flags through the connect wrapper; any other reply leaves them alone |
| ConsoleConnector.Connector.OnHttpFailure | AndroidLibrary/src/org/openremote/console/controller/connector/AndroidHttpConnector.java:160-167 | removes the request and reports the transport failure to its callback; for a connect, the wrapper's intended failure clears both flags, and other requests leave them alone |
| DiscoveryClient.Client.constructor | AndroidLibrary/src/org/openremote/console/controller/connector/CustomAsyncHttpClient.java:47-52 | no discovery server is running |
| DiscoveryClient.Client.StartDiscovery | AndroidLibrary/src/org/openremote/console/controller/connector/CustomAsyncHttpClient.java:62-69 | a running server is kept; otherwise a fresh server for the port and duration is started in its initial state |
| DiscoveryClient.Client.StopDiscovery | AndroidLibrary/src/org/openremote/console/controller/connector/CustomAsyncHttpClient.java:77-82 | cancels the running server, if any, and forgets it |
| DiscoveryClient.Client.IsDiscoveryRunning | AndroidLibrary/src/org/openremote/console/controller/connector/CustomAsyncHttpClient.java:84-86 | true exactly while a server is held |
| DiscoveryClient.Client.RunServer | AndroidLibrary/src/org/openremote/console/controller/connector/ControllerDiscoveryServer.java:52-109 | running the held server produces start, the scheduled probes, finish and receiver cancel, or only a start failure (elapsed time unbounded; see Left out) |
| DiscoveryReceiver.CollectedIsDistinctNonEmpty | AndroidLibrary/src/org/openremote/console/controller/connector/ControllerDiscoveryReceiver.java:91-102 | the collected responses are exactly the distinct non-empty replies received |
| DiscoveryReceiver.Receiver.constructor | AndroidLibrary/src/org/openremote/console/controller/connector/ControllerDiscoveryReceiver.java:44-48 | nothing collected, not cancelled |
| DiscoveryReceiver.Receiver.ProcessResponse | AndroidLibrary/src/org/openremote/console/controller/connector/ControllerDiscoveryReceiver.java:91-102 | an empty or already collected reply is dropped, a new one is collected |
| DiscoveryReceiver.Receiver.Cancel | AndroidLibrary/src/org/openremote/console/controller/connector/ControllerDiscoveryReceiver.java:78-89 | marks the receiver cancelled and keeps what was collected |
| DiscoveryServer.Pow2 | AndroidLibrary/src/org/openremote/console/controller/connector/ControllerDiscoveryServer.java:77-79 | arithmetic helper for `PauseIsBoundedPowerOfTwo`: a power of two is at least one, so a doubled pause stays positive |
| DiscoveryServer.PauseIsBoundedPowerOfTwo | AndroidLibrary/src/org/openremote/console/controller/connector/ControllerDiscoveryServer.java:77-79 | the pause between probes is always 1000 ms times a power of two, between 1 s and 64 s |
| DiscoveryServer.ProbeWhenPauseDivides | AndroidLibrary/src/org/openremote/console/controller/connector/ControllerDiscoveryServer.java:66-80 | a probe goes out exactly at the ticks where the elapsed time is a multiple of the current pause |
| DiscoveryServer.PauseStep | AndroidLibrary/src/org/openremote/console/controller/connector/ControllerDiscoveryServer.java:77-86 | the pause doubles after a probe while below 60 s and otherwise stays |
| DiscoveryServer.LastMultiple | AndroidLibrary/src/org/openremote/console/controller/connector/ControllerDiscoveryServer.java:66 | within one tick's span of elapsed time the only multiple of 1000 is that tick's time, so each probe test happens at exactly one tick |
| DiscoveryServer.ProbesAreScheduled | AndroidLibrary/src/org/openremote/console/controller/connector/ControllerDiscoveryServer.java:64-94 | the probes sent in n ticks are exactly the probe times before n seconds |
| DiscoveryServer.LastTick | AndroidLibrary/src/org/openremote/console/controller/connector/ControllerDiscoveryServer.java:84-86 | the number of one-second ticks a duration allows: the first tick whose time exceeds it (in unbounded arithmetic; see Left out) |
| DiscoveryServer.Server.constructor | AndroidLibrary/src/org/openremote/console/controller/connector/ControllerDiscoveryServer.java:45-49 | a server for the port and duration at time zero with a 1 s pause |
| DiscoveryServer.Server.Cancel | AndroidLibrary/src/org/openremote/console/controller/connector/ControllerDiscoveryServer.java:111-114 | marks the server cancelled and nothing else |
| DiscoveryServer.Server.Tick | AndroidLibrary/src/org/openremote/console/controller/connector/ControllerDiscoveryServer.java:66-82 | one second passes, a probe is sent if it is a probe time, and the pause follows the schedule |
| DiscoveryServer.Server.Run | AndroidLibrary/src/org/openremote/console/controller/connector/ControllerDiscoveryServer.java:52-109 | a failed bind reports only the failure; otherwise start, the scheduled probes until the duration or a cancel, finish, and receiver cancel (elapsed time unbounded; see Left out) |
| Gates.Pass | AndroidLibrary/src/org/openremote/console/controller/ControllerCommandSender.java:19-43 | a completion reaches the caller's callback unchanged unless it goes through the wrapper of a disabled gate |
| Gates.CommandSender.constructor | AndroidLibrary/src/org/openremote/console/controller/ControllerCommandSender.java:12-15 | enabled, default timeout, no connector, nothing sent |
| Gates.CommandSender.SetConnector | AndroidLibrary/src/org/openremote/console/controller/ControllerCommandSender.java:77-79 | records whether a connector is set, nothing else |
| Gates.CommandSender.SetTimeout | AndroidLibrary/src/org/openremote/console/controller/ControllerCommandSender.java:72-75 | replaces the timeout, nothing else |
| Gates.CommandSender.Enable | AndroidLibrary/src/org/openremote/console/controller/ControllerCommandSender.java:81-83 | enables the sender, nothing else |
| Gates.CommandSender.Disable | AndroidLibrary/src/org/openremote/console/controller/ControllerCommandSender.java:85-87 | disables the sender, nothing else |
| Gates.CommandSender.SendControlCommand | AndroidLibrary/src/org/openremote/console/controller/ControllerCommandSender.java:19-43 | hands the command to the connector, with the sender's timeout, only when a connector is set; enabled or not |
| Gates.CommandSender.SendCommand | AndroidLibrary/src/org/openremote/console/controller/ControllerCommandSender.java:46-70 | hands the named command to the connector only when a connector is set |
| Gates.CommandSender.OnCompletion | AndroidLibrary/src/org/openremote/console/controller/ControllerCommandSender.java:26-39 | a completion reaches the caller only while the sender is enabled, and only callbacks of commands handed over ever hear anything |
| Gates.ResourceLocator.constructor | AndroidLibrary/src/org/openremote/console/controller/ControllerResourceLocator.java:10-13 | enabled, default timeout, no connector, nothing requested |
| Gates.ResourceLocator.SetConnector | AndroidLibrary/src/org/openremote/console/controller/ControllerResourceLocator.java:54-56 | records whether a connector is set, nothing else |
| Gates.ResourceLocator.SetTimeout | AndroidLibrary/src/org/openremote/console/controller/ControllerResourceLocator.java:49-52 | replaces the timeout, nothing else |
| Gates.ResourceLocator.Enable | AndroidLibrary/src/org/openremote/console/controller/ControllerResourceLocator.java:58-60 | enables the locator, nothing else |
| Gates.ResourceLocator.Disable | AndroidLibrary/src/org/openremote/console/controller/ControllerResourceLocator.java:62-64 | disables the locator, nothing else |
| Gates.ResourceLocator.GetResourceInfoDetails | AndroidLibrary/src/org/openremote/console/controller/ControllerResourceLocator.java:16-39 | hands the details request over only when a connector is set |
| Gates.ResourceLocator.GetResourceData | AndroidLibrary/src/org/openremote/console/controller/ControllerResourceLocator.java:42-47 | hands the data request over, with the caller's own callback, only when a connector is set |
| Gates.ResourceLocator.OnCompletion | AndroidLibrary/src/org/openremote/console/controller/ControllerResourceLocator.java:16-47 | a details completion reaches the caller only while enabled; a data completion always does |
| SensorMonitors.SensorMonitor.constructor | AndroidLibrary/src/org/openremote/console/controller/ControllerSensorMonitor.java:19-22 | a monitor of the given widgets and ids, enabled, no connector, nothing polled |
| SensorMonitors.SensorMonitor.SetConnector | AndroidLibrary/src/org/openremote/console/controller/ControllerSensorMonitor.java:24-26 | records whether a connector is set, nothing else |
| SensorMonitors.SensorMonitor.Start | AndroidLibrary/src/org/openremote/console/controller/ControllerSensorMonitor.java:28-33 | polls the ids with the 55 s timeout exactly when a connector is set and the monitor is enabled |
| SensorMonitors.SensorMonitor.Enable | AndroidLibrary/src/org/openremote/console/controller/ControllerSensorMonitor.java:35-37 | enables, nothing else |
| SensorMonitors.SensorMonitor.Disable | AndroidLibrary/src/org/openremote/console/controller/ControllerSensorMonitor.java:39-41 | disables, nothing else |
| SensorMonitors.SensorMonitor.OnFailure | AndroidLibrary/src/org/openremote/console/controller/ControllerSensorMonitor.java:44-51 | a failed poll is ignored when disabled and otherwise starts the next poll |
| SensorMonitors.SensorMonitor.OnSuccess | AndroidLibrary/src/org/openremote/console/controller/ControllerSensorMonitor.java:54-73 | when enabled, pushes the delta to the monitored widgets and polls again; when disabled, nothing happens |
| SensorMonitors.Pushed | AndroidLibrary/src/org/openremote/console/controller/ControllerSensorMonitor.java:59-70 | a null delta pushes nothing |
| SensorMonitors.PushedValues | AndroidLibrary/src/org/openremote/console/controller/ControllerSensorMonitor.java:59-70 | a widget receives (ref, value) exactly when the delta maps ref to value and the widget links to ref |
| RegistrationHandles.RegistrationHandle.constructor | AndroidLibrary/src/org/openremote/console/controller/RegistrationHandle.java:10-12 | keeps the callback; not registered |
| RegistrationHandles.RegistrationHandle.GetCallback | AndroidLibrary/src/org/openremote/console/controller/RegistrationHandle.java:14-16 | returns the callback given at construction |
| RegistrationHandles.RegistrationHandle.IsRegistered | AndroidLibrary/src/org/openremote/console/controller/RegistrationHandle.java:18-20 | returns the flag |
| RegistrationHandles.RegistrationHandle.SetIsRegistered | AndroidLibrary/src/org/openremote/console/controller/RegistrationHandle.java:22-24 | sets the flag |
| RegistrationHandles.PanelRegistrationHandle.constructor | AndroidLibrary/src/org/openremote/console/controller/PanelRegistrationHandle.java:18-21 | keeps the panel and callback; nothing computed yet |
| RegistrationHandles.PanelRegistrationHandle.GetSensorIds | AndroidLibrary/src/org/openremote/console/controller/PanelRegistrationHandle.java:28-51 | the de-duplicated refs of the panel's sensory widgets (none for a null widget list), computed once and then returned from the cache |
| RegistrationHandles.PanelRegistrationHandle.OnSensorsChanged | AndroidLibrary/src/org/openremote/console/controller/PanelRegistrationHandle.java:54-65 | every entry reaches every monitored link whose ref equals its key |
| RegistrationHandles.SensorIdList | AndroidLibrary/src/org/openremote/console/controller/DeviceRegistrationHandle.java:38-48 | one id per device sensor, in order, duplicates kept |
| RegistrationHandles.DeviceRegistrationHandle.constructor | AndroidLibrary/src/org/openremote/console/controller/DeviceRegistrationHandle.java:15-18 | keeps the device and callback; nothing computed yet |
| RegistrationHandles.DeviceRegistrationHandle.GetSensorIds | AndroidLibrary/src/org/openremote/console/controller/DeviceRegistrationHandle.java:38-48 | the ids of the device's sensors (none if it has no list), computed once and then returned from the cache |
| RegistrationHandles.DeviceRegistrationHandle.OnSensorsChanged | AndroidLibrary/src/org/openremote/console/controller/DeviceRegistrationHandle.java:25-35 | whatever the iteration order, each sensor ends with the delta's value for its id or keeps its own |
| RegistrationHandles.ApplyEntry | AndroidLibrary/src/org/openremote/console/controller/DeviceRegistrationHandle.java:28-32 | one entry is written into every sensor with that id, and no other sensor changes |
| RegistrationHandles.SensorIdsUnchanged | AndroidLibrary/src/org/openremote/console/controller/DeviceRegistrationHandle.java:25-35 | rewriting sensor values leaves the id list as it was |
| Session.UnregisteredAsWritten | AndroidLibrary/src/org/openremote/console/controller/Controller.java:277-305 | as written, unregistering removes at most the given panel; it stays registered when a consumer's resource list is null |
| Session.NullResourceListBlocksUnregister | AndroidLibrary/src/org/openremote/console/controller/Controller.java:290-294 | a panel with one consumer whose resource list is null cannot be unregistered as written |
| Session.Controller.constructor | AndroidLibrary/src/org/openremote/console/controller/Controller.java:47-60 | default timeout, no registrations, no connect callback |
| Session.Controller.Create | AndroidLibrary/src/org/openremote/console/controller/Controller.java:77-100 | a fresh session with the URL stored, having disconnected and passed the credentials on |
| Session.Controller.SetTimeout | AndroidLibrary/src/org/openremote/console/controller/Controller.java:107-109 | replaces the timeout; registrations unchanged |
| Session.Controller.SetCredentials | AndroidLibrary/src/org/openremote/console/controller/Controller.java:124-126 | passes the credentials to the connector |
| Session.Controller.NewHandles | AndroidLibrary/src/org/openremote/console/controller/Controller.java:158-186 | fresh handles: the monitor watches the sensory widgets and their de-duplicated ids; sender and locator enabled, connected to the connector, with nothing sent |
| Session.Controller.AddPanel | AndroidLibrary/src/org/openremote/console/controller/Controller.java:187-189 | the panel is entered in all three maps with its handles |
| Session.Controller.RegisterPanel | AndroidLibrary/src/org/openremote/console/controller/Controller.java:153-237 | a null or already registered panel changes nothing; a null widget list throws; otherwise the panel is registered with fresh handles |
| Session.Controller.RegisterNew | AndroidLibrary/src/org/openremote/console/controller/Controller.java:158-236 | registers fresh handles, asks for the initial values when there are ids to watch and otherwise wires the handlers and starts the monitor |
| Session.Controller.DisablePanel | AndroidLibrary/src/org/openremote/console/controller/Controller.java:283-285 | disables the three handles of a panel, nothing else |
| Session.Controller.RemovePanel | AndroidLibrary/src/org/openremote/console/controller/Controller.java:301-303 | removes the panel from all maps |
| Session.Controller.UnregisterPanel | AndroidLibrary/src/org/openremote/console/controller/Controller.java:277-305 | a registered panel's handles are disabled and it leaves every map; an unregistered panel changes nothing |
| Session.Controller.OnSnapshotFailure | AndroidLibrary/src/org/openremote/console/controller/Controller.java:195-200 | a failed initial-value fetch unregisters a still-registered panel: its handles end disabled and it leaves every map |
| Session.Controller.OnSnapshotSuccess | AndroidLibrary/src/org/openremote/console/controller/Controller.java:204-225 | if still registered, wires the handlers and starts the monitor; in any case pushes the initial values to the panel's sensory widgets. The monitor keeps its connector and enabled flag, so it polls exactly when its panel is registered and it is connected and enabled |
| Session.Controller.SetMonitor | AndroidLibrary/src/org/openremote/console/controller/Controller.java:386-389 | sets a monitor's flag and, when enabling with restart, starts it |
| Session.Controller.SetMonitorFlags | AndroidLibrary/src/org/openremote/console/controller/Controller.java:386-389 | every monitor in the map gets the flag, and is restarted if asked; no other handle changes |
| Session.Controller.SetLocatorFlags | AndroidLibrary/src/org/openremote/console/controller/Controller.java:382-384 | every locator in the map gets the flag; no other handle changes |
| Session.Controller.SetSenderFlags | AndroidLibrary/src/org/openremote/console/controller/Controller.java:378-380 | every sender in the map gets the flag; no other handle changes |
| Session.Controller.DisableAll | AndroidLibrary/src/org/openremote/console/controller/Controller.java:414-423 | every monitor, sender and locator is disabled, none restarted |
| Session.Controller.EnableAll | AndroidLibrary/src/org/openremote/console/controller/Controller.java:377-389 | every sender and locator is enabled, every monitor enabled and restarted |
| Session.Controller.DisableHandles | AndroidLibrary/src/org/openremote/console/controller/Controller.java:414-423 | disables every registered handle; the session itself is unchanged |
| Session.Controller.Disconnect | AndroidLibrary/src/org/openremote/console/controller/Controller.java:414-426 | disables every registered handle and disconnects the connector |
| Session.Controller.Connect | AndroidLibrary/src/org/openremote/console/controller/Controller.java:352-398 | stores the callback; a missing, empty or malformed URL fails at once with INVALID_URL, otherwise the URL is set and a connect sent |
| Session.Controller.ConnectAttempt | AndroidLibrary/src/org/openremote/console/controller/Controller.java:361-373 | the URL check and the connect request, as a value |
| Session.Controller.EnableHandles | AndroidLibrary/src/org/openremote/console/controller/Controller.java:376-389 | enables every registered handle and restarts every monitor |
| Session.Controller.OnConnectSuccess | AndroidLibrary/src/org/openremote/console/controller/Controller.java:376-391 | re-enables every handle, restarts every monitor, then reports success to the caller |
| Session.Controller.OnConnectFailure | AndroidLibrary/src/org/openremote/console/controller/Controller.java:394-396 | reports the failure to the caller |
| Session.Controller.StoreUrl | AndroidLibrary/src/org/openremote/console/controller/Controller.java:330 | stores the controller URL; no handle changes |
| Session.Controller.SetControllerInfo | AndroidLibrary/src/org/openremote/console/controller/Controller.java:327-335 | disconnects (disabling every handle), stores the URL, and reconnects with the stored callback and session timeout when it was connected |
| LegacyClassifier.ProcessError | AndroidLibrary/src/org/openremote/java/console/controller/connector/HttpConnector.java:410-421 | the older error handling is the same as the newer one; a missing body is an unknown error |
| LegacyClassifier.SuccessOnlyOnAcceptedStatus | AndroidLibrary/src/org/openremote/java/console/controller/connector/HttpConnector.java:249-408 | a success is delivered only for the status codes each command's branch accepts |
| LegacyClassifier.PollingClassification | AndroidLibrary/src/org/openremote/java/console/controller/connector/HttpConnector.java:310-328 | 504 delivers the empty delta, 200 with a status list delivers its value map (null list: null), anything else goes to the error decoder |
| LegacyClassifier.TimeOutBodyDiffers | AndroidLibrary/src/org/openremote/java/console/controller/connector/HttpConnector.java:310-328 | unlike the newer connector, a 200 poll carrying a time-out error document is reported as a failure |
| LegacyClassifier.LogoutClassification | AndroidLibrary/src/org/openremote/java/console/controller/connector/HttpConnector.java:344-351 | logout succeeds exactly on 200 or 401 |
| LegacyClassifier.ResourceAttachesBodyOnlyWhenAsked | AndroidLibrary/src/org/openremote/java/console/controller/connector/HttpConnector.java:352-390 | a resource reply carries the header details, and the body only when data was asked for |
| LegacyClassifier.NullPanelListReachesErrorDecoder | AndroidLibrary/src/org/openremote/java/console/controller/connector/HttpConnector.java:266-281 | a JSON-null panel list is silent in the older connector, where the newer one lets an exception escape |
| LegacyConnector.LegacyEventsOf | AndroidLibrary/src/org/openremote/java/console/controller/connector/HttpConnector.java:249-408 | a response's callback calls reach the request's callback in order; a request without a callback escapes if it would call one |
| LegacyConnector.Connector.constructor | AndroidLibrary/src/org/openremote/java/console/controller/connector/HttpConnector.java:76-82 | disconnected, no URL, no credentials, nothing sent |
| LegacyConnector.Connector.SetControllerUrl | AndroidLibrary/src/org/openremote/java/console/controller/connector/HttpConnector.java:85-87 | replaces the URL, nothing else |
| LegacyConnector.Connector.Issue | AndroidLibrary/src/org/openremote/java/console/controller/connector/HttpConnector.java:435-457 | with a URL set, sends the request for the built path; without one, sends nothing |
| LegacyConnector.Connector.SetCredentials | AndroidLibrary/src/org/openremote/java/console/controller/connector/HttpConnector.java:95-99 | stores the credentials and logs in with a 3 s timeout and no callback |
| LegacyConnector.Connector.Connect | AndroidLibrary/src/org/openremote/java/console/controller/connector/HttpConnector.java:113-119 | sends `rest/servers` with the caller's callback and timeout when a URL is set |
| LegacyConnector.Connector.Disconnect | AndroidLibrary/src/org/openremote/java/console/controller/connector/HttpConnector.java:122-125 | marks disconnected, nothing else |
| LegacyConnector.Connector.GetPanelInfo | AndroidLibrary/src/org/openremote/java/console/controller/connector/HttpConnector.java:128-134 | sends `rest/panels/` when a URL is set |
| LegacyConnector.Connector.GetPanel | AndroidLibrary/src/org/openremote/java/console/controller/connector/HttpConnector.java:137-143 | sends `rest/panel/<name>` when a URL is set |
| LegacyConnector.Connector.MonitorSensors | AndroidLibrary/src/org/openremote/java/console/controller/connector/HttpConnector.java:146-158 | sends the poll `rest/polling/<uuid>/<ids>` when a URL is set |
| LegacyConnector.Connector.GetSensorValues | AndroidLibrary/src/org/openremote/java/console/controller/connector/HttpConnector.java:161-171 | sends `rest/status/<ids>` when a URL is set |
| LegacyConnector.Connector.Logout | AndroidLibrary/src/org/openremote/java/console/controller/connector/HttpConnector.java:174-181 | forgets the credentials and sends a logout when a URL is set |
| LegacyConnector.Connector.SendCommand | AndroidLibrary/src/org/openremote/java/console/controller/connector/HttpConnector.java:184-191 | sends `rest/control/<sender>/<data>` when a URL is set |
| LegacyConnector.Connector.GetResource | AndroidLibrary/src/org/openremote/java/console/controller/connector/HttpConnector.java:194-202 | sends the resource request, remembering whether the body is wanted |
| LegacyConnector.Connector.GetResourceData | AndroidLibrary/src/org/openremote/java/console/controller/connector/HttpConnector.java:212-219 | sends the resource data request |
| LegacyConnector.Connector.OnResponse | AndroidLibrary/src/org/openremote/java/console/controller/connector/HttpConnector.java:249-408 | removes the request, reports its classified outcome, and a 200 connect marks the connector connected |
| LegacyDiscovery.EveryTick | AndroidLibrary/src/org/openremote/java/console/controller/connector/ControllerDiscoveryServer.java:62-84 | the older server sends a probe on every one-second tick |
| LegacyDiscovery.Addresses | AndroidLibrary/src/org/openremote/java/console/controller/connector/ControllerDiscoveryReceiver.java:61-65 | the addresses of the connections, in order |
| LegacyDiscovery.HandledOncePerAddress | AndroidLibrary/src/org/openremote/java/console/controller/connector/ControllerDiscoveryReceiver.java:56-69 | each remote address is handled once: the handled addresses are the distinct addresses received |
| LegacyDiscovery.RepeatAddressIgnored | AndroidLibrary/src/org/openremote/java/console/controller/connector/ControllerDiscoveryReceiver.java:61-65 | a second connection from a known address is ignored |
| LegacyDiscovery.SameReplyFromTwoAddresses | AndroidLibrary/src/org/openremote/java/console/controller/connector/ControllerDiscoveryReceiver.java:56-69 | the same reply from two addresses is forwarded twice; replies themselves are not de-duplicated |
| LegacyDiscovery.LegacyServer.constructor | AndroidLibrary/src/org/openremote/java/console/controller/connector/ControllerDiscoveryServer.java:39-43 | a server for the port and duration at time zero |
| LegacyDiscovery.LegacyServer.Cancel | AndroidLibrary/src/org/openremote/java/console/controller/connector/ControllerDiscoveryServer.java:93-96 | marks the server cancelled, nothing else |
| LegacyDiscovery.LegacyServer.Run | AndroidLibrary/src/org/openremote/java/console/controller/connector/ControllerDiscoveryServer.java:45-91 | a failed bind reports only the failure; otherwise start, a probe per tick until the duration or a cancel, receiver cancel, then finish (elapsed time unbounded; see Left out) |
| LegacyDiscovery.LegacyReceiver.constructor | AndroidLibrary/src/org/openremote/java/console/controller/connector/ControllerDiscoveryReceiver.java:56-69 | no address seen, nothing forwarded |
| LegacyDiscovery.LegacyReceiver.Cancel | AndroidLibrary/src/org/openremote/java/console/controller/connector/ControllerDiscoveryReceiver.java:71-74 | marks the receiver cancelled |
| LegacyDiscovery.LegacyReceiver.Accept | AndroidLibrary/src/org/openremote/java/console/controller/connector/ControllerDiscoveryReceiver.java:61-65 | a known address is ignored; a new one is recorded and its non-empty reply forwarded |
| LegacyDiscovery.LegacyReceiver.AcceptAll | AndroidLibrary/src/org/openremote/java/console/controller/connector/ControllerDiscoveryReceiver.java:56-69 | accepting connections one by one records exactly the once-per-address handling |
| LegacyHandlers.Pass | AndroidLibrary/src/org/openremote/java/console/controller/Controller.java:104-184 | a completion reaches the caller unchanged unless it passes through the wrapper of a cancelled handler |
| LegacyHandlers.MonitorHandler.constructor | AndroidLibrary/src/org/openremote/java/console/controller/Controller.java:50-58 | a handler for the widgets and ids, not cancelled, nothing polled |
| LegacyHandlers.MonitorHandler.Start | AndroidLibrary/src/org/openremote/java/console/controller/Controller.java:60-65 | always polls the ids with the 55 s timeout; the flag is not consulted |
| LegacyHandlers.MonitorHandler.Cancel | AndroidLibrary/src/org/openremote/java/console/controller/Controller.java:67-69 | sets the cancelled flag, nothing else |
| LegacyHandlers.MonitorHandler.Resume | AndroidLibrary/src/org/openremote/java/console/controller/Controller.java:487-489 | clears the cancelled flag, nothing else |
| LegacyHandlers.MonitorHandler.OnFailure | AndroidLibrary/src/org/openremote/java/console/controller/Controller.java:72-79 | ignored once cancelled, otherwise polls again |
| LegacyHandlers.MonitorHandler.OnSuccess | AndroidLibrary/src/org/openremote/java/console/controller/Controller.java:82-101 | ignored once cancelled, otherwise pushes the delta to the widgets and polls again |
| LegacyHandlers.CommandHandler.constructor | AndroidLibrary/src/org/openremote/java/console/controller/Controller.java:104-105 | not cancelled, nothing sent |
| LegacyHandlers.CommandHandler.Cancel | AndroidLibrary/src/org/openremote/java/console/controller/Controller.java:107-109 | sets the cancelled flag, nothing else |
| LegacyHandlers.CommandHandler.Resume | AndroidLibrary/src/org/openremote/java/console/controller/Controller.java:479-481 | clears the cancelled flag, nothing else |
| LegacyHandlers.CommandHandler.SendCommand | AndroidLibrary/src/org/openremote/java/console/controller/Controller.java:112-136 | hands the command to the connector with the session timeout, cancelled or not |
| LegacyHandlers.CommandHandler.OnCompletion | AndroidLibrary/src/org/openremote/java/console/controller/Controller.java:112-136 | a completion reaches the caller only while not cancelled |
| LegacyHandlers.LocatorHandler.constructor | AndroidLibrary/src/org/openremote/java/console/controller/Controller.java:139-140 | not cancelled, nothing requested |
| LegacyHandlers.LocatorHandler.Cancel | AndroidLibrary/src/org/openremote/java/console/controller/Controller.java:142-144 | sets the cancelled flag, nothing else |
| LegacyHandlers.LocatorHandler.Resume | AndroidLibrary/src/org/openremote/java/console/controller/Controller.java:483-485 | clears the cancelled flag, nothing else |
| LegacyHandlers.LocatorHandler.GetResource | AndroidLibrary/src/org/openremote/java/console/controller/Controller.java:147-175 | asks for the data when the caller does or the session's load-resource-data flag is set |
| LegacyHandlers.LocatorHandler.GetResourceData | AndroidLibrary/src/org/openremote/java/console/controller/Controller.java:178-183 | hands the request over with the caller's own callback |
| LegacyHandlers.LocatorHandler.OnCompletion | AndroidLibrary/src/org/openremote/java/console/controller/Controller.java:147-183 | a resource completion reaches the caller only while not cancelled; a data completion always does |
| LegacySession.Controller.constructor | AndroidLibrary/src/org/openremote/java/console/controller/Controller.java:186-196 | default timeout, resource data not loaded, no registrations |
| LegacySession.Controller.Create | AndroidLibrary/src/org/openremote/java/console/controller/Controller.java:235-238 | a fresh session having disconnected, set the URL and passed the credentials on |
| LegacySession.Controller.SetTimeout | AndroidLibrary/src/org/openremote/java/console/controller/Controller.java:245-247 | replaces the timeout; registrations unchanged |
| LegacySession.Controller.SetCredentials | AndroidLibrary/src/org/openremote/java/console/controller/Controller.java:262-264 | passes the credentials to the connector |
| LegacySession.Controller.SetLoadResourceData | AndroidLibrary/src/org/openremote/java/console/controller/Controller.java:417-419 | replaces the load-resource-data flag; registrations unchanged |
| LegacySession.Controller.NewHandles | AndroidLibrary/src/org/openremote/java/console/controller/Controller.java:296-321 | fresh handlers: the monitor watches the sensory widgets and their de-duplicated ids; none cancelled, nothing sent |
| LegacySession.Controller.AddPanel | AndroidLibrary/src/org/openremote/java/console/controller/Controller.java:322-324 | the panel is entered in all three maps with its handlers |
| LegacySession.Controller.RegisterPanel | AndroidLibrary/src/org/openremote/java/console/controller/Controller.java:291-365 | a null or already registered panel changes nothing; a null widget list throws; otherwise the panel is registered |
| LegacySession.Controller.RegisterNew | AndroidLibrary/src/org/openremote/java/console/controller/Controller.java:296-327 | registers fresh handlers and always asks for the initial values, even with no id to watch |
| LegacySession.Controller.CancelPanel | AndroidLibrary/src/org/openremote/java/console/controller/Controller.java:389-391 | cancels the three handlers of a panel, nothing else |
| LegacySession.Controller.RemovePanel | AndroidLibrary/src/org/openremote/java/console/controller/Controller.java:404-406 | removes the panel from all maps |
| LegacySession.Controller.UnregisterPanel | AndroidLibrary/src/org/openremote/java/console/controller/Controller.java:383-408 | a registered panel's handlers are cancelled and it leaves every map; otherwise nothing changes |
| LegacySession.Controller.OnSnapshotFailure | AndroidLibrary/src/org/openremote/java/console/controller/Controller.java:329-337 | a failed initial-value fetch still starts the monitor and wires the handlers if the panel is registered |
| LegacySession.Controller.OnSnapshotSuccess | AndroidLibrary/src/org/openremote/java/console/controller/Controller.java:340-362 | pushes the initial values to the panel's sensory widgets, then wires and starts the monitor if still registered |
| LegacySession.Controller.SetMonitor | AndroidLibrary/src/org/openremote/java/console/controller/Controller.java:487-490 | sets a monitor's flag; a monitor that is resumed is started |
| LegacySession.Controller.SetMonitorFlags | AndroidLibrary/src/org/openremote/java/console/controller/Controller.java:487-490 | every monitor in the map gets the flag, and is started when resumed; no other handler changes |
| LegacySession.Controller.SetLocatorFlags | AndroidLibrary/src/org/openremote/java/console/controller/Controller.java:483-485 | every locator in the map gets the flag; no other handler changes |
| LegacySession.Controller.SetSenderFlags | AndroidLibrary/src/org/openremote/java/console/controller/Controller.java:479-481 | every sender in the map gets the flag; no other handler changes |
| LegacySession.Controller.CancelAll | AndroidLibrary/src/org/openremote/java/console/controller/Controller.java:515-524 | every monitor, sender and locator is cancelled |
| LegacySession.Controller.ResumeAll | AndroidLibrary/src/org/openremote/java/console/controller/Controller.java:477-490 | every handler is resumed and every monitor started |
| LegacySession.Controller.Disconnect | AndroidLibrary/src/org/openremote/java/console/controller/Controller.java:515-527 | cancels every registered handler and disconnects the connector |
| LegacySession.Controller.Connect | AndroidLibrary/src/org/openremote/java/console/controller/Controller.java:466-499 | stores the callback and sends a connect with the given timeout |
| LegacySession.Controller.OnConnectSuccess | AndroidLibrary/src/org/openremote/java/console/controller/Controller.java:477-492 | resumes every handler, starts every monitor, then reports success |
| LegacySession.Controller.OnConnectFailure | AndroidLibrary/src/org/openremote/java/console/controller/Controller.java:495-497 | reports the failure to the caller |
| LegacySession.Controller.StoreUrl | AndroidLibrary/src/org/openremote/java/console/controller/Controller.java:445 | stores the connector URL; no handler changes |
| LegacySession.Controller.SetControllerUrl | AndroidLibrary/src/org/openremote/java/console/controller/Controller.java:438-449 | the same URL changes nothing; otherwise disconnects (cancelling every handler), sets the URL and reconnects with the stored callback and session timeout when it was connected |

## Left out

- Threads, sockets, timers, HTTP and UDP I/O are not modelled. Their outcomes are parameters:
  - bind success;
  - the tick at which a cancel is seen;
  - connect time-out;
  - the received bytes.
- JSON and XML decoding and date parsing are not modelled. A body is represented by the document kind it would decode to. A header's parsed date is given with the header.
- URI and URL parsing are not modelled: a built request path is assumed to parse. In the newer session, whether a URL is malformed is an input. `URL.equals` in the older session is string equality.
- `SingleThreadHttpConnector` is not part of this model.
  - The newer `Controller` instantiates it; the model wires the modelled HTTP connector instead.
  - The null-connector branches of both `connect` methods cannot be reached: the field is initialised and never reassigned. They are left out.
- The older `AndroidHttpConnector` transport is not part of this model. Older requests end at `LegacyConnector.Connector.OnResponse`.
- The connector objects seen by the session and handler classes are not modelled. Those classes return the calls they make (`sent`, `polls`, `calls`), and a completion is delivered by naming the call it completes.
- Header maps and value maps are iterated in `HashMap` order, which is taken as an input. The `headers` sequence stands for the header map built from the reply, in its iteration order. Exact-name duplicates are assumed to be already collapsed.
- Simple getters and pure pass-throughs are not modelled: `getTimeout`, `getCredentials`, `getControllerInfo`, `getControllerUrl`, `getLoadResourceData`, `isConnected`, and the session's `getPanelList`, `getPanel`, `getDeviceList`, `getPanelInfo` and `logout`, which forward to the connector unchanged.
- `registerDevice`, `unregisterDevice` and the three-argument `getDevice` in the newer `Controller` have empty bodies; the two-argument `getDevice` calls the three-argument one, so a device request made through the session is dropped, not forwarded. Nothing models these.
- Discovery callbacks for start, stop and start failure are the signals of `DiscoveryServer.Server.Run`. The response handler that reads a reply socket is left out.
- DiscoveryServer.Server.Run: `elapsedTime` is a Java `int` that `elapsedTime += 1000` wraps past 2147483647. The model's elapsed time is unbounded. After n ticks the source's time is 1000·n reduced to a signed 32-bit value. Because gcd(1000, 2^32) = 8, that value eventually reaches every multiple of 8 in `int` range, and never more than 2147483640. So for a duration from 2147483000 to 2147483639, the source leaves the loop only when the wrapped time next exceeds the duration. That is much later than the model's `LastTick(duration)`, which is 2147484 for all of them: tick 10737418 for 2147483000, tick 23622320 for 2147483500 and tick 152471339 for 2147483639. Only for a duration of 2147483640 or more does the `elapsedTime > duration` exit never fire, so the loop ends only on a cancel. Without a duration, the probe schedule after the first wrap also differs, because Java `%` of a negative number is negative.
- DiscoveryServer.LastTick: matches the source only while `1000 * LastTick(d)` fits in a Java `int`, that is, for d below 2147483000. Above that, the source's exit tick is the later one described under `DiscoveryServer.Server.Run`, or there is none.
- DiscoveryClient.Client.RunServer: inherits the unbounded elapsed time of `DiscoveryServer.Server.Run`.
- LegacyDiscovery.LegacyServer.Run: the older server's `elapsedTime` is a Java `int` with the same wrap, and the model's elapsed time is unbounded. For a duration from 2147483000 to 2147483639, the source finishes only when the wrapped time next exceeds the duration. For example, that is tick 10737418 for 2147483000, where the model's `LastTick` gives 2147484. For a duration of 2147483640 or more, it runs until cancelled, whereas the model finishes after `LastTick(duration)` ticks.
- Text.EqualsIgnoreCase: `Lower` folds only ASCII letters, where `String.equalsIgnoreCase` folds all Unicode letters. Header names are ASCII tokens (section 5.1 of RFC 9110), so valid headers compare the same.
- Panels and devices are identified by an id. Java `HashMap` keys use object identity or `equals`.
- Session.Controller.Connect: `connect(callback)` without a timeout is `Connect` called with the session timeout.
- LegacySession.Controller.UnregisterPanel: the older `unregisterPanel` would throw on a null widget list. A registered panel always has one, because `registerPanel` throws before storing a panel without one. The model therefore does not consult the widget list when unregistering; widget wiring is tracked per panel id.
- Inherited `HttpConnector` fields shared with `AndroidHttpConnector` are merged into one class in `ConsoleConnector.Connector`.

## Findings

| source | as written | input that shows it | evidently intended | confidence | as-written member | corrected member |
|---|---|---|---|---|---|---|
| AndroidLibrary/src/org/openremote/console/controller/connector/HttpConnector.java:160-163 | the connect wrapper's failure path clears `connected` but not `connectInProgress` | a connect whose request fails: afterwards `connect` is refused for good, and `disconnect` returns at once because the connector is not connected | a failed connect ends the attempt, so the in-progress flag is cleared and a later connect is sent. The correction does not cover a refused connect whose body is a JSON null: the error decoder calls no callback, so the flag stays set (`ConsoleConnector.SilentConnectErrorKeepsFlags`) | not executed | ConsoleConnector.ConnectFailureAsWrittenWedges | ConsoleConnector.ConnectFailureAllowsRetry |
| AndroidLibrary/src/org/openremote/console/controller/Controller.java:290-294 | `unregisterPanel` iterates every consumer's resource list without the null check that `connectHandlers` makes (line 259) | a registered panel with one resource consumer whose resource list is null: the handles are disabled, then the loop throws before the maps are updated, so the panel stays registered | a null resource list is skipped and the panel is removed | not executed | Session.NullResourceListBlocksUnregister | Session.Controller.UnregisterPanel |

=== FILE: console_connector.dfy ===
/**
 * The newer connector: the REST connector base class together with its Android
 * transport adapter, as one object. It keeps the connected and
 * connect-in-progress flags, builds each request (path, HTTP method, content,
 * timeout) and sends it only when a controller URL is set, and turns each
 * completion (an HTTP answer or a transport failure) into callback invocations
 * through the response classifier.
 *
 * Requests in flight are the `pending` list; a completion names the request it
 * completes by its position. Callback invocations are appended to `events`.
 * The HTTP client itself, URL parsing and the JSON decoder are not modelled.
 */
module ConsoleConnector {
  import opened Wrappers
  import opened Protocol
  import opened Text
  import opened RequestPaths
  import opened ResponseClassifier
  import DiscoveryClient

  datatype HttpMethod = Head | Get | Post

  /** HEAD for resource details, GET for the XML document, POST for every other
      request sent over HTTP. */
  function HttpMethodFor(c: RestCommand): (m: HttpMethod)
    ensures m == Head <==> c == GetResourceDetails
    ensures m == Get <==> c == GetXml
  {
    if c == GetResourceDetails then Head else if c == GetXml then Get else Post
  }

  /** The commands the transport handles itself instead of sending them over HTTP. */
  predicate RoutedAway(c: RestCommand)
  {
    c == Discovery || c == StopDiscovery || c == Disconnect
  }

  /** What a transport-level failure delivers: a poll that failed because the
      connection timed out is an empty delta, anything else is UNKNOWN_ERROR. */
  function TransportFailure(c: RestCommand, connectTimeout: bool): (d: Delivery)
    ensures d == Success(NullResult) <==> c == DoSensorPolling && connectTimeout
    ensures d.Success? || d == Failure(UnknownError)
  {
    if c == DoSensorPolling && connectTimeout then Success(NullResult) else Failure(UnknownError)
  }

  datatype Credentials = Credentials(username: string, password: string)

  /** A request handed to the HTTP client, with the completion data it carries. */
  datatype Request = Request(
    verb: HttpMethod,
    path: string,
    content: Option<string>,
    command: RestCommand,
    data: RequestData,
    callback: CallbackId,
    timeout: int)

  /** One observable effect of a completion: a callback invocation, or an unchecked
      exception leaving the handler. */
  datatype Event = Delivered(callback: CallbackId, delivery: Delivery) | Escaped(command: RestCommand)

  /** The events an outcome produces for one callback, in order. */
  function EventsOf(cb: CallbackId, command: RestCommand, o: Outcome): (es: seq<Event>)
    ensures |es| == |o.deliveries| + (if o.escapes then 1 else 0)
    ensures forall i :: 0 <= i < |o.deliveries| ==> es[i] == Delivered(cb, o.deliveries[i])
    ensures o.escapes ==> es[|es| - 1] == Escaped(command)
  {
    seq(|o.deliveries|, i requires 0 <= i < |o.deliveries| => Delivered(cb, o.deliveries[i]))
    + (if o.escapes then [Escaped(command)] else [])
  }

  // ---------------------------------------------------------------------------
  // The connection flags
  // ---------------------------------------------------------------------------

  /** The connected and connect-in-progress flags together. */
  datatype Flags = Flags(connected: bool, inProgress: bool)

  /** Whether `connect` sends a CONNECT request. */
  predicate ConnectSends(urlSet: bool, f: Flags)
  {
    urlSet && !f.connected && !f.inProgress
  }

  /** The flags after `connect`. */
  function AfterConnect(urlSet: bool, f: Flags): Flags
  {
    if ConnectSends(urlSet, f) then Flags(false, true) else f
  }

  /** The flags after `disconnect`: a no-op unless connected, and disconnecting only
      clears `connected`. */
  function AfterDisconnect(f: Flags): Flags
  {
    Flags(false, f.inProgress)
  }

  /** The connect wrapper's success: connected, and no longer in progress. */
  function OnConnectSuccess(f: Flags): Flags
  {
    Flags(true, false)
  }

  /** The connect wrapper's failure as written: not connected, but the in-progress
      flag is left as it was. */
  function OnConnectFailureAsWritten(f: Flags): Flags
  {
    Flags(false, f.inProgress)
  }

  /** The connect wrapper's failure as intended: not connected and no longer in
      progress. This is the transition the connector uses. */
  function OnConnectFailure(f: Flags): Flags
  {
    Flags(false, false)
  }

  /** As written, a failed connect wedges the connector: once the in-progress flag is
      set and the attempt fails, `connect` never sends again and `disconnect`
      cannot help, since both leave the flags where they are. */
  lemma ConnectFailureAsWrittenWedges(f: Flags)
    requires ConnectSends(true, f)
    ensures var g := OnConnectFailureAsWritten(AfterConnect(true, f));
      && !ConnectSends(true, g)
      && AfterConnect(true, g) == g
      && AfterDisconnect(g) == g
  {
  }

  /** With the intended transition, a failed connect can be retried, and every
      transition keeps the flags from saying connected and in progress at once. */
  lemma ConnectFailureAllowsRetry(f: Flags, urlSet: bool)
    requires ConnectSends(true, f)
    ensures ConnectSends(true, OnConnectFailure(AfterConnect(true, f)))
    ensures !(f.connected && f.inProgress) ==>
      && !(AfterConnect(urlSet, f).connected && AfterConnect(urlSet, f).inProgress)
      && !AfterDisconnect(f).connected
      && !OnConnectSuccess(f).inProgress
      && !OnConnectFailure(f).connected && !OnConnectFailure(f).inProgress
  {
  }

  /** Even with the intended transition, a refused CONNECT whose body is a JSON
      `null` leaves the connector connecting: the error decoder calls no callback,
      so the wrapper never hears of the failure. */
  lemma SilentConnectErrorKeepsFlags(data: RequestData, responseCode: int, headers: seq<Header>,
                                     text: string, xml: XmlWalk, f: Flags)
    requires responseCode != 200
    ensures HandleResponse(Protocol.Connect, data, responseCode, headers, Bytes(text, JsonNull, xml)).deliveries == []
    ensures ThroughConnectWrapper(f,
      HandleResponse(Protocol.Connect, data, responseCode, headers, Bytes(text, JsonNull, xml)).deliveries) == f
  {
  }

  /** The flags after the connect wrapper receives a sequence of deliveries. */
  function ThroughConnectWrapper(f: Flags, ds: seq<Delivery>): (g: Flags)
    ensures !(f.connected && f.inProgress) ==> !(g.connected && g.inProgress)
    decreases |ds|
  {
    if |ds| == 0 then f
    else
      var next := match ds[0]
        case Success(_) => OnConnectSuccess(f)
        case Failure(_) => OnConnectFailure(f)
        case Found(_) => f;
      ThroughConnectWrapper(next, ds[1..])
  }

  class Connector {
    var connected: bool
    var connectInProgress: bool
    var controllerUrl: Option<string>
    var credentials: Option<Credentials>
    /** The credentials the HTTP client sends as basic authentication. */
    var basicAuth: Option<Credentials>
    var timeout: int
    /** The connect callback kept for reporting a later disconnect. */
    var connectCallback: Option<CallbackId>
    var pending: seq<Request>
    var events: seq<Event>
    const client: DiscoveryClient.Client

    /** Never connected and connecting at the same time. */
    predicate Valid()
      reads this
    {
      !(connected && connectInProgress)
    }

    /** Nothing but the request list and the events may have changed. */
    twostate predicate SameSession()
      reads this
    {
      && connected == old(connected) && connectInProgress == old(connectInProgress)
      && controllerUrl == old(controllerUrl) && credentials == old(credentials)
      && basicAuth == old(basicAuth) && timeout == old(timeout)
      && connectCallback == old(connectCallback)
    }

    constructor()
      ensures Valid()
      ensures !connected && !connectInProgress && controllerUrl.None? && credentials.None?
      ensures basicAuth.None? && timeout == 0 && connectCallback.None?
      ensures pending == [] && events == []
      ensures fresh(client) && client.discoveryServer == null
    {
      connected := false;
      connectInProgress := false;
      controllerUrl := None;
      credentials := None;
      basicAuth := None;
      timeout := 0;
      connectCallback := None;
      pending := [];
      events := [];
      client := new DiscoveryClient.Client();
    }

    method SetControllerUrl(url: Option<string>)
      modifies this
      ensures controllerUrl == url
      ensures connected == old(connected) && connectInProgress == old(connectInProgress)
      ensures credentials == old(credentials) && basicAuth == old(basicAuth) && timeout == old(timeout)
      ensures connectCallback == old(connectCallback) && pending == old(pending) && events == old(events)
    {
      controllerUrl := url;
    }

    method SetTimeout(t: int)
      modifies this
      ensures timeout == t
      ensures connected == old(connected) && connectInProgress == old(connectInProgress)
      ensures controllerUrl == old(controllerUrl) && credentials == old(credentials) && basicAuth == old(basicAuth)
      ensures connectCallback == old(connectCallback) && pending == old(pending) && events == old(events)
    {
      timeout := t;
    }

    /** `setCredentials`: the client's basic authentication is cleared and, for
        non-null credentials, set to them. */
    method SetCredentials(c: Option<Credentials>)
      modifies this
      ensures credentials == c && basicAuth == c
      ensures connected == old(connected) && connectInProgress == old(connectInProgress)
      ensures controllerUrl == old(controllerUrl) && timeout == old(timeout)
      ensures connectCallback == old(connectCallback) && pending == old(pending) && events == old(events)
    {
      credentials := c;
      basicAuth := None;
      if c.Some? {
        basicAuth := c;
      }
    }

    /** Hands a request to the HTTP client. */
    method Send(command: RestCommand, path: string, content: Option<string>, data: RequestData,
                cb: CallbackId, t: int)
      requires !RoutedAway(command)
      modifies this
      ensures SameSession() && events == old(events)
      ensures pending == old(pending) + [Request(HttpMethodFor(command), path, content, command, data, cb, t)]
    {
      pending := pending + [Request(HttpMethodFor(command), path, content, command, data, cb, t)];
    }

    /** Sends a command with parameters to the controller, if a URL is set. */
    method Issue(command: RestCommand, params: seq<string>, data: RequestData, cb: CallbackId, t: int)
      requires !RoutedAway(command)
      modifies this
      ensures SameSession() && events == old(events)
      ensures pending == old(pending) + (if controllerUrl.Some? then
        [Request(HttpMethodFor(command), RequestPath(controllerUrl.value, CommandPath(command), params),
                 None, command, data, cb, t)] else [])
    {
      if controllerUrl.Some? {
        var path := BuildRequestPath(controllerUrl.value, CommandPath(command), params);
        Send(command, path, None, data, cb, t);
      }
    }

    /** `connect`: sends CONNECT only with a URL, when neither connected nor already
        connecting, and then marks the connect as in progress. */
    method Connect(cb: CallbackId)
      requires Valid()
      modifies this
      ensures Valid()
      ensures Flags(connected, connectInProgress)
        == AfterConnect(controllerUrl.Some?, Flags(old(connected), old(connectInProgress)))
      ensures controllerUrl == old(controllerUrl) && credentials == old(credentials)
      ensures basicAuth == old(basicAuth) && timeout == old(timeout)
      ensures connectCallback == old(connectCallback) && events == old(events)
      ensures pending == old(pending) + (if ConnectSends(controllerUrl.Some?, Flags(old(connected), old(connectInProgress)))
        then [Request(Post, RequestPath(controllerUrl.value, "rest/servers", []), None, Protocol.Connect, NoData, cb, timeout)]
        else [])
    {
      if controllerUrl.Some? && !connected && !connectInProgress {
        connectInProgress := true;
        Issue(Protocol.Connect, [], NoData, cb, timeout);
      }
    }

    /** Delivers an outcome to a request's callback; for CONNECT the callback is the
        connect wrapper, which updates the flags before forwarding. */
    method Complete(r: Request, o: Outcome)
      requires Valid()
      modifies this
      ensures Valid()
      ensures events == old(events) + EventsOf(r.callback, r.command, o)
      ensures r.command == Protocol.Connect ==> (Flags(connected, connectInProgress)
        == ThroughConnectWrapper(Flags(old(connected), old(connectInProgress)), o.deliveries))
      ensures r.command != Protocol.Connect ==> connected == old(connected) && connectInProgress == old(connectInProgress)
      ensures controllerUrl == old(controllerUrl) && credentials == old(credentials)
      ensures basicAuth == old(basicAuth) && timeout == old(timeout)
      ensures connectCallback == old(connectCallback) && pending == old(pending)
    {
      if r.command == Protocol.Connect {
        var f := ThroughConnectWrapper(Flags(connected, connectInProgress), o.deliveries);
        connected, connectInProgress := f.connected, f.inProgress;
      }
      events := events + EventsOf(r.callback, r.command, o);
    }

    /** `doDisconnect`: every request in flight is cancelled, the connector is no longer
        connected, and a kept connect callback hears DISCONNECTED once and is dropped. */
    method DoDisconnect()
      requires Valid()
      modifies this
      ensures Valid()
      ensures pending == [] && !connected && connectCallback.None?
      ensures connectInProgress == (old(connectInProgress) && old(connectCallback).None?)
      ensures events == old(events) +
        (if old(connectCallback).Some? then [Delivered(old(connectCallback).value, Failure(Disconnected))] else [])
      ensures controllerUrl == old(controllerUrl) && credentials == old(credentials)
      ensures basicAuth == old(basicAuth) && timeout == old(timeout)
    {
      pending := [];
      connected := false;
      if connectCallback.Some? {
        var r := Request(Post, "", None, Protocol.Connect, NoData, connectCallback.value, timeout);
        Complete(r, Outcome([Failure(Disconnected)], false));
        connectCallback := None;
      }
    }

    /** `disconnect`: a no-op unless connected. */
    method Disconnect()
      requires Valid()
      modifies this
      ensures Valid()
      ensures !old(connected) ==> pending == old(pending) && events == old(events) && connectCallback == old(connectCallback)
      ensures old(connected) ==> (pending == [] && connectCallback.None?
        && events == old(events) +
          (if old(connectCallback).Some? then [Delivered(old(connectCallback).value, Failure(Disconnected))] else []))
      ensures Flags(connected, connectInProgress) == AfterDisconnect(Flags(old(connected), old(connectInProgress)))
      ensures controllerUrl == old(controllerUrl) && credentials == old(credentials)
      ensures basicAuth == old(basicAuth) && timeout == old(timeout)
    {
      if !connected {
        return;
      }
      DoDisconnect();
    }

    method GetPanelList(cb: CallbackId)
      modifies this
      ensures SameSession() && events == old(events)
      ensures pending == old(pending) + (if controllerUrl.Some? then
        [Request(Post, RequestPath(controllerUrl.value, "rest/panels/", []), None, Protocol.GetPanelList, NoData, cb, timeout)] else [])
    {
      Issue(Protocol.GetPanelList, [], NoData, cb, timeout);
    }

    method GetPanel(panelName: string, cb: CallbackId)
      modifies this
      ensures SameSession() && events == old(events)
      ensures pending == old(pending) + (if controllerUrl.Some? then
        [Request(Post, RequestPath(controllerUrl.value, "rest/panel/", [panelName]), None, GetPanelLayout, NoData, cb, timeout)] else [])
    {
      Issue(GetPanelLayout, [panelName], NoData, cb, timeout);
    }

    method GetDeviceList(cb: CallbackId)
      modifies this
      ensures SameSession() && events == old(events)
      ensures pending == old(pending) + (if controllerUrl.Some? then
        [Request(Post, RequestPath(controllerUrl.value, "rest/devices/", []), None, Protocol.GetDeviceList, NoData, cb, timeout)] else [])
    {
      Issue(Protocol.GetDeviceList, [], NoData, cb, timeout);
    }

    method GetDevice(deviceName: string, cb: CallbackId)
      modifies this
      ensures SameSession() && events == old(events)
      ensures pending == old(pending) + (if controllerUrl.Some? then
        [Request(Post, RequestPath(controllerUrl.value, "rest/devices/", [deviceName]), None, Protocol.GetDevice, NoData, cb, timeout)] else [])
    {
      Issue(Protocol.GetDevice, [deviceName], NoData, cb, timeout);
    }

    /** `getWidgetsCommandInfo`: the controller's XML document, fetched with GET. */
    method GetWidgetsCommandInfo(cb: CallbackId)
      modifies this
      ensures SameSession() && events == old(events)
      ensures pending == old(pending) + (if controllerUrl.Some? then
        [Request(Get, RequestPath(controllerUrl.value, "resources/controller.xml", []), None, GetXml, NoData, cb, timeout)] else [])
    {
      Issue(GetXml, [], NoData, cb, timeout);
    }

    /** `monitorSensors`: a long poll for the session token and the comma-joined ids,
        always with a 55000 ms timeout. */
    method MonitorSensors(uuid: string, sensorIds: seq<int>, cb: CallbackId)
      modifies this
      ensures SameSession() && events == old(events)
      ensures pending == old(pending) + (if controllerUrl.Some? then
        [Request(Post, RequestPath(controllerUrl.value, "rest/polling/", [uuid, SensorIdSegment(sensorIds)]),
                 None, Protocol.DoSensorPolling, NoData, cb, 55000)] else [])
    {
      var params := [uuid, SensorIdSegment(sensorIds)];
      Issue(Protocol.DoSensorPolling, params, NoData, cb, 55000);
    }

    /** `getSensorValues`: a status snapshot for the comma-joined ids. */
    method GetSensorValues(sensorIds: seq<int>, cb: CallbackId)
      modifies this
      ensures SameSession() && events == old(events)
      ensures pending == old(pending) + (if controllerUrl.Some? then
        [Request(Post, RequestPath(controllerUrl.value, "rest/status/", [SensorIdSegment(sensorIds)]),
                 None, Protocol.GetSensorStatus, NoData, cb, timeout)] else [])
    {
      var params := [SensorIdSegment(sensorIds)];
      Issue(Protocol.GetSensorStatus, params, NoData, cb, timeout);
    }

    /** `sendControlCommand`: sender id and data as path parameters; the completion
        carries the sender id. */
    method SendControlCommand(senderId: int, data: string, cb: CallbackId)
      modifies this
      ensures SameSession() && events == old(events)
      ensures pending == old(pending) + (if controllerUrl.Some? then
        [Request(Post, RequestPath(controllerUrl.value, "rest/control/", [IntToString(senderId), data]),
                 None, Protocol.SendControlCommand, ControlCommandData(senderId), cb, timeout)] else [])
    {
      Issue(Protocol.SendControlCommand, [IntToString(senderId), data], ControlCommandData(senderId), cb, timeout);
    }

    /** `sendCommand`: a named device command with its optional JSON parameter body. */
    method SendCommand(device: string, command: string, parameter: Option<string>, cb: CallbackId)
      modifies this
      ensures SameSession() && events == old(events)
      ensures pending == old(pending) + (if controllerUrl.Some? then
        [Request(Post, RequestPath(controllerUrl.value, "rest/devices/", [device + "/", "commands?name=" + command]),
                 NamedCommandContent(parameter), SendNamedCommand, NoData, cb, timeout)] else [])
    {
      if controllerUrl.Some? {
        var url := controllerUrl.value;
        url := if EndsWithSlash(url) then url else url + "/";
        url := url + CommandPath(SendNamedCommand);
        url := url + device + "/";
        url := url + "commands?name=";
        url := url + command;
        assert url == NamedCommandPath(controllerUrl.value, device, command);
        Send(SendNamedCommand, url, NamedCommandContent(parameter), NoData, cb, timeout);
      }
    }

    /** `getResourceInfoDetails`: a HEAD request for the resource. */
    method GetResourceInfoDetails(resourceName: string, cb: CallbackId)
      modifies this
      ensures SameSession() && events == old(events)
      ensures pending == old(pending) + (if controllerUrl.Some? then
        [Request(Head, RequestPath(controllerUrl.value, "", [resourceName]), None, GetResourceDetails, NoData, cb, timeout)] else [])
    {
      Issue(GetResourceDetails, [resourceName], NoData, cb, timeout);
    }

    /** `getResourceData`: the completion carries the resource name. */
    method GetResourceData(resourceName: string, cb: CallbackId)
      modifies this
      ensures SameSession() && events == old(events)
      ensures pending == old(pending) + (if controllerUrl.Some? then
        [Request(Post, RequestPath(controllerUrl.value, "", [resourceName]), None, Protocol.GetResourceData,
                 ResourceNameData(resourceName), cb, timeout)] else [])
    {
      Issue(Protocol.GetResourceData, [resourceName], ResourceNameData(resourceName), cb, timeout);
    }

    /** `startDiscovery`: handed to the client whether or not a URL is set. */
    method StartDiscovery(tcpPort: int, duration: Option<int>)
      modifies client
      ensures old(client.discoveryServer) != null ==> client.discoveryServer == old(client.discoveryServer)
      ensures old(client.discoveryServer) == null ==> (client.discoveryServer != null
        && client.discoveryServer.tcpPort == tcpPort && client.discoveryServer.duration == duration)
    {
      client.StartDiscovery(tcpPort, duration);
    }

    method StopDiscovery()
      modifies client, client.discoveryServer
      ensures client.discoveryServer == null
      ensures old(client.discoveryServer) != null ==> old(client.discoveryServer).cancelled
    {
      client.StopDiscovery();
    }

    method IsDiscoveryRunning() returns (running: bool)
      ensures running <==> client.discoveryServer != null
    {
      running := client.IsDiscoveryRunning();
    }

    /** A discovery reply reaches the discovery callback through the classifier. */
    method OnDiscoveryReply(cb: CallbackId, tcpPort: int, reply: Body)
      requires Valid()
      modifies this
      ensures Valid() && SameSession() && pending == old(pending)
      ensures events == old(events) + EventsOf(cb, Discovery, HandleResponse(Discovery, DiscoveryPortData(tcpPort), 0, [], reply))
    {
      var r := Request(Post, "", None, Discovery, DiscoveryPortData(tcpPort), cb, timeout);
      Complete(r, HandleResponse(Discovery, DiscoveryPortData(tcpPort), 0, [], reply));
    }

    /** `logout`: the credentials are cleared first; with a URL a LOGOUT request is
        sent, without one the caller hears success at once. */
    method Logout(cb: CallbackId)
      modifies this
      ensures credentials.None?
      ensures connected == old(connected) && connectInProgress == old(connectInProgress)
      ensures controllerUrl == old(controllerUrl) && basicAuth == old(basicAuth) && timeout == old(timeout)
      ensures connectCallback == old(connectCallback)
      ensures controllerUrl.Some? ==> (events == old(events) && pending == old(pending)
        + [Request(Post, RequestPath(controllerUrl.value, "", []), None, Protocol.Logout, NoData, cb, timeout)])
      ensures controllerUrl.None? ==> (pending == old(pending) && events == old(events) + [Delivered(cb, Success(LoggedOut))])
    {
      credentials := None;
      if controllerUrl.Some? {
        Issue(Protocol.Logout, [], NoData, cb, timeout);
      } else {
        events := events + [Delivered(cb, Success(LoggedOut))];
      }
    }

    /**
     * An HTTP answer to the request at position `i`. A LOGOUT answer clears the
     * client's authentication and invokes no callback. A CONNECT answer keeps the
     * connect callback before it is classified. Every other answer goes through
     * the classifier.
     */
    method OnHttpSuccess(i: nat, responseCode: int, headers: seq<Header>, responseData: Body)
      requires Valid()
      requires i < |pending|
      modifies this
      ensures Valid()
      ensures pending == old(pending[..i] + pending[i + 1..])
      ensures var r := old(pending[i]);
        && (r.command == Protocol.Logout ==> (basicAuth.None? && events == old(events)
              && connected == old(connected) && connectInProgress == old(connectInProgress)))
        && (r.command != Protocol.Logout ==>
              basicAuth == old(basicAuth)
              && events == old(events) + EventsOf(r.callback, r.command, HandleResponse(r.command, r.data, responseCode, headers, responseData)))
        && (r.command == Protocol.Connect ==> connectCallback == Some(r.callback))
        && (r.command != Protocol.Connect ==> connectCallback == old(connectCallback))
      ensures var r := old(pending[i]);
        && (r.command == Protocol.Connect ==>
              Flags(connected, connectInProgress) == ThroughConnectWrapper(Flags(old(connected), old(connectInProgress)),
                HandleResponse(r.command, r.data, responseCode, headers, responseData).deliveries))
        && (r.command != Protocol.Connect ==> connected == old(connected) && connectInProgress == old(connectInProgress))
      ensures controllerUrl == old(controllerUrl) && credentials == old(credentials) && timeout == old(timeout)
    {
      var r := pending[i];
      pending := pending[..i] + pending[i + 1..];
      if r.command == Protocol.Logout {
        basicAuth := None;
        return;
      }
      if r.command == Protocol.Connect {
        connectCallback := Some(r.callback);
      }
      Complete(r, HandleResponse(r.command, r.data, responseCode, headers, responseData));
    }

    /** A transport failure of the request at position `i`. */
    method OnHttpFailure(i: nat, connectTimeout: bool)
      requires Valid()
      requires i < |pending|
      modifies this
      ensures Valid()
      ensures pending == old(pending[..i] + pending[i + 1..])
      ensures var r := old(pending[i]);
        events == old(events) + [Delivered(r.callback, TransportFailure(r.command, connectTimeout))]
      ensures var r := old(pending[i]);
        && (r.command == Protocol.Connect ==>
              Flags(connected, connectInProgress)
              == ThroughConnectWrapper(Flags(old(connected), old(connectInProgress)), [TransportFailure(r.command, connectTimeout)]))
        && (r.command != Protocol.Connect ==> connected == old(connected) && connectInProgress == old(connectInProgress))
      ensures controllerUrl == old(controllerUrl) && credentials == old(credentials) && timeout == old(timeout)
      ensures basicAuth == old(basicAuth) && connectCallback == old(connectCallback)
    {
      var r := pending[i];
      pending := pending[..i] + pending[i + 1..];
      Complete(r, Outcome([TransportFailure(r.command, connectTimeout)], false));
    }
  }
}

=== FILE: discovery_client.dfy ===
/**
 * The HTTP client's discovery extension: it holds at most one broadcaster.
 * Starting while one is held does nothing; stopping cancels and drops it. The
 * thread pool that runs the broadcaster is not modelled beyond `RunServer`.
 */
module DiscoveryClient {
  import opened Wrappers
  import DiscoveryServer

  class Client {
    var discoveryServer: DiscoveryServer.Server?

    constructor()
      ensures discoveryServer == null
    {
      discoveryServer := null;
    }

    /** `startDiscovery`: a no-op while a broadcaster is held, otherwise a fresh
        broadcaster for the port and duration is created and submitted. */
    method StartDiscovery(tcpPort: int, duration: Option<int>)
      modifies this
      ensures old(discoveryServer) != null ==> discoveryServer == old(discoveryServer)
      ensures old(discoveryServer) == null ==> (
        discoveryServer != null && fresh(discoveryServer)
        && discoveryServer.tcpPort == tcpPort && discoveryServer.duration == duration
        && discoveryServer.elapsedTime == 0 && discoveryServer.pauseTime == 1000
        && !discoveryServer.receiverBound && discoveryServer.signals == [])
    {
      if discoveryServer != null {
        return;
      }
      discoveryServer := new DiscoveryServer.Server(tcpPort, duration);
    }

    /** `stopDiscovery`: cancels the held broadcaster, if any, and always drops it. */
    method StopDiscovery()
      modifies this, discoveryServer
      ensures discoveryServer == null
      ensures old(discoveryServer) != null ==> old(discoveryServer).cancelled
    {
      if discoveryServer != null {
        discoveryServer.Cancel();
      }
      discoveryServer := null;
    }

    /** `isDiscoveryRunning`: whether a broadcaster is held. */
    method IsDiscoveryRunning() returns (running: bool)
      ensures running <==> discoveryServer != null
    {
      running := discoveryServer != null;
    }

    /** The pool runs the submitted broadcaster to its end. The client keeps holding it,
        so discovery still counts as running and a later start does nothing until
        `stopDiscovery` is called. */
    method RunServer(bindOk: bool, cancelAfter: nat)
      requires discoveryServer != null
      requires discoveryServer.elapsedTime == 0 && discoveryServer.pauseTime == 1000
      requires !discoveryServer.receiverBound && discoveryServer.signals == []
      modifies discoveryServer
      ensures discoveryServer == old(discoveryServer)
      ensures !bindOk ==> discoveryServer.signals == [DiscoveryServer.StartFailed]
      ensures bindOk ==> (discoveryServer.signals ==
        [DiscoveryServer.Started]
        + DiscoveryServer.Probes(DiscoveryServer.TickCount(discoveryServer.duration, cancelAfter))
        + [DiscoveryServer.Finished, DiscoveryServer.ReceiverCancelled])
    {
      discoveryServer.Run(bindOk, cancelAfter);
    }
  }
}

=== FILE: discovery_receiver.dfy ===
/**
 * The newer discovery receiver: every TCP reply, read to its end, is handed to
 * `processResponse`, which forwards a reply only if it is non-empty and has
 * not been seen before. Accepting connections and reading sockets are not
 * modelled; a reply is the concatenated text of its lines.
 */
module DiscoveryReceiver {
  import opened SensorValues

  /** The replies kept after one more reply arrives. */
  function Accepted(responses: seq<string>, response: string): seq<string>
  {
    if response != "" && response !in responses then responses + [response] else responses
  }

  /** The replies kept after a sequence of arrivals, in arrival order. */
  function Collected(arrivals: seq<string>): seq<string>
  {
    if |arrivals| == 0 then [] else Accepted(Collected(arrivals[..|arrivals| - 1]), arrivals[|arrivals| - 1])
  }

  /** The kept replies are exactly the distinct non-empty arrivals, each once. */
  lemma {:induction false} CollectedIsDistinctNonEmpty(arrivals: seq<string>)
    ensures NoDuplicates(Collected(arrivals))
    ensures forall r :: r in Collected(arrivals) <==> r != "" && r in arrivals
  {
    if |arrivals| > 0 {
      var init := arrivals[..|arrivals| - 1];
      CollectedIsDistinctNonEmpty(init);
      assert arrivals == init + [arrivals[|arrivals| - 1]];
      var c := Collected(init);
      var r := arrivals[|arrivals| - 1];
      if r != "" && r !in c {
        forall i, j | 0 <= i < j < |c + [r]| ensures (c + [r])[i] != (c + [r])[j] {
          if j == |c| {
            assert (c + [r])[i] == c[i] && c[i] in c;
          } else {
            assert (c + [r])[i] == c[i] && (c + [r])[j] == c[j];
          }
        }
      }
    }
  }

  class Receiver {
    var cancelled: bool
    var responses: seq<string>
    /** The replies handed to the response handler, in order. */
    var forwarded: seq<string>

    /** Every kept reply is non-empty and kept once, and exactly the kept replies have
        been forwarded. */
    predicate Valid()
      reads this
    {
      NoDuplicates(responses) && forwarded == responses
      && forall i :: 0 <= i < |responses| ==> responses[i] != ""
    }

    constructor()
      ensures Valid() && !cancelled && responses == [] && forwarded == []
    {
      cancelled := false;
      responses := [];
      forwarded := [];
    }

    /** `processResponse`: a non-empty reply not seen before is recorded and forwarded;
        anything else changes nothing. */
    method ProcessResponse(response: string)
      requires Valid()
      modifies this
      ensures Valid()
      ensures responses == Accepted(old(responses), response)
      ensures cancelled == old(cancelled)
    {
      if response != "" && response !in responses {
        forall i, j | 0 <= i < j < |responses + [response]|
          ensures (responses + [response])[i] != (responses + [response])[j]
        {
          assert (responses + [response])[i] == responses[i];
          if j == |responses| {
            assert responses[i] in responses;
          }
        }
        responses := responses + [response];
        forwarded := forwarded + [response];
      }
    }

    /** `cancel`: the accept loop stops. */
    method Cancel()
      modifies this
      ensures cancelled && responses == old(responses) && forwarded == old(forwarded)
    {
      cancelled := true;
    }
  }
}

=== FILE: discovery_server.dfy ===
/**
 * The newer discovery broadcaster. After binding its TCP receiver it announces
 * the start, then ticks once a second, sending a multicast probe on a tick whose
 * elapsed time is a multiple of the current pause; each probe doubles the pause
 * while it is below 60 s. The loop ends when a cancel is observed or when the
 * elapsed time passes the optional duration, then the finish is announced and
 * the receiver is cancelled.
 *
 * Threads, sleeping and sockets are not modelled. A cancel arriving from
 * another thread (or an interrupted sleep) is an input: `cancelAfter` is the
 * number of loop-head checks that still find the flag clear. Binding the
 * receiver is an input too (`bindOk`).
 */
module DiscoveryServer {
  import opened Wrappers

  /** What the broadcaster does that an observer can see: the handler's start,
      finish and failure messages, each probe sent (by elapsed time), and the
      cancellation of the receiver. */
  datatype Signal = Started | Probe(at: int) | Finished | StartFailed | ReceiverCancelled

  function Pow2(k: nat): (r: nat)
    ensures r >= 1
  {
    if k == 0 then 1 else 2 * Pow2(k - 1)
  }

  /** The pause in force at the start of the tick with elapsed time `e`. */
  function PauseAt(e: int): int
  {
    if e <= 0 then 1000
    else if e <= 2000 then 2000
    else if e <= 4000 then 4000
    else if e <= 8000 then 8000
    else if e <= 16000 then 16000
    else if e <= 32000 then 32000
    else 64000
  }

  /** The elapsed times at which a probe goes out: 0, 2, 4, 8, 16 and 32 seconds, then
      every 64 seconds. */
  predicate IsProbeTime(e: int)
  {
    e == 0 || e == 2000 || e == 4000 || e == 8000 || e == 16000 || e == 32000
    || (e > 0 && e % 64000 == 0)
  }

  /** The pause is always 1000 ms times a power of two with exponent at most 6, so it
      never exceeds 64000 ms. */
  lemma PauseIsBoundedPowerOfTwo(e: int)
    ensures exists k: nat :: k <= 6 && PauseAt(e) == 1000 * Pow2(k)
    ensures 1000 <= PauseAt(e) <= 64000
  {
    var k: nat := if e <= 0 then 0 else if e <= 2000 then 1 else if e <= 4000 then 2
      else if e <= 8000 then 3 else if e <= 16000 then 4 else if e <= 32000 then 5 else 6;
    assert Pow2(1) == 2 && Pow2(2) == 4 && Pow2(3) == 8;
    assert Pow2(4) == 16 && Pow2(5) == 32 && Pow2(6) == 64;
    assert PauseAt(e) == 1000 * Pow2(k);
  }

  /** A tick probes exactly at the scheduled times. */
  lemma ProbeWhenPauseDivides(e: int)
    requires e >= 0
    ensures e % PauseAt(e) == 0 <==> IsProbeTime(e)
  {
  }

  /** One tick of the loop in closed form: the pause doubles after a probe while it is
      below 60000 ms and otherwise stays as it was. */
  lemma {:induction false} PauseStep(e: int)
    requires e >= 0 && e % 1000 == 0
    ensures PauseAt(e + 1000) ==
      if e % PauseAt(e) == 0 && PauseAt(e) < 60000 then 2 * PauseAt(e) else PauseAt(e)
  {
    ProbeWhenPauseDivides(e);
  }

  /** The probes of the first `ticks` ticks, in order. */
  function Probes(ticks: nat): seq<Signal>
  {
    if ticks == 0 then []
    else Probes(ticks - 1) + (if IsProbeTime(1000 * (ticks - 1)) then [Probe(1000 * (ticks - 1))] else [])
  }

  /** A probe is among the first `ticks` ticks' probes exactly when its time is a
      scheduled tick before `1000 * ticks`. */
  lemma {:induction false} ProbesAreScheduled(ticks: nat, e: int)
    ensures Probe(e) in Probes(ticks) <==> 0 <= e < 1000 * ticks && e % 1000 == 0 && IsProbeTime(e)
  {
    if ticks > 0 {
      ProbesAreScheduled(ticks - 1, e);
      var last := 1000 * (ticks - 1);
      assert Probes(ticks) == Probes(ticks - 1) + (if IsProbeTime(last) then [Probe(last)] else []);
      assert last % 1000 == 0;
      if 0 <= e < 1000 * ticks && e % 1000 == 0 && e >= last {
        assert e == last by { LastMultiple(e, ticks - 1); }
      }
    }
  }

  /** The only multiple of 1000 in `[1000 * n, 1000 * (n + 1))` is `1000 * n`. */
  lemma LastMultiple(e: int, n: nat)
    requires 1000 * n <= e < 1000 * (n + 1) && e % 1000 == 0
    ensures e == 1000 * n
  {
    var q := e / 1000;
    assert e == 1000 * q;
  }

  /** The tick count after which the elapsed time first passes `d`. */
  function LastTick(d: int): (n: nat)
    ensures n >= 1 && 1000 * n > d && (n == 1 || 1000 * (n - 1) <= d)
  {
    if d < 0 then 1 else d / 1000 + 1
  }

  /** How many ticks run: until the cancel is observed or the duration is passed. */
  function TickCount(duration: Option<int>, cancelAfter: nat): nat
  {
    match duration
    case None => cancelAfter
    case Some(d) => if cancelAfter < LastTick(d) then cancelAfter else LastTick(d)
  }

  class Server {
    var cancelled: bool
    const tcpPort: int
    var elapsedTime: int
    const duration: Option<int>
    var pauseTime: int
    var receiverBound: bool
    var signals: seq<Signal>

    constructor(tcpPort: int, duration: Option<int>)
      ensures this.tcpPort == tcpPort && this.duration == duration
      ensures !cancelled && elapsedTime == 0 && pauseTime == 1000
      ensures !receiverBound && signals == []
    {
      this.tcpPort := tcpPort;
      this.duration := duration;
      cancelled := false;
      elapsedTime := 0;
      pauseTime := 1000;
      receiverBound := false;
      signals := [];
    }

    /** `cancel`: the loop stops at its next check. */
    method Cancel()
      modifies this
      ensures cancelled
      ensures elapsedTime == old(elapsedTime) && pauseTime == old(pauseTime)
      ensures receiverBound == old(receiverBound) && signals == old(signals)
    {
      cancelled := true;
    }

    /** One pass of the loop body before its exit checks: a probe when the elapsed
        time is a multiple of the pause, which then doubles while below 60 s, and
        one second more elapsed. */
    method Tick()
      requires elapsedTime >= 0 && elapsedTime % 1000 == 0 && pauseTime == PauseAt(elapsedTime)
      modifies this
      ensures elapsedTime == old(elapsedTime) + 1000 && pauseTime == PauseAt(elapsedTime)
      ensures signals == old(signals) + (if IsProbeTime(old(elapsedTime)) then [Probe(old(elapsedTime))] else [])
      ensures cancelled == old(cancelled) && receiverBound == old(receiverBound)
    {
      ProbeWhenPauseDivides(elapsedTime);
      PauseStep(elapsedTime);
      if elapsedTime % pauseTime == 0 {
        signals := signals + [Probe(elapsedTime)];
        if pauseTime < 60000 {
          pauseTime := pauseTime * 2;
        }
      }
      elapsedTime := elapsedTime + 1000;
    }

    /**
     * The thread body, run once on a fresh server. On a bind failure only the
     * failure is announced. Otherwise the start is announced, the scheduled probes
     * of every tick that runs go out, and the finish is announced before the
     * receiver is cancelled.
     */
    method Run(bindOk: bool, cancelAfter: nat)
      requires elapsedTime == 0 && pauseTime == 1000 && !receiverBound && signals == []
      modifies this
      ensures !bindOk ==> signals == [StartFailed] && !receiverBound
      ensures bindOk ==> (receiverBound
        && signals == [Started] + Probes(TickCount(duration, cancelAfter)) + [Finished, ReceiverCancelled]
        && elapsedTime == 1000 * TickCount(duration, cancelAfter))
      ensures pauseTime == PauseAt(elapsedTime)
    {
      cancelled := false;
      if !bindOk {
        signals := signals + [StartFailed];
        return;
      }
      receiverBound := true;
      signals := signals + [Started];
      var ticks: nat := 0;
      if cancelAfter == 0 {
        cancelled := true;
      }
      while !cancelled
        invariant ticks <= cancelAfter
        invariant cancelled <==> ticks == cancelAfter
        invariant duration.Some? && ticks > 0 ==> 1000 * ticks <= duration.value
        invariant elapsedTime == 1000 * ticks && pauseTime == PauseAt(elapsedTime)
        invariant receiverBound && signals == [Started] + Probes(ticks)
        decreases cancelAfter - ticks
      {
        Tick();
        ticks := ticks + 1;
        if duration.Some? && elapsedTime > duration.value {
          break;
        }
        if ticks == cancelAfter {
          cancelled := true;
        }
      }
      signals := signals + [Finished, ReceiverCancelled];
    }
  }
}

=== FILE: gates.dfy ===
/**
 * The two per-panel gates the session hands to widgets: the command sender and
 * the resource locator. Each forwards requests to the connector, if one is set,
 * with its own timeout, and wraps the caller's callback in a one-flag filter:
 * while the gate is disabled, completions are swallowed. The locator's data
 * requests bypass the filter and complete on the caller's callback directly.
 *
 * The connector is not modelled here: what a gate hands it is the `calls` list,
 * and a completion names the call it completes by position.
 */
module Gates {
  import opened Wrappers
  import opened Protocol

  /** The timeout every gate starts with, in milliseconds. */
  const DefaultTimeout := 5000

  /** A request handed to the connector, with the caller's callback. */
  datatype GateCall =
    | ControlCommandCall(senderId: int, data: string, callback: CallbackId, timeout: int)
    | NamedCommandCall(device: string, command: string, parameter: Option<string>, callback: CallbackId, timeout: int)
    | DetailsCall(resource: string, callback: CallbackId, timeout: int)
    | DataCall(resource: string, callback: CallbackId, timeout: int)

  /** Whether completions of the call pass through the gate's filtering wrapper. */
  predicate Wrapped(c: GateCall)
  {
    !c.DataCall?
  }

  /** One invocation of a caller's callback. */
  datatype Handed = Handed(callback: CallbackId, delivery: Delivery)

  /** What the caller's callback receives when the connector completes `c` with
      `d`: the delivery unchanged, unless the call is wrapped and the gate is
      disabled, in which case nothing. */
  function Pass(enabled: bool, c: GateCall, d: Delivery): (r: seq<Handed>)
    ensures |r| <= 1
    ensures r == [] <==> Wrapped(c) && !enabled
    ensures forall h :: h in r ==> h == Handed(c.callback, d)
  {
    if Wrapped(c) && !enabled then [] else [Handed(c.callback, d)]
  }

  /** The callbacks of the calls handed over so far. */
  function Callbacks(calls: seq<GateCall>): set<CallbackId>
  {
    set c | c in calls :: c.callback
  }

  class CommandSender {
    var enabled: bool
    var timeout: int
    var connectorSet: bool
    var calls: seq<GateCall>
    var handed: seq<Handed>

    /** Only the callbacks of requests actually handed to the connector ever hear
        anything, and the sender only hands over command requests. */
    predicate Valid()
      reads this
    {
      (forall k :: 0 <= k < |handed| ==> handed[k].callback in Callbacks(calls))
      && (forall k :: 0 <= k < |calls| ==> calls[k].ControlCommandCall? || calls[k].NamedCommandCall?)
    }

    constructor()
      ensures Valid()
      ensures enabled && timeout == DefaultTimeout && !connectorSet && calls == [] && handed == []
    {
      enabled := true;
      timeout := DefaultTimeout;
      connectorSet := false;
      calls := [];
      handed := [];
    }

    method SetConnector(present: bool)
      modifies this
      ensures connectorSet == present
      ensures enabled == old(enabled) && timeout == old(timeout) && calls == old(calls) && handed == old(handed)
    {
      connectorSet := present;
    }

    /** `setTimeout`: later sends carry the new timeout. */
    method SetTimeout(t: int)
      modifies this
      ensures timeout == t
      ensures enabled == old(enabled) && connectorSet == old(connectorSet) && calls == old(calls) && handed == old(handed)
    {
      timeout := t;
    }

    method Enable()
      modifies this
      ensures enabled
      ensures timeout == old(timeout) && connectorSet == old(connectorSet) && calls == old(calls) && handed == old(handed)
    {
      enabled := true;
    }

    method Disable()
      modifies this
      ensures !enabled
      ensures timeout == old(timeout) && connectorSet == old(connectorSet) && calls == old(calls) && handed == old(handed)
    {
      enabled := false;
    }

    /** `sendControlCommand`: handed over with the current timeout, if a connector
        is set; otherwise nothing happens. */
    method SendControlCommand(senderId: int, data: string, cb: CallbackId)
      requires Valid()
      modifies this
      ensures Valid()
      ensures calls == old(calls) + (if connectorSet then [ControlCommandCall(senderId, data, cb, timeout)] else [])
      ensures enabled == old(enabled) && timeout == old(timeout) && connectorSet == old(connectorSet)
      ensures handed == old(handed)
    {
      if connectorSet {
        calls := calls + [ControlCommandCall(senderId, data, cb, timeout)];
      }
    }

    /** `sendCommand`: a named command with its parameter, handed over likewise. */
    method SendCommand(device: string, command: string, parameter: Option<string>, cb: CallbackId)
      requires Valid()
      modifies this
      ensures Valid()
      ensures calls == old(calls) + (if connectorSet then [NamedCommandCall(device, command, parameter, cb, timeout)] else [])
      ensures enabled == old(enabled) && timeout == old(timeout) && connectorSet == old(connectorSet)
      ensures handed == old(handed)
    {
      if connectorSet {
        calls := calls + [NamedCommandCall(device, command, parameter, cb, timeout)];
      }
    }

    /** The connector completes call `i`, in success or failure: the wrapper passes
        the delivery on only while the sender is enabled. */
    method OnCompletion(i: nat, d: Delivery)
      requires Valid() && i < |calls|
      modifies this
      ensures Valid()
      ensures handed == old(handed) + (if enabled then [Handed(old(calls[i]).callback, d)] else [])
      ensures enabled == old(enabled) && timeout == old(timeout) && connectorSet == old(connectorSet)
      ensures calls == old(calls)
    {
      assert calls[i] in calls;
      handed := handed + Pass(enabled, calls[i], d);
    }
  }

  class ResourceLocator {
    var enabled: bool
    var timeout: int
    var connectorSet: bool
    var calls: seq<GateCall>
    var handed: seq<Handed>

    /** Only the callbacks of requests actually handed to the connector ever hear
        anything, and the locator only hands over resource requests. */
    predicate Valid()
      reads this
    {
      (forall k :: 0 <= k < |handed| ==> handed[k].callback in Callbacks(calls))
      && (forall k :: 0 <= k < |calls| ==> calls[k].DetailsCall? || calls[k].DataCall?)
    }

    constructor()
      ensures Valid()
      ensures enabled && timeout == DefaultTimeout && !connectorSet && calls == [] && handed == []
    {
      enabled := true;
      timeout := DefaultTimeout;
      connectorSet := false;
      calls := [];
      handed := [];
    }

    method SetConnector(present: bool)
      modifies this
      ensures connectorSet == present
      ensures enabled == old(enabled) && timeout == old(timeout) && calls == old(calls) && handed == old(handed)
    {
      connectorSet := present;
    }

    method SetTimeout(t: int)
      modifies this
      ensures timeout == t
      ensures enabled == old(enabled) && connectorSet == old(connectorSet) && calls == old(calls) && handed == old(handed)
    {
      timeout := t;
    }

    method Enable()
      modifies this
      ensures enabled
      ensures timeout == old(timeout) && connectorSet == old(connectorSet) && calls == old(calls) && handed == old(handed)
    {
      enabled := true;
    }

    method Disable()
      modifies this
      ensures !enabled
      ensures timeout == old(timeout) && connectorSet == old(connectorSet) && calls == old(calls) && handed == old(handed)
    {
      enabled := false;
    }

    /** `getResourceInfoDetails`: handed over behind the filtering wrapper. */
    method GetResourceInfoDetails(resource: string, cb: CallbackId)
      requires Valid()
      modifies this
      ensures Valid()
      ensures calls == old(calls) + (if connectorSet then [DetailsCall(resource, cb, timeout)] else [])
      ensures enabled == old(enabled) && timeout == old(timeout) && connectorSet == old(connectorSet)
      ensures handed == old(handed)
    {
      if connectorSet {
        calls := calls + [DetailsCall(resource, cb, timeout)];
      }
    }

    /** `getResourceData`: handed over with the caller's own callback. */
    method GetResourceData(resource: string, cb: CallbackId)
      requires Valid()
      modifies this
      ensures Valid()
      ensures calls == old(calls) + (if connectorSet then [DataCall(resource, cb, timeout)] else [])
      ensures enabled == old(enabled) && timeout == old(timeout) && connectorSet == old(connectorSet)
      ensures handed == old(handed)
    {
      if connectorSet {
        calls := calls + [DataCall(resource, cb, timeout)];
      }
    }

    /** The connector completes call `i`: a details completion reaches the caller only
        while the locator is enabled, a data completion always does. */
    method OnCompletion(i: nat, d: Delivery)
      requires Valid() && i < |calls|
      modifies this
      ensures Valid()
      ensures handed == old(handed) + (if enabled || old(calls[i]).DataCall? then [Handed(old(calls[i]).callback, d)] else [])
      ensures enabled == old(enabled) && timeout == old(timeout) && connectorSet == old(connectorSet)
      ensures calls == old(calls)
    {
      assert calls[i] in calls;
      handed := handed + Pass(enabled, calls[i], d);
    }
  }
}

=== FILE: legacy_classifier.dfy ===
/**
 * The older connector's response classification. It differs from the newer
 * one in three ways that matter: decoded values are handed on inside the
 * guarded block (so a null decode goes to the error decoder instead of
 * escaping), the error decoder reads the raw bytes (so a missing body is an
 * UNKNOWN_ERROR instead of an escaping exception), and a 200 poll whose body is
 * a TIME_OUT controller error is reported as a failure.
 */
module LegacyClassifier {
  import opened Wrappers
  import opened Protocol
  import opened SensorValues
  import opened ResourceHeaders
  import ResponseClassifier

  /** The commands of the older connector. */
  datatype Command =
    | GetPanelList
    | GetPanelLayout
    | SendCommand
    | GetSensorStatus
    | DoSensorPolling
    | GetRoundRobinList
    | Login
    | Logout
    | Connect
    | GetResource
    | GetResourceData

  /** The path fragment each command appends after the controller URL. */
  function CommandPath(c: Command): string
  {
    match c
    case GetPanelList => "rest/panels/"
    case GetPanelLayout => "rest/panel/"
    case SendCommand => "rest/control/"
    case GetSensorStatus => "rest/status/"
    case DoSensorPolling => "rest/polling/"
    case GetRoundRobinList => "rest/servers"
    case Connect => "rest/servers"
    case _ => ""
  }

  /** The object a request hands to its completion besides the callback. */
  datatype RequestData =
    | NoData
    | PanelCommandData(senderId: int)
    | ResourceRequestData(locator: nat, name: string, loadData: bool)
    | ResourceNameData(name: string)

  function Succeed(p: Payload): Outcome
  {
    Outcome([Success(p)], false)
  }

  /** `processError` on the raw bytes: a missing body throws inside the guarded block and
      is reported as UNKNOWN_ERROR, exactly as an undecodable body is. */
  function ProcessError(responseData: Body): (o: Outcome)
    ensures o == ResponseClassifier.ProcessError(responseData)
    ensures responseData.NoBody? ==> o == Outcome([Failure(UnknownError)], false)
  {
    ResponseClassifier.ProcessError(responseData)
  }

  /** `handleResponse` of the older connector for one completed request. */
  function HandleResponse(command: Command, data: RequestData, responseCode: int,
                          headers: seq<Header>, responseData: Body): Outcome
  {
    match command
    case Connect =>
      if responseCode != 200 then ProcessError(responseData)
      else Succeed(ConnectionStatus(Ok))
    case GetPanelList =>
      if responseCode != 200 then ProcessError(responseData)
      else (match Decode(responseData, RecordType(PanelInfoListKind))
        case Value(doc) => Succeed(Record(PanelInfoListKind, doc.token))
        // A null list fails inside the guarded block and reaches the error decoder.
        case _ => ProcessError(responseData))
    case GetPanelLayout =>
      if responseCode != 200 then ProcessError(responseData)
      else (match Decode(responseData, RecordType(PanelKind))
        case Value(doc) => Succeed(Record(PanelKind, doc.token))
        case NullValue => Succeed(NullResult)
        case Throws => ProcessError(responseData))
    case SendCommand =>
      if responseCode != 200 then ProcessError(responseData)
      else if data.PanelCommandData? then Succeed(ControlResponse(data.senderId, Ok))
      else Outcome([Failure(UnknownError)], true)
    case DoSensorPolling =>
      if responseCode != 200 && responseCode != 504 then ProcessError(responseData)
      else if responseCode == 504 then Succeed(NullResult)
      else StatusOrError(responseData)
    case GetSensorStatus =>
      if responseCode != 200 then ProcessError(responseData)
      else StatusOrError(responseData)
    case Logout =>
      if responseCode == 200 || responseCode == 401 then Succeed(LoggedOut)
      else ProcessError(responseData)
    case GetResource =>
      if responseCode != 200 then ProcessError(responseData)
      else (match data
        case ResourceRequestData(locator, name, loadData) =>
          Succeed(ResourceInfo(locator, name, ScanHeaders(headers), if loadData then responseData else NoBody))
        // Reported, and then the missing request data is dereferenced anyway.
        case _ => Outcome([Failure(UnknownError)], true))
    case GetResourceData =>
      if responseCode != 200 then ProcessError(responseData)
      else (match data
        case ResourceNameData(name) => Succeed(ResourceData(Some(name), responseData, Ok))
        case NoData => Outcome([Failure(UnknownError), Success(ResourceData(None, responseData, Ok))], false)
        case _ => Outcome([Failure(UnknownError)], true))
    case _ => ProcessError(responseData)
  }

  /** A status list's value map, or the error decoder for anything else. */
  function StatusOrError(responseData: Body): Outcome
  {
    match Decode(responseData, SensorStatusListType)
    case Value(doc) => Succeed(SensorValuesOf(doc.statuses))
    case _ => ProcessError(responseData)
  }

  function SuccessStatuses(command: Command): set<int>
  {
    match command
    case DoSensorPolling => {200, 504}
    case Logout => {200, 401}
    case GetRoundRobinList => {}
    case Login => {}
    case _ => {200}
  }

  /** No response reaches `onSuccess` with a status code its command does not accept. */
  lemma SuccessOnlyOnAcceptedStatus(command: Command, data: RequestData, responseCode: int,
                                    headers: seq<Header>, responseData: Body, i: int)
    requires 0 <= i < |HandleResponse(command, data, responseCode, headers, responseData).deliveries|
    requires HandleResponse(command, data, responseCode, headers, responseData).deliveries[i].Success?
    ensures responseCode in SuccessStatuses(command)
  {
    var o := HandleResponse(command, data, responseCode, headers, responseData);
    assert o.deliveries[i] in o.deliveries;
  }

  /** Polling: 504 is an empty delta, a 200 status list is its value map, and every other
      answer goes to the error decoder; there is no fallback for a TIME_OUT body. */
  lemma PollingClassification(responseCode: int, headers: seq<Header>, responseData: Body)
    ensures var o := HandleResponse(Command.DoSensorPolling, NoData, responseCode, headers, responseData);
      && (responseCode == 504 ==> o == Succeed(NullResult))
      && (responseCode == 200 && responseData.Bytes? && responseData.json.StatusDoc? ==>
            o == Succeed(SensorValuesOf(responseData.json.statuses)))
      && (responseCode != 504 && !(responseCode == 200 && responseData.Bytes? && responseData.json.StatusDoc?) ==>
            o == ProcessError(responseData))
  {
  }

  /** The revisions disagree on a 200 poll carrying a TIME_OUT controller error: the
      newer one treats it as an empty delta, the older one reports TIME_OUT as a
      failure, which makes its monitor poll again at once. */
  lemma TimeOutBodyDiffers(headers: seq<Header>, text: string, xml: XmlWalk)
    ensures var body := Bytes(text, ErrorDoc(TimeOut), xml);
      && HandleResponse(Command.DoSensorPolling, NoData, 200, headers, body) == Outcome([Failure(TimeOut)], false)
      && ResponseClassifier.HandleResponse(Protocol.DoSensorPolling, ResponseClassifier.NoData, 200, headers, body)
           == Outcome([Success(NullResult)], false)
  {
  }

  /** Logout succeeds with `true` on 200 or 401 and otherwise reports through the error
      decoder. */
  lemma LogoutClassification(data: RequestData, responseCode: int, headers: seq<Header>, responseData: Body)
    ensures var o := HandleResponse(Command.Logout, data, responseCode, headers, responseData);
      (responseCode == 200 || responseCode == 401) <==> o == Succeed(LoggedOut)
  {
    if responseCode != 200 && responseCode != 401 {
      assert ProcessError(responseData) != Succeed(LoggedOut) by {
        assert Success(LoggedOut) in Succeed(LoggedOut).deliveries;
      }
    }
  }

  /** A resource answer carries the body exactly when its data was asked for, and takes
      its content type and modification time from the headers regardless of the case
      of their names. */
  lemma ResourceAttachesBodyOnlyWhenAsked(locator: nat, name: string, loadData: bool,
                                          a: seq<Header>, b: seq<Header>, responseData: Body)
    requires SameUpToCase(a, b)
    ensures HandleResponse(GetResource, ResourceRequestData(locator, name, loadData), 200, a, responseData)
      == Succeed(ResourceInfo(locator, name, ScanHeaders(b), if loadData then responseData else NoBody))
  {
    ScanHeadersIgnoresCase(a, b);
  }

  /** A null panel list is handed to the error decoder rather than escaping, unlike the
      newer revision. */
  lemma NullPanelListReachesErrorDecoder(headers: seq<Header>, text: string, xml: XmlWalk)
    ensures HandleResponse(Command.GetPanelList, NoData, 200, headers, Bytes(text, JsonNull, xml)) == Outcome([], false)
    ensures ResponseClassifier.HandleResponse(Protocol.GetPanelList, ResponseClassifier.NoData, 200, headers, Bytes(text, JsonNull, xml))
      == Outcome([], true)
  {
  }
}

=== FILE: legacy_connector.dfy ===
/**
 * The older connector. It has no connect-in-progress flag and no
 * already-connected guard: `connect` sends whenever a URL is set, a 200
 * CONNECT answer marks it connected, and `disconnect` just clears the flag.
 * Every request operation sends nothing without a URL. Setting credentials
 * issues a LOGIN request with no callback, and without a URL the request
 * builder fails on the missing URL.
 *
 * Requests in flight are the `sent` list; a completion names its request by
 * position. The transport that performs the requests is not modelled.
 */
module LegacyConnector {
  import opened Wrappers
  import opened Protocol
  import opened Text
  import opened RequestPaths
  import opened LegacyClassifier

  datatype Credentials = Credentials(username: string, password: string)

  /** A request handed to the transport. The LOGIN request carries no callback. */
  datatype LegacyRequest = LegacyRequest(
    url: string,
    command: Command,
    data: RequestData,
    callback: Option<CallbackId>,
    timeout: int)

  datatype LegacyEvent = Delivered(callback: CallbackId, delivery: Delivery) | Escaped(command: Command)

  /** The events an outcome produces for a request's callback. Invoking a missing
      callback throws, so anything delivered to it escapes instead. */
  function LegacyEventsOf(r: LegacyRequest, o: Outcome): (es: seq<LegacyEvent>)
    ensures r.callback.Some? ==> (|es| == |o.deliveries| + (if o.escapes then 1 else 0)
      && forall i :: 0 <= i < |o.deliveries| ==> es[i] == Delivered(r.callback.value, o.deliveries[i]))
    ensures r.callback.None? ==> es == (if |o.deliveries| > 0 || o.escapes then [Escaped(r.command)] else [])
  {
    match r.callback
    case None => if |o.deliveries| > 0 || o.escapes then [Escaped(r.command)] else []
    case Some(cb) =>
      seq(|o.deliveries|, i requires 0 <= i < |o.deliveries| => Delivered(cb, o.deliveries[i]))
      + (if o.escapes then [Escaped(r.command)] else [])
  }

  class Connector {
    var connected: bool
    var controllerUrl: Option<string>
    var credentials: Option<Credentials>
    /** The session token sent with every poll, fixed at construction. */
    const uuid: string
    var sent: seq<LegacyRequest>
    var events: seq<LegacyEvent>

    constructor(uuid: string)
      ensures this.uuid == uuid
      ensures !connected && controllerUrl.None? && credentials.None? && sent == [] && events == []
    {
      this.uuid := uuid;
      connected := false;
      controllerUrl := None;
      credentials := None;
      sent := [];
      events := [];
    }

    method SetControllerUrl(url: Option<string>)
      modifies this
      ensures controllerUrl == url
      ensures connected == old(connected) && credentials == old(credentials)
      ensures sent == old(sent) && events == old(events)
    {
      controllerUrl := url;
    }

    /** Builds the URL for a command and hands the request over, if a URL is set. */
    method Issue(command: Command, params: seq<string>, data: RequestData, cb: Option<CallbackId>, timeout: int)
      modifies this
      ensures connected == old(connected) && controllerUrl == old(controllerUrl) && credentials == old(credentials)
      ensures events == old(events)
      ensures sent == old(sent) + (if controllerUrl.Some? then
        [LegacyRequest(RequestPath(controllerUrl.value, LegacyClassifier.CommandPath(command), params), command, data, cb, timeout)] else [])
    {
      if controllerUrl.Some? {
        var url := BuildRequestPath(controllerUrl.value, LegacyClassifier.CommandPath(command), params);
        sent := sent + [LegacyRequest(url, command, data, cb, timeout)];
      }
    }

    /** `setCredentials`: stores them and sends LOGIN with a 3000 ms timeout and no
        callback; without a URL the request builder throws. */
    method SetCredentials(c: Option<Credentials>)
      modifies this
      ensures credentials == c && connected == old(connected) && controllerUrl == old(controllerUrl)
      ensures controllerUrl.Some? ==> (events == old(events) && sent == old(sent)
        + [LegacyRequest(RequestPath(controllerUrl.value, "", []), Command.Login, NoData, None, 3000)])
      ensures controllerUrl.None? ==> sent == old(sent) && events == old(events) + [Escaped(Command.Login)]
    {
      credentials := c;
      if controllerUrl.None? {
        events := events + [Escaped(Command.Login)];
        return;
      }
      Issue(Command.Login, [], NoData, None, 3000);
    }

    /** `connect`: sends CONNECT whenever a URL is set, connected or not. */
    method Connect(cb: CallbackId, timeout: int)
      modifies this
      ensures connected == old(connected) && controllerUrl == old(controllerUrl) && credentials == old(credentials)
      ensures events == old(events)
      ensures sent == old(sent) + (if controllerUrl.Some? then
        [LegacyRequest(RequestPath(controllerUrl.value, "rest/servers", []), Command.Connect, NoData, Some(cb), timeout)] else [])
    {
      Issue(Command.Connect, [], NoData, Some(cb), timeout);
    }

    /** `disconnect`: clears the flag and nothing else. */
    method Disconnect()
      modifies this
      ensures !connected
      ensures controllerUrl == old(controllerUrl) && credentials == old(credentials)
      ensures sent == old(sent) && events == old(events)
    {
      connected := false;
    }

    method GetPanelInfo(cb: CallbackId, timeout: int)
      modifies this
      ensures connected == old(connected) && controllerUrl == old(controllerUrl) && credentials == old(credentials)
      ensures events == old(events)
      ensures sent == old(sent) + (if controllerUrl.Some? then
        [LegacyRequest(RequestPath(controllerUrl.value, "rest/panels/", []), Command.GetPanelList, NoData, Some(cb), timeout)] else [])
    {
      Issue(Command.GetPanelList, [], NoData, Some(cb), timeout);
    }

    method GetPanel(panelName: string, cb: CallbackId, timeout: int)
      modifies this
      ensures connected == old(connected) && controllerUrl == old(controllerUrl) && credentials == old(credentials)
      ensures events == old(events)
      ensures sent == old(sent) + (if controllerUrl.Some? then
        [LegacyRequest(RequestPath(controllerUrl.value, "rest/panel/", [panelName]), Command.GetPanelLayout, NoData, Some(cb), timeout)] else [])
    {
      Issue(Command.GetPanelLayout, [panelName], NoData, Some(cb), timeout);
    }

    /** `monitorSensors`: a poll for this connector's token and the comma-joined ids. */
    method MonitorSensors(sensorIds: seq<int>, cb: CallbackId, timeout: int)
      modifies this
      ensures connected == old(connected) && controllerUrl == old(controllerUrl) && credentials == old(credentials)
      ensures events == old(events)
      ensures sent == old(sent) + (if controllerUrl.Some? then
        [LegacyRequest(RequestPath(controllerUrl.value, "rest/polling/", [uuid, SensorIdSegment(sensorIds)]),
                       Command.DoSensorPolling, NoData, Some(cb), timeout)] else [])
    {
      var params := [uuid, SensorIdSegment(sensorIds)];
      Issue(Command.DoSensorPolling, params, NoData, Some(cb), timeout);
    }

    method GetSensorValues(sensorIds: seq<int>, cb: CallbackId, timeout: int)
      modifies this
      ensures connected == old(connected) && controllerUrl == old(controllerUrl) && credentials == old(credentials)
      ensures events == old(events)
      ensures sent == old(sent) + (if controllerUrl.Some? then
        [LegacyRequest(RequestPath(controllerUrl.value, "rest/status/", [SensorIdSegment(sensorIds)]),
                       Command.GetSensorStatus, NoData, Some(cb), timeout)] else [])
    {
      var params := [SensorIdSegment(sensorIds)];
      Issue(Command.GetSensorStatus, params, NoData, Some(cb), timeout);
    }

    /** `logout`: the credentials are cleared before the URL is checked. */
    method Logout(cb: CallbackId, timeout: int)
      modifies this
      ensures credentials.None? && connected == old(connected) && controllerUrl == old(controllerUrl)
      ensures events == old(events)
      ensures sent == old(sent) + (if controllerUrl.Some? then
        [LegacyRequest(RequestPath(controllerUrl.value, "", []), Command.Logout, NoData, Some(cb), timeout)] else [])
    {
      credentials := None;
      Issue(Command.Logout, [], NoData, Some(cb), timeout);
    }

    /** `sendCommand`: sender id and data as path parameters. */
    method SendCommand(senderId: int, data: string, cb: CallbackId, timeout: int)
      modifies this
      ensures connected == old(connected) && controllerUrl == old(controllerUrl) && credentials == old(credentials)
      ensures events == old(events)
      ensures sent == old(sent) + (if controllerUrl.Some? then
        [LegacyRequest(RequestPath(controllerUrl.value, "rest/control/", [IntToString(senderId), data]),
                       Command.SendCommand, PanelCommandData(senderId), Some(cb), timeout)] else [])
    {
      Issue(Command.SendCommand, [IntToString(senderId), data], PanelCommandData(senderId), Some(cb), timeout);
    }

    /** `getResource`: the completion carries the locator, the name and whether the
        data was asked for. */
    method GetResource(locator: nat, resourceName: string, getData: bool, cb: CallbackId, timeout: int)
      modifies this
      ensures connected == old(connected) && controllerUrl == old(controllerUrl) && credentials == old(credentials)
      ensures events == old(events)
      ensures sent == old(sent) + (if controllerUrl.Some? then
        [LegacyRequest(RequestPath(controllerUrl.value, "", [resourceName]), Command.GetResource,
                       ResourceRequestData(locator, resourceName, getData), Some(cb), timeout)] else [])
    {
      Issue(Command.GetResource, [resourceName], ResourceRequestData(locator, resourceName, getData), Some(cb), timeout);
    }

    method GetResourceData(resourceName: string, cb: CallbackId, timeout: int)
      modifies this
      ensures connected == old(connected) && controllerUrl == old(controllerUrl) && credentials == old(credentials)
      ensures events == old(events)
      ensures sent == old(sent) + (if controllerUrl.Some? then
        [LegacyRequest(RequestPath(controllerUrl.value, "", [resourceName]), Command.GetResourceData,
                       ResourceNameData(resourceName), Some(cb), timeout)] else [])
    {
      Issue(Command.GetResourceData, [resourceName], ResourceNameData(resourceName), Some(cb), timeout);
    }

    /** An HTTP answer to the request at position `i`: classified, and a 200 CONNECT
        answer marks the connector connected before the callback hears of it. */
    method OnResponse(i: nat, responseCode: int, headers: seq<Header>, responseData: Body)
      requires i < |sent|
      modifies this
      ensures sent == old(sent[..i] + sent[i + 1..])
      ensures var r := old(sent[i]);
        && events == old(events) + LegacyEventsOf(r, HandleResponse(r.command, r.data, responseCode, headers, responseData))
        && connected == (old(connected) || (r.command == Command.Connect && responseCode == 200))
      ensures controllerUrl == old(controllerUrl) && credentials == old(credentials)
    {
      var r := sent[i];
      sent := sent[..i] + sent[i + 1..];
      if r.command == Command.Connect && responseCode == 200 {
        connected := true;
      }
      events := events + LegacyEventsOf(r, HandleResponse(r.command, r.data, responseCode, headers, responseData));
    }
  }
}

=== FILE: legacy_discovery.dfy ===
/**
 * The older discovery pair. The broadcaster sends one probe per one-second
 * tick with no back-off, cancels its receiver and then announces the finish.
 * The receiver starts a reply reader only for the first connection from each
 * remote address, whatever later connections from that address carry; the
 * reader forwards the reply if it is non-empty.
 */
module LegacyDiscovery {
  import opened Wrappers
  import opened SensorValues
  import opened DiscoveryServer

  /** The probes of the first `ticks` ticks: one per tick. */
  function EveryTick(ticks: nat): (r: seq<Signal>)
    ensures |r| == ticks
    ensures forall i :: 0 <= i < ticks ==> r[i] == Probe(1000 * i)
  {
    if ticks == 0 then [] else EveryTick(ticks - 1) + [Probe(1000 * (ticks - 1))]
  }

  class LegacyServer {
    var cancelled: bool
    const tcpPort: int
    var elapsedTime: int
    const duration: Option<int>
    var receiverBound: bool
    var signals: seq<Signal>

    constructor(tcpPort: int, duration: Option<int>)
      ensures this.tcpPort == tcpPort && this.duration == duration
      ensures !cancelled && elapsedTime == 0 && !receiverBound && signals == []
    {
      this.tcpPort := tcpPort;
      this.duration := duration;
      cancelled := false;
      elapsedTime := 0;
      receiverBound := false;
      signals := [];
    }

    method Cancel()
      modifies this
      ensures cancelled
      ensures elapsedTime == old(elapsedTime) && receiverBound == old(receiverBound) && signals == old(signals)
    {
      cancelled := true;
    }

    /**
     * The thread body, run once on a fresh broadcaster. A bind failure announces
     * only the failure. Otherwise the start precedes the first probe, every tick
     * probes, and the receiver is cancelled before the finish is announced.
     */
    method Run(bindOk: bool, cancelAfter: nat)
      requires elapsedTime == 0 && !receiverBound && signals == []
      modifies this
      ensures !bindOk ==> signals == [StartFailed] && !receiverBound
      ensures bindOk ==> (receiverBound
        && signals == [Started] + EveryTick(TickCount(duration, cancelAfter)) + [ReceiverCancelled, Finished]
        && elapsedTime == 1000 * TickCount(duration, cancelAfter))
    {
      cancelled := false;
      if !bindOk {
        signals := signals + [StartFailed];
        return;
      }
      receiverBound := true;
      signals := signals + [Started];
      var ticks: nat := 0;
      if cancelAfter == 0 {
        cancelled := true;
      }
      while !cancelled
        invariant ticks <= cancelAfter
        invariant cancelled <==> ticks == cancelAfter
        invariant duration.Some? && ticks > 0 ==> 1000 * ticks <= duration.value
        invariant elapsedTime == 1000 * ticks
        invariant receiverBound && signals == [Started] + EveryTick(ticks)
        decreases cancelAfter - ticks
      {
        signals := signals + [Probe(elapsedTime)];
        elapsedTime := elapsedTime + 1000;
        ticks := ticks + 1;
        if duration.Some? && elapsedTime > duration.value {
          break;
        }
        if ticks == cancelAfter {
          cancelled := true;
        }
      }
      signals := signals + [ReceiverCancelled, Finished];
    }
  }

  /** An accepted connection: the remote address and the reply text its reader would
      read. */
  datatype Connection = Connection(address: string, body: string)

  function Addresses(cs: seq<Connection>): (r: seq<string>)
    ensures |r| == |cs|
    ensures forall i :: 0 <= i < |cs| ==> r[i] == cs[i].address
  {
    if |cs| == 0 then [] else Addresses(cs[..|cs| - 1]) + [cs[|cs| - 1].address]
  }

  /** The connections whose readers are started, after a sequence of connections. */
  function Handled(conns: seq<Connection>): seq<Connection>
  {
    if |conns| == 0 then []
    else
      var handled := Handled(conns[..|conns| - 1]);
      var c := conns[|conns| - 1];
      if c.address in Addresses(handled) then handled else handled + [c]
  }

  /** The replies forwarded by the started readers: the non-empty ones, in order. */
  function Forwarded(handled: seq<Connection>): seq<string>
  {
    if |handled| == 0 then []
    else Forwarded(handled[..|handled| - 1]) + (if handled[|handled| - 1].body != "" then [handled[|handled| - 1].body] else [])
  }

  /** Readers are started for one connection per address, for every address that
      connected, and only for connections that actually arrived. */
  lemma {:induction false} HandledOncePerAddress(conns: seq<Connection>)
    ensures NoDuplicates(Addresses(Handled(conns)))
    ensures forall a :: a in Addresses(Handled(conns)) <==> a in Addresses(conns)
    ensures forall c :: c in Handled(conns) ==> c in conns
  {
    if |conns| > 0 {
      var init := conns[..|conns| - 1];
      var c := conns[|conns| - 1];
      HandledOncePerAddress(init);
      var h := Handled(init);
      assert Addresses(conns) == Addresses(init) + [c.address];
      if c.address !in Addresses(h) {
        var hs := Addresses(h + [c]);
        assert Addresses(h + [c]) == Addresses(h) + [c.address];
        forall i, j | 0 <= i < j < |hs| ensures hs[i] != hs[j] {
          assert hs[i] == Addresses(h)[i];
          if j == |h| {
            assert Addresses(h)[i] in Addresses(h);
          }
        }
      }
      forall x | x in Handled(conns) ensures x in conns {
        if x in h {
          assert x in init;
        }
      }
    }
  }

  /** A connection from an address already seen starts no reader, whatever it carries. */
  lemma RepeatAddressIgnored(conns: seq<Connection>, c: Connection)
    requires c.address in Addresses(conns)
    ensures Handled(conns + [c]) == Handled(conns)
  {
    HandledOncePerAddress(conns);
    assert (conns + [c])[..|conns|] == conns;
  }

  /** Deduplication is by address: the same reply from two addresses is forwarded twice. */
  lemma SameReplyFromTwoAddresses(a: string, b: string, reply: string)
    requires a != b && reply != ""
    ensures Forwarded(Handled([Connection(a, reply), Connection(b, reply)])) == [reply, reply]
  {
    var c1, c2 := Connection(a, reply), Connection(b, reply);
    assert [c1, c2][..1] == [c1];
    assert [c1][..0] == [];
    assert Handled([c1]) == [c1];
    assert Addresses([c1]) == [a];
    assert Handled([c1, c2]) == [c1, c2];
    assert Forwarded([c1]) == [reply];
    assert Forwarded([c1, c2]) == Forwarded([c1]) + [reply];
  }

  class LegacyReceiver {
    var cancelled: bool
    /** The remote addresses accepted so far. */
    var responses: seq<string>
    /** The replies forwarded by the readers started so far. */
    var forwarded: seq<string>

    constructor()
      ensures !cancelled && responses == [] && forwarded == []
    {
      cancelled := false;
      responses := [];
      forwarded := [];
    }

    /** `cancel`: the accept loop stops. */
    method Cancel()
      modifies this
      ensures cancelled && responses == old(responses) && forwarded == old(forwarded)
    {
      cancelled := true;
    }

    /** One accepted connection: a reader is started only for a new address, and it
        forwards a non-empty reply. */
    method Accept(c: Connection)
      modifies this
      ensures c.address in old(responses) ==> responses == old(responses) && forwarded == old(forwarded)
      ensures c.address !in old(responses) ==>
        responses == old(responses) + [c.address]
        && forwarded == old(forwarded) + (if c.body != "" then [c.body] else [])
      ensures cancelled == old(cancelled)
    {
      if c.address !in responses {
        responses := responses + [c.address];
        if c.body != "" {
          forwarded := forwarded + [c.body];
        }
      }
    }

    /** The accept loop over a sequence of connections, until the receiver is
        cancelled (not modelled: every connection given is accepted). The state
        afterwards is the one the specification functions describe. */
    method AcceptAll(conns: seq<Connection>)
      requires responses == [] && forwarded == []
      modifies this
      ensures responses == Addresses(Handled(conns))
      ensures forwarded == Forwarded(Handled(conns))
    {
      for i := 0 to |conns|
        invariant responses == Addresses(Handled(conns[..i]))
        invariant forwarded == Forwarded(Handled(conns[..i]))
      {
        assert conns[..i + 1][..i] == conns[..i];
        var h := Handled(conns[..i]);
        if conns[i].address !in responses {
          assert Addresses(h + [conns[i]]) == Addresses(h) + [conns[i].address];
          assert (h + [conns[i]])[..|h|] == h;
        }
        Accept(conns[i]);
      }
      assert conns[..|conns|] == conns;
    }
  }
}

=== FILE: legacy_handlers.dfy ===
/**
 * The per-panel handlers of the older session manager: a long-poll monitor, a
 * command sender and a resource locator. Each carries a `cancelled` flag. A
 * cancelled monitor ignores completions; an uncancelled one pushes a delta to
 * its widgets and polls again after every completion. The sender and the
 * locator wrap the caller's callback so that completions are swallowed while
 * cancelled, except that resource data requests bypass the wrapper. The
 * connector is always present, so every request is handed over.
 *
 * The connector is not modelled here: what a handler hands it is its `polls`
 * or `calls` list, and a completion names the call it completes by position.
 */
module LegacyHandlers {
  import opened Wrappers
  import opened Protocol
  import opened SensorValues
  import SensorMonitors
  import Gates

  /** A request a sender or locator hands to the connector, with the caller's
      callback and the session timeout read at the time of the request. */
  datatype HandlerCall =
    | CommandCall(senderId: int, data: string, callback: CallbackId, timeout: int)
    | ResourceCall(resource: string, getData: bool, callback: CallbackId, timeout: int)
    | ResourceDataCall(resource: string, callback: CallbackId, timeout: int)

  /** Whether completions of the call pass through the cancellable wrapper. */
  predicate Wrapped(c: HandlerCall)
  {
    !c.ResourceDataCall?
  }

  /** What the caller's callback receives when the connector completes `c` with
      `d`: the delivery unchanged, unless the call is wrapped and the handler is
      cancelled, in which case nothing. */
  function Pass(cancelled: bool, c: HandlerCall, d: Delivery): (r: seq<Gates.Handed>)
    ensures |r| <= 1
    ensures r == [] <==> Wrapped(c) && cancelled
    ensures forall h :: h in r ==> h == Gates.Handed(c.callback, d)
  {
    if Wrapped(c) && cancelled then [] else [Gates.Handed(c.callback, d)]
  }

  /** The callbacks of the calls handed over so far. */
  function Callbacks(calls: seq<HandlerCall>): set<CallbackId>
  {
    set c | c in calls :: c.callback
  }

  class MonitorHandler {
    /** The sensory widgets of the panel. */
    const widgets: seq<Widget>
    const sensorIds: seq<int>
    var cancelled: bool
    var polls: seq<SensorMonitors.Poll>
    var notified: seq<Notification>

    constructor(widgets: seq<Widget>, sensorIds: seq<int>)
      ensures this.widgets == widgets && this.sensorIds == sensorIds
      ensures !cancelled && polls == [] && notified == []
    {
      this.widgets := widgets;
      this.sensorIds := sensorIds;
      cancelled := false;
      polls := [];
      notified := [];
    }

    /** `start`: a poll for the panel's ids with the 55 s timeout. The flag is not
        consulted. */
    method Start()
      modifies this
      ensures polls == old(polls) + [SensorMonitors.Poll(sensorIds, SensorMonitors.PollTimeout)]
      ensures cancelled == old(cancelled) && notified == old(notified)
    {
      polls := polls + [SensorMonitors.Poll(sensorIds, SensorMonitors.PollTimeout)];
    }

    method Cancel()
      modifies this
      ensures cancelled
      ensures polls == old(polls) && notified == old(notified)
    {
      cancelled := true;
    }

    /** The flag cleared again, as a successful connect does. */
    method Resume()
      modifies this
      ensures !cancelled
      ensures polls == old(polls) && notified == old(notified)
    {
      cancelled := false;
    }

    /** A failed poll: ignored once cancelled, otherwise the next poll starts. */
    method OnFailure(code: ResponseCode)
      modifies this
      ensures old(cancelled) ==> polls == old(polls)
      ensures !old(cancelled) ==> polls == old(polls) + [SensorMonitors.Poll(sensorIds, SensorMonitors.PollTimeout)]
      ensures cancelled == old(cancelled) && notified == old(notified)
    {
      if cancelled {
        return;
      }
      Start();
    }

    /**
     * A completed poll with its delta (null for the empty delta), whose entries
     * are visited in the order `order`. Once cancelled nothing happens; otherwise
     * each entry reaches every monitored link whose ref equals its key, and then
     * the next poll starts.
     */
    method OnSuccess(delta: Option<map<int, string>>, order: seq<int>)
      requires delta.Some? ==> IsIterationOf(order, delta.value)
      modifies this
      ensures old(cancelled) ==> polls == old(polls) && notified == old(notified)
      ensures !old(cancelled) ==> (
        notified == old(notified) + SensorMonitors.Pushed(delta, order, widgets)
        && polls == old(polls) + [SensorMonitors.Poll(sensorIds, SensorMonitors.PollTimeout)])
      ensures cancelled == old(cancelled)
    {
      if cancelled {
        return;
      }
      if delta.Some? {
        var pushed := PushDelta(delta.value, order, widgets);
        notified := notified + pushed;
      }
      Start();
    }
  }

  class CommandHandler {
    var cancelled: bool
    var calls: seq<HandlerCall>
    var handed: seq<Gates.Handed>

    /** Only the callbacks of commands actually handed to the connector ever hear
        anything, and the sender only hands over commands. */
    predicate Valid()
      reads this
    {
      (forall k :: 0 <= k < |handed| ==> handed[k].callback in Callbacks(calls))
      && (forall k :: 0 <= k < |calls| ==> calls[k].CommandCall?)
    }

    constructor()
      ensures Valid()
      ensures !cancelled && calls == [] && handed == []
    {
      cancelled := false;
      calls := [];
      handed := [];
    }

    method Cancel()
      modifies this
      ensures cancelled
      ensures calls == old(calls) && handed == old(handed)
    {
      cancelled := true;
    }

    method Resume()
      modifies this
      ensures !cancelled
      ensures calls == old(calls) && handed == old(handed)
    {
      cancelled := false;
    }

    /** `sendCommand`: handed over, with the session timeout `timeout`, whether
        cancelled or not. */
    method SendCommand(senderId: int, data: string, cb: CallbackId, timeout: int)
      requires Valid()
      modifies this
      ensures Valid()
      ensures calls == old(calls) + [CommandCall(senderId, data, cb, timeout)]
      ensures cancelled == old(cancelled) && handed == old(handed)
    {
      calls := calls + [CommandCall(senderId, data, cb, timeout)];
    }

    /** The connector completes call `i`, in success or failure: the wrapper passes
        the delivery on only while the sender is not cancelled. */
    method OnCompletion(i: nat, d: Delivery)
      requires Valid() && i < |calls|
      modifies this
      ensures Valid()
      ensures handed == old(handed) + (if cancelled then [] else [Gates.Handed(old(calls[i]).callback, d)])
      ensures cancelled == old(cancelled) && calls == old(calls)
    {
      assert calls[i] in calls;
      handed := handed + Pass(cancelled, calls[i], d);
    }
  }

  class LocatorHandler {
    var cancelled: bool
    var calls: seq<HandlerCall>
    var handed: seq<Gates.Handed>

    /** Only the callbacks of requests actually handed to the connector ever hear
        anything, and the locator only hands over resource requests. */
    predicate Valid()
      reads this
    {
      (forall k :: 0 <= k < |handed| ==> handed[k].callback in Callbacks(calls))
      && (forall k :: 0 <= k < |calls| ==> calls[k].ResourceCall? || calls[k].ResourceDataCall?)
    }

    constructor()
      ensures Valid()
      ensures !cancelled && calls == [] && handed == []
    {
      cancelled := false;
      calls := [];
      handed := [];
    }

    method Cancel()
      modifies this
      ensures cancelled
      ensures calls == old(calls) && handed == old(handed)
    {
      cancelled := true;
    }

    method Resume()
      modifies this
      ensures !cancelled
      ensures calls == old(calls) && handed == old(handed)
    {
      cancelled := false;
    }

    /** `getResource`: the data is asked for when the caller asks for it or when the
        session's `loadResourceData` flag is set. */
    method GetResource(resource: string, getData: bool, loadResourceData: bool, cb: CallbackId, timeout: int)
      requires Valid()
      modifies this
      ensures Valid()
      ensures calls == old(calls) + [ResourceCall(resource, getData || loadResourceData, cb, timeout)]
      ensures cancelled == old(cancelled) && handed == old(handed)
    {
      var fetch := getData;
      if loadResourceData {
        fetch := true;
      }
      calls := calls + [ResourceCall(resource, fetch, cb, timeout)];
    }

    /** `getResourceData`: handed over with the caller's own callback. */
    method GetResourceData(resource: string, cb: CallbackId, timeout: int)
      requires Valid()
      modifies this
      ensures Valid()
      ensures calls == old(calls) + [ResourceDataCall(resource, cb, timeout)]
      ensures cancelled == old(cancelled) && handed == old(handed)
    {
      calls := calls + [ResourceDataCall(resource, cb, timeout)];
    }

    /** The connector completes call `i`: a resource completion reaches the caller
        only while the locator is not cancelled, a data completion always does. */
    method OnCompletion(i: nat, d: Delivery)
      requires Valid() && i < |calls|
      modifies this
      ensures Valid()
      ensures handed == old(handed)
        + (if !cancelled || old(calls[i]).ResourceDataCall? then [Gates.Handed(old(calls[i]).callback, d)] else [])
      ensures cancelled == old(cancelled) && calls == old(calls)
    {
      assert calls[i] in calls;
      handed := handed + Pass(cancelled, calls[i], d);
    }
  }
}

=== FILE: legacy_session.dfy ===
/**
 * The older session manager. It keeps, per registered panel, a monitor, a
 * locator and a sender handler in three maps that always share their key
 * set. Registering a panel creates the three handlers and always asks the
 * connector for the current values of the panel's sensors; when that request
 * completes, in success or failure, the handlers are wired into the panel's
 * widgets and the monitor starts, provided the panel is still registered.
 * Unregistering cancels and detaches the handlers and drops the panel.
 * Disconnecting cancels every handler; a successful connect clears every
 * `cancelled` flag and restarts every monitor before the caller hears of it.
 *
 * Panels are identified by their id. The connector is not modelled here: each
 * operation returns the calls it hands to the connector and the events it
 * delivers to callers, and the connector's completions are operations that
 * receive the call they complete. Of the connector's state only its controller
 * URL is kept, in `url`, because `setControllerUrl` consults it; its
 * `isConnected` answer is a parameter. The widgets' locator and sender fields
 * are summarised per panel by `wiring`.
 */
module LegacySession {
  import opened Wrappers
  import opened Protocol
  import opened SensorValues
  import opened SensorMonitors
  import opened LegacyHandlers
  import LegacyConnector

  /** The timeout a session starts with, in milliseconds. */
  const DefaultTimeout := 5000

  /** The locator and sender wired into a panel's widgets. */
  datatype Wiring = Wiring(locator: LocatorHandler, sender: CommandHandler)

  /** What the session hands to the connector. A sensor values request carries
      what its callback captured: the panel, its sensory widgets and the three
      handlers. */
  datatype LegacyCall =
    | SetCredentialsCall(credentials: Option<LegacyConnector.Credentials>)
    | SetUrlCall(url: Option<string>)
    | ConnectCall(callback: CallbackId, timeout: int)
    | DisconnectCall
    | SensorValuesCall(sensorIds: seq<int>, timeout: int, panel: Panel, sensory: seq<Widget>,
                       monitor: MonitorHandler, locator: LocatorHandler, sender: CommandHandler)

  datatype Event =
    | Delivered(callback: CallbackId, delivery: Delivery)
    /** `registerPanel` threw on a panel whose widget list is null. */
    | RegisterEscaped(panel: nat)

  class Controller {
    var timeout: int
    var registeredMonitors: map<nat, MonitorHandler>
    var registeredLocators: map<nat, LocatorHandler>
    var registeredSenders: map<nat, CommandHandler>
    var wiring: map<nat, Wiring>
    var loadResourceData: bool
    var connectCallback: Option<CallbackId>
    /** The connector's controller URL; None while it is null. */
    var url: Option<string>

    /** The three maps share one key set, no handler serves two panels, and only
        registered panels are wired. */
    predicate Valid()
      reads this
    {
      && registeredMonitors.Keys == registeredLocators.Keys == registeredSenders.Keys
      && wiring.Keys <= registeredMonitors.Keys
      && (forall p, q :: p in registeredMonitors && q in registeredMonitors && p != q ==> registeredMonitors[p] != registeredMonitors[q])
      && (forall p, q :: p in registeredLocators && q in registeredLocators && p != q ==> registeredLocators[p] != registeredLocators[q])
      && (forall p, q :: p in registeredSenders && q in registeredSenders && p != q ==> registeredSenders[p] != registeredSenders[q])
    }

    /** The handlers of one panel. */
    function HandlersOf(id: nat): set<object>
      reads this
    {
      (if id in registeredMonitors then {registeredMonitors[id] as object} else {})
      + (if id in registeredLocators then {registeredLocators[id] as object} else {})
      + (if id in registeredSenders then {registeredSenders[id] as object} else {})
    }

    twostate predicate SameRegistrations()
      reads this
    {
      && registeredMonitors == old(registeredMonitors) && registeredLocators == old(registeredLocators)
      && registeredSenders == old(registeredSenders) && wiring == old(wiring)
    }

    twostate predicate SameSettings()
      reads this
    {
      && timeout == old(timeout) && loadResourceData == old(loadResourceData)
      && connectCallback == old(connectCallback) && url == old(url)
    }

    /** An empty session with the default timeout, no stored callback and a fresh
        connector, whose URL is null. */
    constructor()
      ensures Valid()
      ensures timeout == DefaultTimeout && !loadResourceData && connectCallback.None? && url.None?
      ensures registeredMonitors == map[] && registeredLocators == map[] && registeredSenders == map[]
      ensures wiring == map[]
    {
      timeout := DefaultTimeout;
      registeredMonitors, registeredLocators, registeredSenders, wiring := map[], map[], map[], map[];
      loadResourceData := false;
      connectCallback := None;
      url := None;
    }

    /**
     * The public constructors: the URL (of the controller info, when one is given)
     * goes through `setControllerUrl`, whose fresh connector has no URL and reports
     * itself disconnected, and then the credentials are handed over. The connector
     * sees a disconnect, the URL and the credentials.
     */
    static method Create(url: Option<string>, credentials: Option<LegacyConnector.Credentials>)
      returns (c: Controller, sent: seq<LegacyCall>)
      ensures fresh(c) && c.Valid()
      ensures c.timeout == DefaultTimeout && !c.loadResourceData && c.connectCallback.None? && c.url == url
      ensures c.registeredMonitors == map[] && c.registeredLocators == map[] && c.registeredSenders == map[]
      ensures c.wiring == map[]
      ensures sent == [DisconnectCall, SetUrlCall(url), SetCredentialsCall(credentials)]
    {
      c := new Controller();
      var sent1 := c.SetControllerUrl(url, false);
      var sent2 := c.SetCredentials(credentials);
      sent := sent1 + sent2;
    }

    method SetTimeout(t: int)
      modifies this
      ensures timeout == t && loadResourceData == old(loadResourceData)
      ensures connectCallback == old(connectCallback) && url == old(url)
      ensures SameRegistrations()
    {
      timeout := t;
    }

    /** `setCredentials`: handed straight to the connector. */
    method SetCredentials(c: Option<LegacyConnector.Credentials>) returns (sent: seq<LegacyCall>)
      ensures sent == [SetCredentialsCall(c)]
    {
      sent := [SetCredentialsCall(c)];
    }

    /** `setLoadResourceData`: later resource requests ask for the data too. */
    method SetLoadResourceData(b: bool)
      modifies this
      ensures loadResourceData == b && timeout == old(timeout)
      ensures connectCallback == old(connectCallback) && url == old(url)
      ensures SameRegistrations()
    {
      loadResourceData := b;
    }

    /** A locator and a sender as a new registration leaves them: not cancelled,
        with nothing handed over yet. */
    static predicate NewHandlers(l: LocatorHandler, s: CommandHandler)
      reads l, s
    {
      && l.Valid() && !l.cancelled && l.calls == [] && l.handed == []
      && s.Valid() && !s.cancelled && s.calls == [] && s.handed == []
    }

    /** A fresh monitor, locator and sender for a panel with the given widgets; the
        monitor watches the sensory widgets and their de-duplicated link refs. */
    static method NewHandles(ws: seq<Widget>) returns (m: MonitorHandler, l: LocatorHandler, s: CommandHandler)
      ensures fresh(m) && fresh(l) && fresh(s)
      ensures m.widgets == SensoryWidgets(ws) && m.sensorIds == Dedup(SensorRefs(ws))
      ensures !m.cancelled && m.polls == [] && m.notified == []
      ensures NewHandlers(l, s)
    {
      s := new CommandHandler();
      l := new LocatorHandler();
      var monitored, ids := CollectSensorIds(ws);
      m := new MonitorHandler(monitored, ids);
    }

    /** Puts a new panel's handlers into the three maps. */
    method AddPanel(id: nat, m: MonitorHandler, l: LocatorHandler, s: CommandHandler)
      requires Valid() && id !in registeredMonitors
      requires m !in registeredMonitors.Values && l !in registeredLocators.Values && s !in registeredSenders.Values
      modifies this
      ensures Valid() && SameSettings() && wiring == old(wiring)
      ensures registeredMonitors == old(registeredMonitors)[id := m]
      ensures registeredLocators == old(registeredLocators)[id := l]
      ensures registeredSenders == old(registeredSenders)[id := s]
    {
      registeredMonitors := registeredMonitors[id := m];
      registeredLocators := registeredLocators[id := l];
      registeredSenders := registeredSenders[id := s];
    }

    /**
     * `registerPanel`: nothing for a null or already registered panel, and a null
     * widget list throws before anything is stored. Otherwise the panel is
     * registered as `RegisterNew` describes.
     */
    method RegisterPanel(panel: Option<Panel>) returns (sent: seq<LegacyCall>, out: seq<Event>)
      requires Valid()
      modifies this
      ensures Valid() && SameSettings()
      ensures panel.None? || panel.value.id in old(registeredLocators) ==> (
        SameRegistrations() && sent == [] && out == [])
      ensures panel.Some? && panel.value.id !in old(registeredLocators) && panel.value.widgets.None? ==> (
        SameRegistrations() && sent == [] && out == [RegisterEscaped(panel.value.id)])
      ensures panel.Some? && panel.value.id !in old(registeredLocators) && panel.value.widgets.Some? ==> (
        Registered(panel.value, sent) && out == [])
    {
      sent, out := [], [];
      if panel.None? || panel.value.id in registeredLocators {
        return;
      }
      var p := panel.value;
      if p.widgets.None? {
        out := [RegisterEscaped(p.id)];
        return;
      }
      sent := RegisterNew(p);
    }

    /**
     * The registration of panel `p`, and what it hands to the connector: the panel
     * has a fresh monitor, locator and sender, in all three maps at once, none of
     * them wired or started yet, and the current values of the monitored refs are
     * requested with the session timeout, even when there are none.
     */
    twostate predicate Registered(p: Panel, new sent: seq<LegacyCall>)
      requires p.widgets.Some?
      reads this, HandlersOf(p.id)
    {
      var id, ws := p.id, p.widgets.value;
      && id in registeredMonitors && id in registeredLocators && id in registeredSenders
      && registeredMonitors == old(registeredMonitors)[id := registeredMonitors[id]]
      && registeredLocators == old(registeredLocators)[id := registeredLocators[id]]
      && registeredSenders == old(registeredSenders)[id := registeredSenders[id]]
      && wiring == old(wiring)
      && var m, l, s := registeredMonitors[id], registeredLocators[id], registeredSenders[id];
      && fresh(m) && fresh(l) && fresh(s)
      && m.widgets == SensoryWidgets(ws) && m.sensorIds == Dedup(SensorRefs(ws))
      && !m.cancelled && m.polls == [] && m.notified == []
      && NewHandlers(l, s)
      && sent == [SensorValuesCall(m.sensorIds, timeout, p, m.widgets, m, l, s)]
    }

    /** Registers a panel that is not registered and has a widget list. */
    method RegisterNew(p: Panel) returns (sent: seq<LegacyCall>)
      requires Valid() && p.id !in registeredLocators && p.widgets.Some?
      modifies this
      ensures Valid() && SameSettings()
      ensures Registered(p, sent)
    {
      var monitor, locator, sender := NewHandles(p.widgets.value);
      AddPanel(p.id, monitor, locator, sender);
      sent := [SensorValuesCall(monitor.sensorIds, timeout, p, monitor.widgets, monitor, locator, sender)];
    }

    /** Cancels one panel's handlers in the order of `unregisterPanel`. */
    static method CancelPanel(m: MonitorHandler, l: LocatorHandler, s: CommandHandler)
      modifies m, l, s
      ensures m.cancelled && l.cancelled && s.cancelled
      ensures m.polls == old(m.polls) && m.notified == old(m.notified)
      ensures l.calls == old(l.calls) && l.handed == old(l.handed)
      ensures s.calls == old(s.calls) && s.handed == old(s.handed)
    {
      l.Cancel();
      s.Cancel();
      m.Cancel();
    }

    /** Detaches a panel's handlers from its widgets and drops it from the maps. */
    method RemovePanel(id: nat)
      requires Valid()
      modifies this
      ensures Valid() && SameSettings()
      ensures registeredMonitors == old(registeredMonitors) - {id} && registeredLocators == old(registeredLocators) - {id}
      ensures registeredSenders == old(registeredSenders) - {id} && wiring == old(wiring) - {id}
    {
      wiring := wiring - {id};
      registeredMonitors := registeredMonitors - {id};
      registeredLocators := registeredLocators - {id};
      registeredSenders := registeredSenders - {id};
    }

    /**
     * `unregisterPanel`: nothing for a panel that is not registered. Otherwise its
     * locator, sender and monitor are cancelled, every widget loses its locator
     * and every command widget its sender, and the panel leaves all three maps.
     */
    method UnregisterPanel(panel: Panel)
      requires Valid()
      modifies this, HandlersOf(panel.id)
      ensures Valid() && SameSettings()
      ensures panel.id !in old(registeredLocators) ==> SameRegistrations()
      ensures panel.id in old(registeredLocators) ==> (
        && registeredMonitors == old(registeredMonitors) - {panel.id}
        && registeredLocators == old(registeredLocators) - {panel.id}
        && registeredSenders == old(registeredSenders) - {panel.id}
        && wiring == old(wiring) - {panel.id})
      ensures panel.id in old(registeredLocators) ==> (
        var m, l, s := old(registeredMonitors)[panel.id], old(registeredLocators)[panel.id], old(registeredSenders)[panel.id];
        && m.cancelled && l.cancelled && s.cancelled
        && m.polls == old(m.polls) && m.notified == old(m.notified)
        && l.calls == old(l.calls) && l.handed == old(l.handed)
        && s.calls == old(s.calls) && s.handed == old(s.handed))
    {
      if panel.id !in registeredLocators {
        return;
      }
      CancelPanel(registeredMonitors[panel.id], registeredLocators[panel.id], registeredSenders[panel.id]);
      RemovePanel(panel.id);
    }

    /**
     * The sensor values request `c` fails: if the panel is still (or again)
     * registered, the monitor the request captured starts and the captured
     * locator and sender are wired into the panel's widgets.
     */
    method OnSnapshotFailure(c: LegacyCall, code: ResponseCode)
      requires Valid() && c.SensorValuesCall?
      modifies this, c.monitor
      ensures Valid() && SameSettings()
      ensures registeredMonitors == old(registeredMonitors) && registeredLocators == old(registeredLocators)
      ensures registeredSenders == old(registeredSenders)
      ensures c.panel.id in registeredMonitors ==> wiring == old(wiring)[c.panel.id := Wiring(c.locator, c.sender)]
      ensures c.panel.id !in registeredMonitors ==> wiring == old(wiring)
      ensures c.monitor.polls == old(c.monitor.polls)
        + (if c.panel.id in registeredMonitors then [Poll(c.monitor.sensorIds, PollTimeout)] else [])
      ensures c.monitor.cancelled == old(c.monitor.cancelled) && c.monitor.notified == old(c.monitor.notified)
    {
      if c.panel.id in registeredMonitors {
        c.monitor.Start();
        wiring := wiring[c.panel.id := Wiring(c.locator, c.sender)];
      }
    }

    /**
     * The sensor values request `c` succeeds with `result` (null for no values),
     * whose entries are visited in `order`. A result is pushed to every sensory
     * link with a matching ref; then, if the panel is still (or again) registered,
     * the captured locator and sender are wired and the captured monitor starts.
     */
    method OnSnapshotSuccess(c: LegacyCall, result: Option<map<int, string>>, order: seq<int>)
      returns (pushed: seq<Notification>)
      requires Valid() && c.SensorValuesCall?
      requires result.Some? ==> IsIterationOf(order, result.value)
      modifies this, c.monitor
      ensures Valid() && SameSettings()
      ensures registeredMonitors == old(registeredMonitors) && registeredLocators == old(registeredLocators)
      ensures registeredSenders == old(registeredSenders)
      ensures pushed == Pushed(result, order, c.sensory)
      ensures c.panel.id in registeredMonitors ==> wiring == old(wiring)[c.panel.id := Wiring(c.locator, c.sender)]
      ensures c.panel.id !in registeredMonitors ==> wiring == old(wiring)
      ensures c.monitor.polls == old(c.monitor.polls)
        + (if c.panel.id in registeredMonitors then [Poll(c.monitor.sensorIds, PollTimeout)] else [])
      ensures c.monitor.cancelled == old(c.monitor.cancelled) && c.monitor.notified == old(c.monitor.notified)
    {
      pushed := [];
      if result.Some? {
        pushed := PushDelta(result.value, order, c.sensory);
      }
      if c.panel.id in registeredMonitors {
        wiring := wiring[c.panel.id := Wiring(c.locator, c.sender)];
        c.monitor.Start();
      }
    }

    /** Every monitor of `ms` has the flag `cancelled` and keeps its notifications;
        it has issued one more poll if it was resumed, and none if cancelled. */
    static twostate predicate MonitorsSet(ms: map<nat, MonitorHandler>, cancelled: bool)
      reads ms.Values
    {
      forall p :: p in ms ==>
        && ms[p].cancelled == cancelled && ms[p].notified == old(ms[p].notified)
        && ms[p].polls == old(ms[p].polls) + (if cancelled then [] else [Poll(ms[p].sensorIds, PollTimeout)])
    }

    /** Every locator of `ls` has the flag `cancelled` and keeps everything else. */
    static twostate predicate LocatorsSet(ls: map<nat, LocatorHandler>, cancelled: bool)
      reads ls.Values
    {
      forall p :: p in ls ==>
        ls[p].cancelled == cancelled && ls[p].calls == old(ls[p].calls) && ls[p].handed == old(ls[p].handed)
    }

    /** Every sender of `ss` has the flag `cancelled` and keeps everything else. */
    static twostate predicate SendersSet(ss: map<nat, CommandHandler>, cancelled: bool)
      reads ss.Values
    {
      forall p :: p in ss ==>
        ss[p].cancelled == cancelled && ss[p].calls == old(ss[p].calls) && ss[p].handed == old(ss[p].handed)
    }

    /** One monitor of such a pass: cancelled, or resumed and started. */
    static method SetMonitor(m: MonitorHandler, cancelled: bool)
      modifies m
      ensures m.cancelled == cancelled && m.notified == old(m.notified)
      ensures m.polls == old(m.polls) + (if cancelled then [] else [Poll(m.sensorIds, PollTimeout)])
    {
      if cancelled {
        m.Cancel();
      } else {
        m.Resume();
        m.Start();
      }
    }

    /** One pass over the monitors. */
    static method SetMonitorFlags(ms: map<nat, MonitorHandler>, cancelled: bool,
                                  ghost ls: map<nat, LocatorHandler>, ghost ss: map<nat, CommandHandler>)
      requires forall p, q :: p in ms && q in ms && p != q ==> ms[p] != ms[q]
      modifies ms.Values
      ensures MonitorsSet(ms, cancelled)
      ensures unchanged(ls.Values) && unchanged(ss.Values)
    {
      var keys := ms.Keys;
      while keys != {}
        invariant keys <= ms.Keys
        invariant forall p :: p in ms && p !in keys ==> ms[p].cancelled == cancelled
        invariant forall p :: p in ms ==>
          && ms[p].notified == old(ms[p].notified)
          && ms[p].polls == old(ms[p].polls)
               + (if p in keys || cancelled then [] else [Poll(ms[p].sensorIds, PollTimeout)])
        decreases keys
      {
        var p :| p in keys;
        SetMonitor(ms[p], cancelled);
        keys := keys - {p};
      }
    }

    /** One pass over the locators, setting each flag. */
    static method SetLocatorFlags(ls: map<nat, LocatorHandler>, cancelled: bool,
                                  ghost ms: map<nat, MonitorHandler>, ghost ss: map<nat, CommandHandler>)
      requires forall p, q :: p in ls && q in ls && p != q ==> ls[p] != ls[q]
      modifies ls.Values
      ensures LocatorsSet(ls, cancelled)
      ensures unchanged(ms.Values) && unchanged(ss.Values)
    {
      var keys := ls.Keys;
      while keys != {}
        invariant keys <= ls.Keys
        invariant forall p :: p in ls && p !in keys ==> ls[p].cancelled == cancelled
        invariant forall p :: p in ls ==> ls[p].calls == old(ls[p].calls) && ls[p].handed == old(ls[p].handed)
        decreases keys
      {
        var p :| p in keys;
        if cancelled {
          ls[p].Cancel();
        } else {
          ls[p].Resume();
        }
        keys := keys - {p};
      }
    }

    /** One pass over the senders, setting each flag. */
    static method SetSenderFlags(ss: map<nat, CommandHandler>, cancelled: bool,
                                 ghost ms: map<nat, MonitorHandler>, ghost ls: map<nat, LocatorHandler>)
      requires forall p, q :: p in ss && q in ss && p != q ==> ss[p] != ss[q]
      modifies ss.Values
      ensures SendersSet(ss, cancelled)
      ensures unchanged(ms.Values) && unchanged(ls.Values)
    {
      var keys := ss.Keys;
      while keys != {}
        invariant keys <= ss.Keys
        invariant forall p :: p in ss && p !in keys ==> ss[p].cancelled == cancelled
        invariant forall p :: p in ss ==> ss[p].calls == old(ss[p].calls) && ss[p].handed == old(ss[p].handed)
        decreases keys
      {
        var p :| p in keys;
        if cancelled {
          ss[p].Cancel();
        } else {
          ss[p].Resume();
        }
        keys := keys - {p};
      }
    }

    /** The three passes of `disconnect`: monitors, then senders, then locators. */
    static method CancelAll(ms: map<nat, MonitorHandler>, ls: map<nat, LocatorHandler>, ss: map<nat, CommandHandler>)
      requires forall p, q :: p in ms && q in ms && p != q ==> ms[p] != ms[q]
      requires forall p, q :: p in ls && q in ls && p != q ==> ls[p] != ls[q]
      requires forall p, q :: p in ss && q in ss && p != q ==> ss[p] != ss[q]
      modifies ms.Values, ls.Values, ss.Values
      ensures MonitorsSet(ms, true) && LocatorsSet(ls, true) && SendersSet(ss, true)
    {
      SetMonitorFlags(ms, true, ls, ss);
      SetSenderFlags(ss, true, ms, ls);
      SetLocatorFlags(ls, true, ms, ss);
    }

    /** The three passes of a successful connect: senders, then locators, then the
        monitors, each resumed and started. */
    static method ResumeAll(ms: map<nat, MonitorHandler>, ls: map<nat, LocatorHandler>, ss: map<nat, CommandHandler>)
      requires forall p, q :: p in ms && q in ms && p != q ==> ms[p] != ms[q]
      requires forall p, q :: p in ls && q in ls && p != q ==> ls[p] != ls[q]
      requires forall p, q :: p in ss && q in ss && p != q ==> ss[p] != ss[q]
      modifies ms.Values, ls.Values, ss.Values
      ensures MonitorsSet(ms, false) && LocatorsSet(ls, false) && SendersSet(ss, false)
    {
      SetSenderFlags(ss, false, ms, ls);
      SetLocatorFlags(ls, false, ms, ss);
      SetMonitorFlags(ms, false, ls, ss);
    }

    /** `disconnect`: every handler is cancelled before the connector disconnects. */
    method Disconnect() returns (sent: seq<LegacyCall>)
      requires Valid()
      modifies registeredMonitors.Values, registeredLocators.Values, registeredSenders.Values
      ensures MonitorsSet(registeredMonitors, true)
      ensures LocatorsSet(registeredLocators, true) && SendersSet(registeredSenders, true)
      ensures sent == [DisconnectCall]
      ensures unchanged(this)
    {
      CancelAll(registeredMonitors, registeredLocators, registeredSenders);
      sent := [DisconnectCall];
    }

    /** `connect`: the callback is stored and the connector gets a connect request
        with the given timeout; `connect(callback)` passes the session timeout. */
    method Connect(cb: CallbackId, t: int) returns (sent: seq<LegacyCall>)
      modifies this
      ensures connectCallback == Some(cb) && timeout == old(timeout)
      ensures loadResourceData == old(loadResourceData) && url == old(url)
      ensures SameRegistrations()
      ensures sent == [ConnectCall(cb, t)]
    {
      connectCallback := Some(cb);
      sent := [ConnectCall(cb, t)];
    }

    /**
     * The connect request `c` succeeds: every sender and locator is resumed, every
     * monitor is resumed and started, and only then does the caller hear of it.
     */
    method OnConnectSuccess(c: LegacyCall, status: ResponseCode) returns (out: seq<Event>)
      requires Valid() && c.ConnectCall?
      modifies registeredMonitors.Values, registeredLocators.Values, registeredSenders.Values
      ensures MonitorsSet(registeredMonitors, false)
      ensures LocatorsSet(registeredLocators, false) && SendersSet(registeredSenders, false)
      ensures out == [Delivered(c.callback, Success(ConnectionStatus(status)))]
      ensures unchanged(this)
    {
      ResumeAll(registeredMonitors, registeredLocators, registeredSenders);
      out := [Delivered(c.callback, Success(ConnectionStatus(status)))];
    }

    /** The connect request `c` fails: the caller hears the failure and nothing else
        changes. */
    static method OnConnectFailure(c: LegacyCall, code: ResponseCode) returns (out: seq<Event>)
      requires c.ConnectCall?
      ensures out == [Delivered(c.callback, Failure(code))]
    {
      out := [Delivered(c.callback, Failure(code))];
    }

    /** Records the URL handed to the connector. */
    method StoreUrl(newUrl: Option<string>)
      requires Valid()
      modifies this
      ensures Valid() && SameRegistrations()
      ensures url == newUrl && timeout == old(timeout)
      ensures loadResourceData == old(loadResourceData) && connectCallback == old(connectCallback)
      ensures unchanged(registeredMonitors.Values, registeredLocators.Values, registeredSenders.Values)
    {
      url := newUrl;
    }

    /** Whether `setControllerUrl` returns at once: the connector already has a
        URL and it equals the new one. */
    predicate SameUrl(newUrl: Option<string>)
      reads this
    {
      url.Some? && url == newUrl
    }

    /**
     * `setControllerUrl`: nothing at all when the connector already has this URL.
     * Otherwise every handler is cancelled, the connector disconnects and gets
     * the new URL, and it is asked to connect again, with the stored callback and
     * the session timeout, only if it reported itself connected beforehand and a
     * callback is stored.
     */
    method SetControllerUrl(newUrl: Option<string>, isConnected: bool) returns (sent: seq<LegacyCall>)
      requires Valid()
      modifies this, registeredMonitors.Values, registeredLocators.Values, registeredSenders.Values
      ensures Valid() && SameRegistrations()
      ensures timeout == old(timeout) && loadResourceData == old(loadResourceData)
      ensures connectCallback == old(connectCallback)
      ensures old(SameUrl(newUrl)) ==> (
        sent == [] && url == old(url)
        && unchanged(registeredMonitors.Values, registeredLocators.Values, registeredSenders.Values))
      ensures !old(SameUrl(newUrl)) ==> (
        && url == newUrl
        && MonitorsSet(registeredMonitors, true)
        && LocatorsSet(registeredLocators, true) && SendersSet(registeredSenders, true)
        && sent == [DisconnectCall, SetUrlCall(newUrl)]
             + (if isConnected && old(connectCallback).Some?
                then [ConnectCall(old(connectCallback).value, old(timeout))] else []))
    {
      if SameUrl(newUrl) {
        return [];
      }
      sent := Disconnect();
      StoreUrl(newUrl);
      sent := sent + [SetUrlCall(newUrl)];
      if isConnected && connectCallback.Some? {
        sent := sent + [ConnectCall(connectCallback.value, timeout)];
      }
    }
  }
}

=== FILE: protocol.dfy ===
/**
 * Vocabulary shared by both connector revisions and both session managers:
 * response codes, the REST commands and their path fragments, what the JSON
 * and XML parsers make of a response body, what a completion delivers to a
 * caller's callback, and the widget/sensor entities the sessions wire up.
 */
module Protocol {
  import opened Wrappers

  /** The codes a callback's `onFailure` (or a status object) can carry. */
  datatype ResponseCode =
    | Ok
    | NoContent
    | TimeOut
    | UnknownError
    | InvalidUrl
    | Disconnected
    | OtherCode(code: int)

  /** The REST commands of the newer connector, in declaration order. */
  datatype RestCommand =
    | GetPanelList
    | GetPanelLayout
    | SendControlCommand
    | SendNamedCommand
    | GetSensorStatus
    | DoSensorPolling
    | GetRoundRobinList
    | Login
    | Logout
    | Connect
    | Disconnect
    | GetResourceDetails
    | GetResourceData
    | Discovery
    | StopDiscovery
    | GetDeviceList
    | GetDevice
    | GetXml

  /** The path fragment each command appends after the controller URL. */
  function CommandPath(c: RestCommand): string
  {
    match c
    case GetPanelList => "rest/panels/"
    case GetPanelLayout => "rest/panel/"
    case SendControlCommand => "rest/control/"
    case SendNamedCommand => "rest/devices/"
    case GetSensorStatus => "rest/status/"
    case DoSensorPolling => "rest/polling/"
    case GetRoundRobinList => "rest/servers"
    case Connect => "rest/servers"
    case GetDeviceList => "rest/devices/"
    case GetDevice => "rest/devices/"
    case GetXml => "resources/controller.xml"
    case _ => ""
  }

  /** One sensor reading in a status or polling document. */
  datatype SensorStatus = SensorStatus(sensorId: int, value: string)

  /** The entity classes a response body can be decoded into besides errors and status lists. */
  datatype RecordKind =
    | PanelInfoListKind
    | PanelKind
    | DeviceInfoArrayKind
    | DeviceKind
    | ControllerInfoKind

  /** The Java classes a response body is decoded into. */
  datatype Target =
    | ControllerErrorType
    | SensorStatusListType
    | RecordType(kind: RecordKind)

  /**
   * What the JSON decoder makes of a body's text. This is an input to the
   * model: the decoder itself is not modelled. `RecordDoc` stands for any
   * decoded entity by its type and an identifying token.
   */
  datatype JsonDoc =
    | Malformed
    | JsonNull
    | ErrorDoc(response: ResponseCode)
    | StatusDoc(statuses: Option<seq<SensorStatus>>)
    | RecordDoc(kind: RecordKind, token: nat)

  /** What the DOM walk over `controller.xml` makes of a body: a list of widget
      command descriptions (by token), or an exception somewhere in the walk. */
  datatype XmlWalk = WalkFails | WidgetCommandList(token: nat)

  /** A response body: absent (a null byte array), or bytes with their text and
      what the two parsers make of them. */
  datatype Body =
    | NoBody
    | Bytes(text: string, json: JsonDoc, xml: XmlWalk)

  /** The literal empty string handed to the error decoder after a failed XML walk;
      it does not decode. */
  const EmptyText: Body := Bytes("", Malformed, WalkFails)

  /** The result of a decoding call: a value, `null`, or a thrown exception. */
  datatype Decoded = Value(doc: JsonDoc) | NullValue | Throws

  /** `doc` is a document of type `target`. */
  predicate DecodesAs(doc: JsonDoc, target: Target)
  {
    match doc
    case ErrorDoc(_) => target == ControllerErrorType
    case StatusDoc(_) => target == SensorStatusListType
    case RecordDoc(kind, _) => target == RecordType(kind)
    case _ => false
  }

  /** The decoder: a missing body or unparseable text throws, a JSON `null` decodes to
      `null`, and a document only decodes into its own type. */
  function Decode(body: Body, target: Target): (d: Decoded)
    ensures d.Value? <==> body.Bytes? && DecodesAs(body.json, target)
    ensures d.Value? ==> d.doc == body.json
    ensures d.NullValue? <==> body.Bytes? && body.json.JsonNull?
  {
    match body
    case NoBody => Throws
    case Bytes(_, json, _) =>
      if json.JsonNull? then NullValue
      else if DecodesAs(json, target) then Value(json)
      else Throws
  }

  /** A `ControllerInfo` found by discovery: built from a plain URL reply, or decoded
      from a JSON reply. */
  datatype ControllerInfo = FromUrl(url: string) | DecodedInfo(token: nat)

  /** A response header, with what the date parser makes of its value. */
  datatype Header = Header(name: string, value: string, asDate: Option<int>)

  /** The content type and modification time gathered from response headers. */
  datatype ResourceDetails = ResourceDetails(modified: Option<int>, contentType: Option<string>)

  /** The value a successful completion hands to `onSuccess`. */
  datatype Payload =
    | NullResult
    | ConnectionStatus(status: ResponseCode)
    | Record(kind: RecordKind, token: nat)
    | WidgetCommands(token: nat)
    | ControlResponse(senderId: int, code: ResponseCode)
    | CommandResult(code: ResponseCode)
    | ResourceData(name: Option<string>, data: Body, code: ResponseCode)
    | SensorValues(values: map<int, string>)
    | LoggedOut
    | Details(details: ResourceDetails)
    | ResourceInfo(locator: nat, resource: string, details: ResourceDetails, content: Body)

  /** One invocation of a caller's callback. */
  datatype Delivery =
    | Success(payload: Payload)
    | Failure(code: ResponseCode)
    | Found(info: Option<ControllerInfo>)

  /** Everything one response produces: the callback invocations in order, and
      whether an unchecked exception then escapes the handler. */
  datatype Outcome = Outcome(deliveries: seq<Delivery>, escapes: bool)

  /** A caller's callback object, by identity. */
  type CallbackId = nat

  /** A sensor link of a widget: the sensor it follows. */
  datatype SensorLink = SensorLink(ref: int)

  /**
   * A widget of a panel, reduced to what the session logic reads: whether it is
   * a sensory widget and its sensor links, whether it is a command widget, and
   * whether it consumes resources (and if so whether its resource list is null).
   */
  datatype Widget = Widget(
    id: nat,
    sensory: bool,
    links: seq<SensorLink>,
    command: bool,
    consumer: bool,
    hasResources: bool)

  /** A panel: its identity and its widgets (null for a panel without a widget list). */
  datatype Panel = Panel(id: nat, widgets: Option<seq<Widget>>)

  /** A value pushed to one sensor link of one widget. */
  datatype Notification = Notification(widget: nat, ref: int, value: string)
}

=== FILE: registration_handles.dfy ===
/**
 * Registration handles: the record kept for a registered panel or device. The
 * common part holds the caller's registration callback, fixed at construction,
 * and a `registered` flag. A panel handle computes the de-duplicated sensor ids
 * of the panel's sensory widgets on first use and caches them, and fans a delta
 * out to those widgets; a device handle lists one id per device sensor,
 * duplicates kept, and writes delta values into the matching sensors.
 */
module RegistrationHandles {
  import opened Wrappers
  import opened Protocol
  import opened SensorValues

  class RegistrationHandle {
    const callback: CallbackId
    var registered: bool

    constructor(callback: CallbackId)
      ensures this.callback == callback && !registered
    {
      this.callback := callback;
      registered := false;
    }

    method GetCallback() returns (cb: CallbackId)
      ensures cb == callback
    {
      cb := callback;
    }

    method IsRegistered() returns (r: bool)
      ensures r == registered
    {
      r := registered;
    }

    /** Sets the flag; the callback is a constant, so it cannot change. */
    method SetIsRegistered(b: bool)
      modifies this
      ensures registered == b
    {
      registered := b;
    }
  }

  /** The widgets of a panel, a null list read as empty. */
  function WidgetsOf(p: Panel): seq<Widget>
  {
    p.widgets.GetOr([])
  }

  class PanelRegistrationHandle {
    const handle: RegistrationHandle
    const panel: Panel
    /** The cached id list and monitored widgets; null until first computed. */
    var sensorIds: Option<seq<int>>
    var monitoredWidgets: Option<seq<Widget>>
    var notified: seq<Notification>

    /** Both caches are filled together, and once filled they hold the panel's
        sensory widgets and their de-duplicated link refs. */
    predicate Valid()
      reads this
    {
      (sensorIds.Some? <==> monitoredWidgets.Some?)
      && (sensorIds.Some? ==> sensorIds.value == Dedup(SensorRefs(WidgetsOf(panel))))
      && (monitoredWidgets.Some? ==> monitoredWidgets.value == SensoryWidgets(WidgetsOf(panel)))
    }

    constructor(panel: Panel, callback: CallbackId)
      ensures Valid() && fresh(handle)
      ensures this.panel == panel && handle.callback == callback && !handle.registered
      ensures sensorIds.None? && monitoredWidgets.None? && notified == []
    {
      this.panel := panel;
      handle := new RegistrationHandle(callback);
      sensorIds := None;
      monitoredWidgets := None;
      notified := [];
    }

    /** `getSensorIds`: computed on the first call, then returned from the cache. */
    method GetSensorIds() returns (ids: seq<int>)
      requires Valid()
      modifies this
      ensures Valid()
      ensures sensorIds == Some(ids) && monitoredWidgets.Some?
      ensures ids == Dedup(SensorRefs(WidgetsOf(panel)))
      ensures old(sensorIds).Some? ==> ids == old(sensorIds).value && monitoredWidgets == old(monitoredWidgets)
      ensures notified == old(notified)
    {
      if sensorIds.None? {
        var monitored, collected := CollectSensorIds(WidgetsOf(panel));
        monitoredWidgets := Some(monitored);
        sensorIds := Some(collected);
      }
      ids := sensorIds.value;
    }

    /** `onSensorsChanged`: every entry of the delta, visited in `order`, reaches
        every monitored link whose ref equals its key. The monitored widgets must
        have been computed by `getSensorIds`. */
    method OnSensorsChanged(delta: map<int, string>, order: seq<int>)
      requires monitoredWidgets.Some? && IsIterationOf(order, delta)
      modifies this
      ensures sensorIds == old(sensorIds) && monitoredWidgets == old(monitoredWidgets)
      ensures notified == old(notified) + FanOut(delta, order, monitoredWidgets.value)
    {
      var pushed := PushDelta(delta, order, monitoredWidgets.value);
      notified := notified + pushed;
    }
  }

  /** A device sensor: its id and its current value. */
  datatype Sensor = Sensor(id: int, value: string)

  function SensorIdList(ss: seq<Sensor>): (ids: seq<int>)
    ensures |ids| == |ss|
    ensures forall j :: 0 <= j < |ss| ==> ids[j] == ss[j].id
  {
    if |ss| == 0 then [] else SensorIdList(ss[..|ss| - 1]) + [ss[|ss| - 1].id]
  }

  /** The sensor's value after a delta: the delta's value for its id, if any. */
  function ValueAfter(delta: map<int, string>, s: Sensor): string
  {
    if s.id in delta then delta[s.id] else s.value
  }

  class DeviceRegistrationHandle {
    const handle: RegistrationHandle
    /** The device's sensors (null for a device without a sensor list). */
    var sensors: Option<seq<Sensor>>
    var sensorIds: Option<seq<int>>

    /** Once computed, the cached ids are the ids of the device's sensors. */
    predicate Valid()
      reads this
    {
      sensorIds.Some? ==> sensorIds.value == SensorIdList(sensors.GetOr([]))
    }

    constructor(sensors: Option<seq<Sensor>>, callback: CallbackId)
      ensures Valid() && fresh(handle)
      ensures this.sensors == sensors && handle.callback == callback && !handle.registered
      ensures sensorIds.None?
    {
      this.sensors := sensors;
      handle := new RegistrationHandle(callback);
      sensorIds := None;
    }

    /** `getSensorIds`: one id per sensor in device order, duplicates kept; computed
        on the first call, then returned from the cache. */
    method GetSensorIds() returns (ids: seq<int>)
      requires Valid()
      modifies this
      ensures Valid()
      ensures sensorIds == Some(ids) && sensors == old(sensors)
      ensures ids == SensorIdList(sensors.GetOr([]))
      ensures old(sensorIds).Some? ==> ids == old(sensorIds).value
    {
      if sensorIds.None? {
        var collected: seq<int> := [];
        if sensors.Some? {
          var ss := sensors.value;
          for j := 0 to |ss|
            invariant collected == SensorIdList(ss[..j])
          {
            assert ss[..j + 1][..j] == ss[..j];
            collected := collected + [ss[j].id];
          }
          assert ss[..|ss|] == ss;
        }
        sensorIds := Some(collected);
      }
      ids := sensorIds.value;
    }

    /**
     * `onSensorsChanged`: for every entry, in iteration order, every sensor whose
     * id equals the key takes the entry's value. Whatever the order, each sensor
     * ends with the delta's value for its id, or keeps its value if the delta does
     * not mention it; a device without sensors is left alone.
     */
    method OnSensorsChanged(delta: map<int, string>, order: seq<int>)
      requires Valid() && IsIterationOf(order, delta)
      modifies this
      ensures Valid()
      ensures old(sensors).None? ==> sensors.None?
      ensures old(sensors).Some? ==> (sensors.Some? && |sensors.value| == |old(sensors).value|
        && forall j :: 0 <= j < |sensors.value| ==>
             sensors.value[j] == Sensor(old(sensors).value[j].id, ValueAfter(delta, old(sensors).value[j])))
      ensures sensorIds == old(sensorIds)
    {
      if sensors.None? {
        return;
      }
      ghost var ss := sensors.value;
      var cur := sensors.value;
      for e := 0 to |order|
        invariant sensors == old(sensors) && sensorIds == old(sensorIds)
        invariant |cur| == |ss|
        invariant forall j :: 0 <= j < |ss| ==> cur[j].id == ss[j].id
        invariant forall j :: 0 <= j < |ss| ==>
          cur[j].value == (if ss[j].id in order[..e] then delta[ss[j].id] else ss[j].value)
      {
        var key := order[e];
        assert order[..e + 1] == order[..e] + [key];
        cur := ApplyEntry(cur, key, delta[key]);
      }
      assert order[..|order|] == order;
      sensors := Some(cur);
      SensorIdsUnchanged(ss, cur);
    }
  }

  /** One entry of a delta written into every sensor with its id, in sensor order. */
  method ApplyEntry(cur: seq<Sensor>, key: int, value: string) returns (next: seq<Sensor>)
    ensures |next| == |cur|
    ensures forall j :: 0 <= j < |cur| ==>
      next[j] == (if cur[j].id == key then Sensor(key, value) else cur[j])
  {
    next := cur;
    for j := 0 to |cur|
      invariant |next| == |cur|
      invariant forall k :: 0 <= k < j ==> next[k] == (if cur[k].id == key then Sensor(key, value) else cur[k])
      invariant forall k :: j <= k < |cur| ==> next[k] == cur[k]
    {
      if next[j].id == key {
        next := next[j := Sensor(next[j].id, value)];
      }
    }
  }

  /** Rewriting values keeps the id list. */
  lemma SensorIdsUnchanged(ss: seq<Sensor>, ts: seq<Sensor>)
    requires |ss| == |ts| && forall j :: 0 <= j < |ss| ==> ss[j].id == ts[j].id
    ensures SensorIdList(ss) == SensorIdList(ts)
  {
  }
}

=== FILE: request_paths.dfy ===
/**
 * Request construction shared by both connector revisions: the request path
 * (controller URL, command fragment, parameters with "/" separators), the
 * named-command URL and its JSON body.
 */
module RequestPaths {
  import opened Wrappers
  import opened Text

  /** The URL with a trailing "/" added unless it already has one. */
  function WithSlash(url: string): (r: string)
    ensures EndsWithSlash(r)
    ensures EndsWithSlash(url) ==> r == url
    ensures !EndsWithSlash(url) ==> |r| == |url| + 1 && r[..|url|] == url
  {
    if EndsWithSlash(url) then url else url + "/"
  }

  /**
   * What appending `params` to `acc` yields: each parameter is appended, and a
   * "/" is added after it (unless already there) when another parameter follows.
   */
  function AppendParams(acc: string, params: seq<string>): string
    decreases |params|
  {
    if |params| == 0 then acc
    else if |params| == 1 then acc + params[0]
    else AppendParams(WithSlash(acc + params[0]), params[1..])
  }

  /** The request path for a controller URL, a command fragment and parameters. */
  function RequestPath(base: string, fragment: string, params: seq<string>): string
  {
    AppendParams(WithSlash(base) + fragment, params)
  }

  /** Builds the request path step by step, as the connectors' request builders do. */
  method BuildRequestPath(base: string, fragment: string, params: seq<string>) returns (url: string)
    ensures url == RequestPath(base, fragment, params)
  {
    url := base;
    var paramCounter := 0;
    url := if EndsWithSlash(url) then url else url + "/";
    url := url + fragment;
    for i := 0 to |params|
      invariant paramCounter == i
      invariant AppendParams(url, params[i..]) == RequestPath(base, fragment, params)
    {
      assert params[i..][1..] == params[i + 1..];
      url := url + params[i];
      paramCounter := paramCounter + 1;
      if paramCounter < |params| {
        url := if EndsWithSlash(url) then url else url + "/";
      }
    }
    assert params[|params|..] == [];
  }

  /** A parameter that needs a separator after it: non-empty and not ending in "/". */
  predicate NeedsSeparator(p: string)
  {
    |p| > 0 && !EndsWithSlash(p)
  }

  /** Every parameter but the last needs a separator. */
  predicate AllButLastNeedSeparator(params: seq<string>)
  {
    forall i :: 0 <= i < |params| - 1 ==> NeedsSeparator(params[i])
  }

  /** Every parameter but the last already ends in "/". */
  predicate AllButLastEndInSlash(params: seq<string>)
  {
    forall i :: 0 <= i < |params| - 1 ==> EndsWithSlash(params[i])
  }

  function Concat(parts: seq<string>): string
  {
    if |parts| == 0 then "" else parts[0] + Concat(parts[1..])
  }

  lemma {:induction false} AppendJoinsWithSlash(acc: string, params: seq<string>)
    requires AllButLastNeedSeparator(params)
    ensures AppendParams(acc, params) == acc + JoinWith(params, "/")
    decreases |params|
  {
    if |params| == 0 {
    } else if |params| == 1 {
    } else {
      assert !EndsWithSlash(acc + params[0]) by {
        assert (acc + params[0])[|acc + params[0]| - 1] == params[0][|params[0]| - 1];
      }
      assert AllButLastNeedSeparator(params[1..]) by {
        forall i | 0 <= i < |params[1..]| - 1 ensures NeedsSeparator(params[1..][i]) {
          assert params[1..][i] == params[i + 1];
        }
      }
      AppendJoinsWithSlash(acc + params[0] + "/", params[1..]);
      assert acc + params[0] + "/" + JoinWith(params[1..], "/") == acc + (params[0] + "/" + JoinWith(params[1..], "/"));
    }
  }

  lemma {:induction false} AppendConcatenates(acc: string, params: seq<string>)
    requires AllButLastEndInSlash(params)
    ensures AppendParams(acc, params) == acc + Concat(params)
    decreases |params|
  {
    if |params| == 0 {
    } else if |params| == 1 {
      assert Concat(params[1..]) == "";
    } else {
      assert EndsWithSlash(acc + params[0]) by {
        assert (acc + params[0])[|acc + params[0]| - 1] == params[0][|params[0]| - 1];
      }
      assert AllButLastEndInSlash(params[1..]) by {
        forall i | 0 <= i < |params[1..]| - 1 ensures EndsWithSlash(params[1..][i]) {
          assert params[1..][i] == params[i + 1];
        }
      }
      AppendConcatenates(acc + params[0], params[1..]);
      assert acc + params[0] + Concat(params[1..]) == acc + (params[0] + Concat(params[1..]));
    }
  }

  lemma {:induction false} AppendKeepsPrefix(acc: string, params: seq<string>)
    ensures |acc| <= |AppendParams(acc, params)|
    ensures AppendParams(acc, params)[..|acc|] == acc
    ensures |params| > 0 ==> IsSuffix(params[|params| - 1], AppendParams(acc, params))
    decreases |params|
  {
    if |params| == 1 {
      assert (acc + params[0])[|acc + params[0]| - |params[0]|..] == params[0];
    } else if |params| > 1 {
      var next := WithSlash(acc + params[0]);
      assert next[..|acc|] == acc;
      AppendKeepsPrefix(next, params[1..]);
      assert params[1..][|params[1..]| - 1] == params[|params| - 1];
    }
  }

  /**
   * The request path is the controller URL with exactly one trailing "/" added
   * when missing, then the command fragment, then the parameters: the path
   * starts with that prefix, ends with the last parameter (so no "/" is added
   * after it), joins parameters with "/" when none carries its own, and adds no
   * separator after a parameter that already ends in "/".
   */
  lemma {:induction false} RequestPathShape(base: string, fragment: string, params: seq<string>)
    ensures var prefix := WithSlash(base) + fragment;
      var path := RequestPath(base, fragment, params);
      |prefix| <= |path| && path[..|prefix|] == prefix
      && (|params| == 0 ==> path == prefix)
      && (|params| > 0 ==> IsSuffix(params[|params| - 1], path))
      && (AllButLastNeedSeparator(params) ==> path == prefix + JoinWith(params, "/"))
      && (AllButLastEndInSlash(params) ==> path == prefix + Concat(params))
  {
    var prefix := WithSlash(base) + fragment;
    AppendKeepsPrefix(prefix, params);
    if AllButLastNeedSeparator(params) {
      AppendJoinsWithSlash(prefix, params);
    }
    if AllButLastEndInSlash(params) {
      AppendConcatenates(prefix, params);
    }
  }

  /** The URL of a named device command: device name and command name after the
      devices fragment, as a `commands?name=` query. */
  function NamedCommandPath(base: string, device: string, command: string): (r: string)
    ensures r == RequestPath(base, "rest/devices/", [device + "/", "commands?name=" + command])
  {
    var acc := WithSlash(base) + "rest/devices/";
    var params := [device + "/", "commands?name=" + command];
    assert EndsWithSlash(acc + params[0]);
    assert params[1..] == ["commands?name=" + command];
    assert WithSlash(acc + params[0]) == acc + params[0];
    assert AppendParams(acc + params[0], params[1..]) == acc + params[0] + params[1];
    assert AppendParams(acc, params) == acc + params[0] + params[1];
    assert acc + device + "/" + "commands?name=" + command == acc + params[0] + params[1];
    WithSlash(base) + "rest/devices/" + device + "/" + "commands?name=" + command
  }

  const ParameterOpen := "{\"parameter\": \""
  const ParameterClose := "\"}"

  /** The JSON content of a named command: absent for a null or empty parameter,
      otherwise a one-field object carrying the parameter verbatim. */
  function NamedCommandContent(parameter: Option<string>): (content: Option<string>)
  {
    if parameter.Some? && |parameter.value| > 0
    then Some(ParameterOpen + parameter.value + ParameterClose)
    else None
  }

  /** Recovers the parameter from a content string built by `NamedCommandContent`. */
  function ParameterOf(content: string): Option<string>
  {
    var n, m := |ParameterOpen|, |ParameterClose|;
    if |content| >= n + m && content[..n] == ParameterOpen && content[|content| - m..] == ParameterClose
    then Some(content[n..|content| - m])
    else None
  }

  /** The content is present exactly for a non-empty parameter, and the parameter can
      be read back out of it unchanged. */
  lemma NamedCommandContentRoundTrip(parameter: Option<string>)
    ensures NamedCommandContent(parameter).Some? <==> parameter.Some? && parameter.value != ""
    ensures NamedCommandContent(parameter).Some? ==>
      ParameterOf(NamedCommandContent(parameter).value) == parameter
  {
    if parameter.Some? && |parameter.value| > 0 {
      var c := ParameterOpen + parameter.value + ParameterClose;
      var n, m := |ParameterOpen|, |ParameterClose|;
      assert c[..n] == ParameterOpen;
      assert c[|c| - m..] == ParameterClose;
      assert c[n..|c| - m] == parameter.value;
    }
  }
}

=== FILE: resource_headers.dfy ===
/**
 * The header scan both connector revisions run on a resource response: the
 * last `Content-Type` header gives the content type and the last parseable
 * `Last-Modified` header gives the modification time, with header names
 * compared case-insensitively as section 5.1 of RFC 9110 requires.
 */
module ResourceHeaders {
  import opened Wrappers
  import opened Text
  import opened Protocol

  predicate IsContentType(h: Header)
  {
    EqualsIgnoreCase(h.name, "content-type")
  }

  predicate IsLastModified(h: Header)
  {
    EqualsIgnoreCase(h.name, "last-modified")
  }

  /** The details gathered from `headers` taken in order. */
  function ScanHeaders(headers: seq<Header>): ResourceDetails
    decreases |headers|
  {
    if |headers| == 0 then ResourceDetails(None, None)
    else
      var d := ScanHeaders(headers[..|headers| - 1]);
      var h := headers[|headers| - 1];
      if IsContentType(h) then d.(contentType := Some(h.value))
      else if IsLastModified(h) then (if h.asDate.Some? then d.(modified := h.asDate) else d)
      else d
  }

  /** Walks the headers, keeping the latest content type and the latest parsed
      modification time. */
  method ScanResourceHeaders(headers: seq<Header>) returns (details: ResourceDetails)
    ensures details == ScanHeaders(headers)
  {
    var contentType: Option<string> := None;
    var modifiedTime: Option<int> := None;
    for i := 0 to |headers|
      invariant ResourceDetails(modifiedTime, contentType) == ScanHeaders(headers[..i])
    {
      assert headers[..i + 1][..i] == headers[..i];
      var header := headers[i];
      if EqualsIgnoreCase(header.name, "content-type") {
        contentType := Some(header.value);
      } else if EqualsIgnoreCase(header.name, "last-modified") {
        if header.asDate.Some? {
          modifiedTime := header.asDate;
        }
      }
    }
    assert headers[..|headers|] == headers;
    details := ResourceDetails(modifiedTime, contentType);
  }

  /** Position `j` holds the last content-type header. */
  predicate LastContentType(headers: seq<Header>, j: int)
  {
    0 <= j < |headers| && IsContentType(headers[j])
    && forall k :: j < k < |headers| ==> !IsContentType(headers[k])
  }

  /** Position `j` holds the last last-modified header whose value parses. */
  predicate LastParsedDate(headers: seq<Header>, j: int)
  {
    0 <= j < |headers| && IsLastModified(headers[j]) && headers[j].asDate.Some?
    && forall k :: j < k < |headers| ==> !(IsLastModified(headers[k]) && headers[k].asDate.Some?)
  }

  /** The content type is the value of the last content-type header, and absent when
      there is none; the modification time is the parse of the last parseable
      last-modified header, and absent when there is none. */
  lemma {:induction false} ScanHeadersPicksLast(headers: seq<Header>)
    ensures ScanHeaders(headers).contentType.None? <==> forall k :: 0 <= k < |headers| ==> !IsContentType(headers[k])
    ensures forall j :: LastContentType(headers, j) ==> ScanHeaders(headers).contentType == Some(headers[j].value)
    ensures ScanHeaders(headers).modified.None? <==>
      forall k :: 0 <= k < |headers| ==> !(IsLastModified(headers[k]) && headers[k].asDate.Some?)
    ensures forall j :: LastParsedDate(headers, j) ==> ScanHeaders(headers).modified == headers[j].asDate
    decreases |headers|
  {
    if |headers| > 0 {
      var n := |headers| - 1;
      var prefix := headers[..n];
      ScanHeadersPicksLast(prefix);
      assert forall k :: 0 <= k < n ==> prefix[k] == headers[k];
      assert !(IsContentType(headers[n]) && IsLastModified(headers[n]));
      forall j | LastContentType(headers, j) && j < n ensures LastContentType(prefix, j) {
      }
      forall j | LastParsedDate(headers, j) && j < n ensures LastParsedDate(prefix, j) {
      }
    }
  }

  /** Headers whose names differ only in letter case give the same details. */
  predicate SameUpToCase(a: seq<Header>, b: seq<Header>)
  {
    |a| == |b|
    && forall i :: 0 <= i < |a| ==>
      EqualsIgnoreCase(a[i].name, b[i].name) && a[i].value == b[i].value && a[i].asDate == b[i].asDate
  }

  lemma {:induction false} EqualsIgnoreCaseTransitive(a: string, b: string, c: string)
    requires EqualsIgnoreCase(a, b)
    ensures EqualsIgnoreCase(a, c) <==> EqualsIgnoreCase(b, c)
  {
  }

  /** The scan does not depend on the letter case of header names. */
  lemma {:induction false} ScanHeadersIgnoresCase(a: seq<Header>, b: seq<Header>)
    requires SameUpToCase(a, b)
    ensures ScanHeaders(a) == ScanHeaders(b)
    decreases |a|
  {
    if |a| > 0 {
      var n := |a| - 1;
      assert SameUpToCase(a[..n], b[..n]);
      ScanHeadersIgnoresCase(a[..n], b[..n]);
      EqualsIgnoreCaseTransitive(a[n].name, b[n].name, "content-type");
      EqualsIgnoreCaseTransitive(a[n].name, b[n].name, "last-modified");
    }
  }
}

=== FILE: response_classifier.dfy ===
/**
 * The newer connector's response classification: for each command, which
 * status codes and decoded bodies reach `onSuccess`, which go to the error
 * decoder, and which end in an exception escaping the handler.
 */
module ResponseClassifier {
  import opened Wrappers
  import opened Protocol
  import opened SensorValues
  import opened ResourceHeaders

  /** The object a request hands to its completion besides the callback. */
  datatype RequestData =
    | NoData
    | ControlCommandData(senderId: int)
    | ResourceNameData(name: string)
    | DiscoveryPortData(port: int)

  function Succeed(p: Payload): Outcome
  {
    Outcome([Success(p)], false)
  }

  /** `processError`: try the body as a controller error document. A decoded error
      reports its code, a JSON `null` reports nothing, and a body that does not
      decode reports UNKNOWN_ERROR. */
  function ProcessError(responseStr: Body): (o: Outcome)
    ensures !o.escapes && |o.deliveries| <= 1
    ensures forall d :: d in o.deliveries ==> d.Failure?
  {
    match Decode(responseStr, ControllerErrorType)
    case Value(doc) => Outcome([Failure(doc.response)], false)
    case NullValue => Outcome([], false)
    case Throws => Outcome([Failure(UnknownError)], false)
  }

  /** The error decoder reports the document's own code, stays silent exactly for a
      JSON `null`, and reports UNKNOWN_ERROR for everything else. */
  lemma ProcessErrorCases(responseStr: Body)
    ensures ProcessError(responseStr).deliveries == [] <==> responseStr.Bytes? && responseStr.json.JsonNull?
    ensures responseStr.Bytes? && responseStr.json.ErrorDoc? ==>
      ProcessError(responseStr).deliveries == [Failure(responseStr.json.response)]
    ensures !(responseStr.Bytes? && (responseStr.json.ErrorDoc? || responseStr.json.JsonNull?)) ==>
      ProcessError(responseStr).deliveries == [Failure(UnknownError)]
  {
  }

  /** `handleResponse` for one completed request. The status code, header entries (in
      the header map's iteration order) and body are inputs. */
  function HandleResponse(command: RestCommand, data: RequestData, responseCode: int,
                          headers: seq<Header>, responseData: Body): Outcome
  {
    // The body text is not computed for resource data and for the XML document.
    var responseStr := if command == GetResourceData || command == GetXml then NoBody else responseData;
    match command
    case GetXml =>
      if responseCode != 200 then ProcessError(responseStr)
      else if responseData.NoBody? || responseData.xml.WalkFails? then ProcessError(EmptyText)
      else Succeed(WidgetCommands(responseData.xml.token))
    case Connect =>
      if responseCode != 200 then ProcessError(responseStr)
      else Succeed(ConnectionStatus(Ok))
    case GetPanelList =>
      if responseCode != 200 then ProcessError(responseStr)
      else (match Decode(responseStr, RecordType(PanelInfoListKind))
        case Throws => ProcessError(responseStr)
        // A null list is dereferenced outside the guarded block.
        case NullValue => Outcome([], true)
        case Value(doc) => Succeed(Record(PanelInfoListKind, doc.token)))
    case GetPanelLayout => DecodeRecord(responseCode, responseStr, PanelKind)
    case GetDeviceList => DecodeRecord(responseCode, responseStr, DeviceInfoArrayKind)
    case GetDevice => DecodeRecord(responseCode, responseStr, DeviceKind)
    case SendControlCommand =>
      if responseCode != 200 then ProcessError(responseStr)
      else if data.ControlCommandData? then Succeed(ControlResponse(data.senderId, Ok))
      // Reported, and then the missing command is dereferenced anyway.
      else Outcome([Failure(UnknownError)], true)
    case SendNamedCommand =>
      if responseCode != 204 then ProcessError(responseStr)
      else Succeed(CommandResult(NoContent))
    case GetResourceData =>
      if responseCode != 200 then
        // The error path decodes the raw bytes, which fails on a missing body.
        (if responseData.NoBody? then Outcome([], true) else ProcessError(responseData))
      else (match data
        case ResourceNameData(name) => Succeed(ResourceData(Some(name), responseData, Ok))
        case NoData => Outcome([Failure(UnknownError), Success(ResourceData(None, responseData, Ok))], false)
        case _ => Outcome([Failure(UnknownError)], true))
    case DoSensorPolling =>
      if responseCode != 200 && responseCode != 504 then ProcessError(responseStr)
      else if responseCode == 504 then Succeed(NullResult)
      else (match Decode(responseStr, SensorStatusListType)
        case Value(doc) => Succeed(SensorValuesOf(doc.statuses))
        case _ => TimeOutFallback(responseStr))
    case GetSensorStatus =>
      if responseCode != 200 then ProcessError(responseStr)
      else (match Decode(responseStr, SensorStatusListType)
        case Throws => ProcessError(responseStr)
        // A null list is dereferenced outside the guarded block.
        case NullValue => Outcome([], true)
        case Value(doc) => Succeed(SensorValuesOf(doc.statuses)))
    case Logout =>
      if responseCode == 200 || responseCode == 401 then Succeed(LoggedOut)
      else ProcessError(responseStr)
    case GetResourceDetails =>
      if responseCode != 200 then ProcessError(responseStr)
      else Succeed(Details(ScanHeaders(headers)))
    case Discovery =>
      if responseStr.NoBody? then ProcessError(responseStr)
      else if |responseStr.text| > 0 && responseStr.text[0] == '{' then
        (match Decode(responseStr, RecordType(ControllerInfoKind))
          case Throws => ProcessError(responseStr)
          case NullValue => Outcome([Found(None)], false)
          case Value(doc) => Outcome([Found(Some(DecodedInfo(doc.token)))], false))
      else Outcome([Found(Some(FromUrl(responseStr.text)))], false)
    case _ => ProcessError(responseStr)
  }

  /** A 200 poll body that is not a status list may be a controller error; a TIME_OUT
      error is an empty delta, anything else goes to the error decoder. */
  function TimeOutFallback(responseStr: Body): Outcome
  {
    match Decode(responseStr, ControllerErrorType)
    case Value(err) => if err.response == TimeOut then Succeed(NullResult) else ProcessError(responseStr)
    case _ => ProcessError(responseStr)
  }

  /** The shared shape of the panel-layout, device-list and device branches: a null
      decode is passed on as a null result. */
  function DecodeRecord(responseCode: int, responseStr: Body, kind: RecordKind): Outcome
  {
    if responseCode != 200 then ProcessError(responseStr)
    else match Decode(responseStr, RecordType(kind))
      case Throws => ProcessError(responseStr)
      case NullValue => Succeed(NullResult)
      case Value(doc) => Succeed(Record(kind, doc.token))
  }

  /** The status codes with which each command can reach `onSuccess`, as section 15 of
      RFC 9110 names them: 200 OK, 204 No Content, 401 Unauthorized (a logout of an
      unauthenticated session), 504 Gateway Timeout (a long poll that saw no change). */
  function SuccessStatuses(command: RestCommand): set<int>
  {
    match command
    case SendNamedCommand => {204}
    case DoSensorPolling => {200, 504}
    case Logout => {200, 401}
    case GetXml => {200}
    case Connect => {200}
    case GetPanelList => {200}
    case GetPanelLayout => {200}
    case GetDeviceList => {200}
    case GetDevice => {200}
    case SendControlCommand => {200}
    case GetResourceData => {200}
    case GetSensorStatus => {200}
    case GetResourceDetails => {200}
    case _ => {}
  }

  /** No response reaches `onSuccess` with a status code its command does not accept. */
  lemma SuccessOnlyOnAcceptedStatus(command: RestCommand, data: RequestData, responseCode: int,
                                    headers: seq<Header>, responseData: Body, i: int)
    requires 0 <= i < |HandleResponse(command, data, responseCode, headers, responseData).deliveries|
    requires HandleResponse(command, data, responseCode, headers, responseData).deliveries[i].Success?
    ensures responseCode in SuccessStatuses(command)
  {
    var responseStr := if command == GetResourceData || command == GetXml then NoBody else responseData;
    var o := HandleResponse(command, data, responseCode, headers, responseData);
    assert o.deliveries[i] in o.deliveries;
  }

  /** Polling: the caller gets an empty (null) delta exactly for a 504, for a 200 whose
      body is a TIME_OUT controller error, or for a 200 status list without statuses. */
  lemma PollingEmptyDelta(responseCode: int, headers: seq<Header>, responseData: Body)
    ensures HandleResponse(DoSensorPolling, NoData, responseCode, headers, responseData).deliveries == [Success(NullResult)]
      <==> (responseCode == 504
            || (responseCode == 200 && responseData.Bytes?
                && (responseData.json == ErrorDoc(TimeOut) || responseData.json == StatusDoc(None))))
  {
  }

  /** Polling: a status other than 200 or 504 goes to the error decoder; a 200 status
      list yields its value map; any other 200 body that is not a TIME_OUT error goes to
      the error decoder too. */
  lemma PollingClassification(responseCode: int, headers: seq<Header>, responseData: Body)
    ensures var o := HandleResponse(DoSensorPolling, NoData, responseCode, headers, responseData);
      && (responseCode != 200 && responseCode != 504 ==> o == ProcessError(responseData))
      && (responseCode == 200 && responseData.Bytes? && responseData.json.StatusDoc? && responseData.json.statuses.Some? ==>
            o == Succeed(SensorValues(ValueMapOf(responseData.json.statuses.value))))
      && (responseCode == 200 && !(responseData.Bytes? && (responseData.json.StatusDoc? || responseData.json == ErrorDoc(TimeOut))) ==>
            o == ProcessError(responseData))
  {
  }

  /** A 200 poll body that is JSON `null` produces no callback at all: neither the status
      decode nor the error decode yields a value, and the error decoder is silent. */
  lemma PollingNullBodyIsSilent(headers: seq<Header>, text: string, xml: XmlWalk)
    ensures HandleResponse(DoSensorPolling, NoData, 200, headers, Bytes(text, JsonNull, xml)) == Outcome([], false)
  {
  }

  /** Logout succeeds with `true` on 200 or 401 and otherwise reports through the error
      decoder. */
  lemma LogoutClassification(data: RequestData, responseCode: int, headers: seq<Header>, responseData: Body)
    ensures var o := HandleResponse(Logout, data, responseCode, headers, responseData);
      (responseCode == 200 || responseCode == 401) <==> o == Succeed(LoggedOut)
    ensures var o := HandleResponse(Logout, data, responseCode, headers, responseData);
      responseCode != 200 && responseCode != 401 ==> o == ProcessError(responseData)
  {
    if responseCode != 200 && responseCode != 401 {
      assert ProcessError(responseData) != Succeed(LoggedOut) by {
        assert Success(LoggedOut) in Succeed(LoggedOut).deliveries;
      }
    }
  }

  /** A named command succeeds only on 204, with a NO_CONTENT response. */
  lemma NamedCommandClassification(data: RequestData, responseCode: int, headers: seq<Header>, responseData: Body)
    ensures var o := HandleResponse(SendNamedCommand, data, responseCode, headers, responseData);
      responseCode == 204 <==> o == Succeed(CommandResult(NoContent))
  {
    if responseCode != 204 {
      assert ProcessError(responseData) != Succeed(CommandResult(NoContent)) by {
        assert Success(CommandResult(NoContent)) in Succeed(CommandResult(NoContent)).deliveries;
      }
    }
  }

  /** A control command succeeds only on 200, echoing the sender id of the command it
      was sent for. */
  lemma ControlCommandEchoesSender(senderId: int, responseCode: int, headers: seq<Header>, responseData: Body)
    ensures var o := HandleResponse(SendControlCommand, ControlCommandData(senderId), responseCode, headers, responseData);
      responseCode == 200 <==> o == Succeed(ControlResponse(senderId, Ok))
  {
    if responseCode != 200 {
      assert ProcessError(responseData) != Succeed(ControlResponse(senderId, Ok)) by {
        assert Success(ControlResponse(senderId, Ok)) in Succeed(ControlResponse(senderId, Ok)).deliveries;
      }
    }
  }

  /** The XML request never passes its body to the error decoder, so every non-200
      answer is reported as UNKNOWN_ERROR whatever the controller sent. */
  lemma XmlErrorsAreUnknown(data: RequestData, responseCode: int, headers: seq<Header>, responseData: Body)
    requires responseCode != 200
    ensures HandleResponse(GetXml, data, responseCode, headers, responseData) == Outcome([Failure(UnknownError)], false)
  {
  }

  /** Resource details come from the response headers alone, matched without regard to
      letter case. */
  lemma ResourceDetailsFromHeaders(data: RequestData, a: seq<Header>, b: seq<Header>, responseData: Body)
    requires SameUpToCase(a, b)
    ensures HandleResponse(GetResourceDetails, data, 200, a, responseData) == Succeed(Details(ScanHeaders(b)))
  {
    ScanHeadersIgnoresCase(a, b);
  }
}

=== FILE: sensor_monitor.dfy ===
/**
 * The long-poll monitor of one registered panel. `start` asks the connector
 * for the next change of the panel's sensors; every completion, success or
 * failure, starts the next poll, so the monitor keeps exactly one poll
 * outstanding while it is enabled. A successful completion first pushes the
 * changed values to the monitored widgets. A disabled monitor ignores
 * completions altogether.
 *
 * The connector is not modelled here: the polls handed to it are the `polls`
 * list, and the values pushed to widgets are the `notified` list.
 */
module SensorMonitors {
  import opened Wrappers
  import opened Protocol
  import opened SensorValues

  /** The poll timeout, chosen above the controller's own 50 s so that the
      controller answers with its time-out status first. */
  const PollTimeout := 55000

  /** A poll handed to the connector: the sensor ids and the timeout. */
  datatype Poll = Poll(sensorIds: seq<int>, timeout: int)

  class SensorMonitor {
    /** The sensory widgets of the panel. */
    const widgets: seq<Widget>
    const sensorIds: seq<int>
    var enabled: bool
    var connectorSet: bool
    var polls: seq<Poll>
    var notified: seq<Notification>

    constructor(widgets: seq<Widget>, sensorIds: seq<int>)
      ensures this.widgets == widgets && this.sensorIds == sensorIds
      ensures enabled && !connectorSet && polls == [] && notified == []
    {
      this.widgets := widgets;
      this.sensorIds := sensorIds;
      enabled := true;
      connectorSet := false;
      polls := [];
      notified := [];
    }

    method SetConnector(present: bool)
      modifies this
      ensures connectorSet == present
      ensures enabled == old(enabled) && polls == old(polls) && notified == old(notified)
    {
      connectorSet := present;
    }

    /** `start`: a poll for the panel's ids with the 55 s timeout, issued only when a
        connector is set and the monitor is enabled. */
    method Start()
      modifies this
      ensures polls == old(polls) + (if connectorSet && enabled then [Poll(sensorIds, PollTimeout)] else [])
      ensures enabled == old(enabled) && connectorSet == old(connectorSet) && notified == old(notified)
    {
      if connectorSet && enabled {
        polls := polls + [Poll(sensorIds, PollTimeout)];
      }
    }

    method Enable()
      modifies this
      ensures enabled
      ensures connectorSet == old(connectorSet) && polls == old(polls) && notified == old(notified)
    {
      enabled := true;
    }

    method Disable()
      modifies this
      ensures !enabled
      ensures connectorSet == old(connectorSet) && polls == old(polls) && notified == old(notified)
    {
      enabled := false;
    }

    /** A failed poll: ignored while disabled, otherwise the next poll starts. */
    method OnFailure(code: ResponseCode)
      modifies this
      ensures !old(enabled) ==> polls == old(polls)
      ensures old(enabled) ==> polls == old(polls) + (if connectorSet then [Poll(sensorIds, PollTimeout)] else [])
      ensures enabled == old(enabled) && connectorSet == old(connectorSet) && notified == old(notified)
    {
      if !enabled {
        return;
      }
      Start();
    }

    /**
     * A completed poll with its delta (null for the empty delta), whose entries
     * are visited in the order `order`. While disabled nothing happens; otherwise
     * a delta is pushed to every monitored link with a matching ref, and then the
     * next poll starts.
     */
    method OnSuccess(delta: Option<map<int, string>>, order: seq<int>)
      requires delta.Some? ==> IsIterationOf(order, delta.value)
      modifies this
      ensures !old(enabled) ==> polls == old(polls) && notified == old(notified)
      ensures old(enabled) ==> (
        notified == old(notified) + Pushed(delta, order, widgets)
        && polls == old(polls) + (if connectorSet then [Poll(sensorIds, PollTimeout)] else []))
      ensures enabled == old(enabled) && connectorSet == old(connectorSet)
    {
      if !enabled {
        return;
      }
      if delta.Some? {
        var pushed := PushDelta(delta.value, order, widgets);
        notified := notified + pushed;
      }
      Start();
    }
  }

  /** The notifications one enabled completion pushes: none for a null delta. */
  function Pushed(delta: Option<map<int, string>>, order: seq<int>, ws: seq<Widget>): (r: seq<Notification>)
    requires delta.Some? ==> IsIterationOf(order, delta.value)
    ensures delta.None? ==> r == []
  {
    if delta.Some? then FanOut(delta.value, order, ws) else []
  }

  /** Every pushed notification is for a key of the delta, carries that key's value
      and goes to a monitored widget with a link for that key, and every such link
      is notified. */
  lemma PushedValues(delta: Option<map<int, string>>, order: seq<int>, ws: seq<Widget>, n: Notification)
    requires delta.Some? ==> IsIterationOf(order, delta.value)
    ensures n in Pushed(delta, order, ws) <==>
      delta.Some? && n.ref in delta.value && n.value == delta.value[n.ref] && HasLink(ws, n.widget, n.ref)
  {
    if delta.Some? {
      FanOutMembership(delta.value, order, ws, n);
    }
  }
}

=== FILE: sensor_values.dfy ===
/**
 * Sensor bookkeeping shared by the connectors, the monitors and the
 * registration handles: turning a status list into an id-to-value map,
 * collecting the de-duplicated sensor ids of a panel, and fanning a delta out
 * to the sensor links of the monitored widgets.
 */
module SensorValues {
  import opened Wrappers
  import opened Protocol

  // ---------------------------------------------------------------------------
  // Status list to value map
  // ---------------------------------------------------------------------------

  /** The map a sequence of `put` calls builds, one per status in list order. */
  function ValueMapOf(statuses: seq<SensorStatus>): map<int, string>
    decreases |statuses|
  {
    if |statuses| == 0 then map[]
    else
      var last := statuses[|statuses| - 1];
      ValueMapOf(statuses[..|statuses| - 1])[last.sensorId := last.value]
  }

  /** The payload a status list produces: `null` for a null list, otherwise its value map. */
  function SensorValuesOf(statuses: Option<seq<SensorStatus>>): (p: Payload)
    ensures statuses.None? <==> p.NullResult?
    ensures statuses.Some? ==> p == SensorValues(ValueMapOf(statuses.value))
  {
    if statuses.None? then NullResult else SensorValues(ValueMapOf(statuses.value))
  }

  /** Builds the value map of a status list by putting each status in turn. */
  method GetSensorValueMap(statuses: Option<seq<SensorStatus>>) returns (valueMap: Option<map<int, string>>)
    ensures statuses.None? ==> valueMap.None?
    ensures statuses.Some? ==> valueMap == Some(ValueMapOf(statuses.value))
  {
    if statuses.None? {
      return None;
    }
    var list := statuses.value;
    var m: map<int, string> := map[];
    for i := 0 to |list|
      invariant m == ValueMapOf(list[..i])
    {
      assert list[..i + 1][..i] == list[..i];
      m := m[list[i].sensorId := list[i].value];
    }
    assert list[..|list|] == list;
    return Some(m);
  }

  /** Position `j` holds the last status for its sensor id. */
  predicate LastOccurrence(statuses: seq<SensorStatus>, j: int)
  {
    0 <= j < |statuses| && forall k :: j < k < |statuses| ==> statuses[k].sensorId != statuses[j].sensorId
  }

  /** The map has a key for exactly the ids in the list, and each id maps to the value
      of its last occurrence. */
  lemma ValueMapLastWins(statuses: seq<SensorStatus>)
    ensures ValueMapOf(statuses).Keys == set j | 0 <= j < |statuses| :: statuses[j].sensorId
    ensures forall j :: LastOccurrence(statuses, j) ==>
      statuses[j].sensorId in ValueMapOf(statuses) && ValueMapOf(statuses)[statuses[j].sensorId] == statuses[j].value
  {
    ValueMapKeys(statuses);
    ValueMapValues(statuses);
  }

  lemma {:induction false} ValueMapKeys(statuses: seq<SensorStatus>)
    ensures ValueMapOf(statuses).Keys == set j | 0 <= j < |statuses| :: statuses[j].sensorId
    decreases |statuses|
  {
    if |statuses| > 0 {
      var n := |statuses| - 1;
      var prefix := statuses[..n];
      var last := statuses[n];
      ValueMapKeys(prefix);
      var ids := set j | 0 <= j < |statuses| :: statuses[j].sensorId;
      var prefixIds := set j | 0 <= j < |prefix| :: prefix[j].sensorId;
      forall id | id in ids ensures id in prefixIds + {last.sensorId} {
        var j :| 0 <= j < |statuses| && statuses[j].sensorId == id;
        if j < n {
          assert prefix[j] == statuses[j];
        }
      }
      forall id | id in prefixIds ensures id in ids {
        var j :| 0 <= j < |prefix| && prefix[j].sensorId == id;
        assert statuses[j] == prefix[j];
      }
      assert ids == prefixIds + {last.sensorId};
    }
  }

  lemma ValueMapValues(statuses: seq<SensorStatus>)
    ensures forall j :: LastOccurrence(statuses, j) ==>
      statuses[j].sensorId in ValueMapOf(statuses) && ValueMapOf(statuses)[statuses[j].sensorId] == statuses[j].value
  {
    forall j | LastOccurrence(statuses, j)
      ensures statuses[j].sensorId in ValueMapOf(statuses)
      ensures ValueMapOf(statuses)[statuses[j].sensorId] == statuses[j].value
    {
      ValueMapValueAt(statuses, j);
    }
  }

  lemma {:induction false} ValueMapValueAt(statuses: seq<SensorStatus>, j: int)
    requires LastOccurrence(statuses, j)
    ensures statuses[j].sensorId in ValueMapOf(statuses)
    ensures ValueMapOf(statuses)[statuses[j].sensorId] == statuses[j].value
    decreases |statuses|
  {
    var n := |statuses| - 1;
    if j < n {
      var prefix := statuses[..n];
      assert prefix[j] == statuses[j];
      assert LastOccurrence(prefix, j) by {
        forall k | j < k < n ensures prefix[k].sensorId != prefix[j].sensorId {
          assert prefix[k] == statuses[k];
        }
      }
      ValueMapValueAt(prefix, j);
    }
  }

  // ---------------------------------------------------------------------------
  // Sensor ids of a panel
  // ---------------------------------------------------------------------------

  function Refs(links: seq<SensorLink>): (refs: seq<int>)
    ensures |refs| == |links|
    ensures forall i :: 0 <= i < |links| ==> refs[i] == links[i].ref
    decreases |links|
  {
    if |links| == 0 then [] else Refs(links[..|links| - 1]) + [links[|links| - 1].ref]
  }

  /** The sensory widgets among `ws`, in order. */
  function SensoryWidgets(ws: seq<Widget>): seq<Widget>
    decreases |ws|
  {
    if |ws| == 0 then []
    else
      var w := ws[|ws| - 1];
      SensoryWidgets(ws[..|ws| - 1]) + (if w.sensory then [w] else [])
  }

  /** The link refs of the sensory widgets among `ws`, in widget then link order. */
  function SensorRefs(ws: seq<Widget>): seq<int>
    decreases |ws|
  {
    if |ws| == 0 then []
    else
      var w := ws[|ws| - 1];
      SensorRefs(ws[..|ws| - 1]) + (if w.sensory then Refs(w.links) else [])
  }

  /** The elements of `s`, each kept at its first occurrence only. */
  function Dedup(s: seq<int>): seq<int>
    decreases |s|
  {
    if |s| == 0 then []
    else
      var d := Dedup(s[..|s| - 1]);
      if s[|s| - 1] in d then d else d + [s[|s| - 1]]
  }

  predicate NoDuplicates<T(==)>(s: seq<T>)
  {
    forall i, j :: 0 <= i < j < |s| ==> s[i] != s[j]
  }

  /** The position of the first occurrence of `x` in `s`. */
  function FirstIndex(s: seq<int>, x: int): (i: nat)
    requires x in s
    ensures i < |s| && s[i] == x
    ensures forall k :: 0 <= k < i ==> s[k] != x
  {
    if s[0] == x then 0 else 1 + FirstIndex(s[1..], x)
  }

  lemma {:induction false} FirstIndexOfPrefix(s: seq<int>, y: int, x: int)
    requires y in s
    ensures FirstIndex(s + [x], y) == FirstIndex(s, y)
  {
    var i := FirstIndex(s, y);
    var t := s + [x];
    assert t[i] == y;
  }

  /** `Dedup` keeps exactly the elements of its input, never repeats one, and lists
      them in the order of their first occurrences. */
  lemma {:induction false} DedupProperties(s: seq<int>)
    ensures forall x :: x in Dedup(s) <==> x in s
    ensures NoDuplicates(Dedup(s))
    ensures forall i, j :: 0 <= i < j < |Dedup(s)| ==> FirstIndex(s, Dedup(s)[i]) < FirstIndex(s, Dedup(s)[j])
    decreases |s|
  {
    if |s| > 0 {
      var prefix := s[..|s| - 1];
      var x := s[|s| - 1];
      assert s == prefix + [x];
      DedupProperties(prefix);
      var d := Dedup(prefix);
      forall y | y in d ensures FirstIndex(s, y) == FirstIndex(prefix, y) {
        FirstIndexOfPrefix(prefix, y, x);
      }
      if x !in d {
        assert FirstIndex(s, x) == |prefix|;
      }
    }
  }

  /** Some sensory widget of `ws` has a link with ref `ref`. */
  predicate SensoryLink(ws: seq<Widget>, ref: int)
  {
    exists i :: 0 <= i < |ws| && ws[i].sensory && SensorLink(ref) in ws[i].links
  }

  lemma {:induction false} RefsMembership(links: seq<SensorLink>, x: int)
    ensures x in Refs(links) <==> SensorLink(x) in links
    decreases |links|
  {
    if |links| > 0 {
      var prefix := links[..|links| - 1];
      assert links == prefix + [links[|links| - 1]];
      RefsMembership(prefix, x);
    }
  }

  lemma {:induction false} SensorRefsMembership(ws: seq<Widget>, x: int)
    ensures x in SensorRefs(ws) <==> SensoryLink(ws, x)
    decreases |ws|
  {
    if |ws| > 0 {
      var prefix := ws[..|ws| - 1];
      var w := ws[|ws| - 1];
      SensorRefsMembership(prefix, x);
      RefsMembership(w.links, x);
      if SensoryLink(prefix, x) {
        var i :| 0 <= i < |prefix| && prefix[i].sensory && SensorLink(x) in prefix[i].links;
        assert ws[i] == prefix[i];
      }
      if SensoryLink(ws, x) && !SensoryLink(prefix, x) {
        var i :| 0 <= i < |ws| && ws[i].sensory && SensorLink(x) in ws[i].links;
        assert i == |ws| - 1;
      }
    }
  }

  /** The sensor ids derived from a panel's widgets list each ref of a sensory
      widget's links exactly once, in the order of first occurrence, and nothing
      else. */
  lemma SensorIdsOfWidgets(ws: seq<Widget>)
    ensures forall x :: x in Dedup(SensorRefs(ws)) <==> x in SensorRefs(ws)
    ensures NoDuplicates(Dedup(SensorRefs(ws)))
    ensures forall x :: x in Dedup(SensorRefs(ws)) <==> SensoryLink(ws, x)
    ensures forall i, j :: 0 <= i < j < |Dedup(SensorRefs(ws))| ==>
      FirstIndex(SensorRefs(ws), Dedup(SensorRefs(ws))[i]) < FirstIndex(SensorRefs(ws), Dedup(SensorRefs(ws))[j])
  {
    DedupProperties(SensorRefs(ws));
    forall x ensures x in Dedup(SensorRefs(ws)) <==> SensoryLink(ws, x) {
      SensorRefsMembership(ws, x);
    }
  }

  /** Adds each ref of `links` to `ids` unless `ids` already holds it. */
  method AddNewRefs(ids: seq<int>, links: seq<SensorLink>, ghost before: seq<int>) returns (r: seq<int>)
    requires ids == Dedup(before)
    ensures r == Dedup(before + Refs(links))
  {
    r := ids;
    assert links[..0] == [] && before + Refs(links[..0]) == before;
    for l := 0 to |links|
      invariant r == Dedup(before + Refs(links[..l]))
    {
      assert links[..l + 1][..l] == links[..l];
      ghost var s := before + Refs(links[..l + 1]);
      assert s[..|s| - 1] == before + Refs(links[..l]);
      if links[l].ref !in r {
        r := r + [links[l].ref];
      }
    }
    assert links[..|links|] == links;
  }

  /**
   * Walks the widgets, keeping each sensory widget and adding each of its link
   * refs to the id list unless the list already holds it.
   */
  method CollectSensorIds(ws: seq<Widget>) returns (monitored: seq<Widget>, ids: seq<int>)
    ensures monitored == SensoryWidgets(ws)
    ensures ids == Dedup(SensorRefs(ws))
  {
    monitored, ids := [], [];
    for i := 0 to |ws|
      invariant monitored == SensoryWidgets(ws[..i])
      invariant ids == Dedup(SensorRefs(ws[..i]))
    {
      var w := ws[i];
      assert ws[..i + 1][..i] == ws[..i];
      if w.sensory {
        monitored := monitored + [w];
        ids := AddNewRefs(ids, w.links, SensorRefs(ws[..i]));
        assert SensorRefs(ws[..i + 1]) == SensorRefs(ws[..i]) + Refs(w.links);
      } else {
        assert SensorRefs(ws[..i + 1]) == SensorRefs(ws[..i]) + [];
        assert SensorRefs(ws[..i]) + [] == SensorRefs(ws[..i]);
      }
    }
    assert ws[..|ws|] == ws;
  }

  // ---------------------------------------------------------------------------
  // Delta fan-out
  // ---------------------------------------------------------------------------

  /** `order` lists each key of `m` exactly once: a hash map's iteration order. */
  predicate IsIterationOf(order: seq<int>, m: map<int, string>)
  {
    NoDuplicates(order) && (forall k :: k in m ==> k in order) && (forall k :: k in order ==> k in m)
  }

  /** One notification per link of widget `id` whose ref equals `key`, in link order. */
  function LinkHits(id: nat, links: seq<SensorLink>, key: int, value: string): seq<Notification>
    decreases |links|
  {
    if |links| == 0 then []
    else
      LinkHits(id, links[..|links| - 1], key, value)
      + (if links[|links| - 1].ref == key then [Notification(id, key, value)] else [])
  }

  /** The notifications one (key, value) entry produces over the widgets, in widget order. */
  function WidgetHits(ws: seq<Widget>, key: int, value: string): seq<Notification>
    decreases |ws|
  {
    if |ws| == 0 then []
    else
      var w := ws[|ws| - 1];
      WidgetHits(ws[..|ws| - 1], key, value) + LinkHits(w.id, w.links, key, value)
  }

  /** The notifications a delta produces, entry by entry in iteration order. */
  function FanOut(delta: map<int, string>, order: seq<int>, ws: seq<Widget>): seq<Notification>
    requires forall k :: k in order ==> k in delta
    decreases |order|
  {
    if |order| == 0 then []
    else
      var key := order[|order| - 1];
      FanOut(delta, order[..|order| - 1], ws) + WidgetHits(ws, key, delta[key])
  }

  /** Walks the entries, then the widgets, then each widget's links, notifying every
      link whose ref equals the entry's key. */
  method PushDelta(delta: map<int, string>, order: seq<int>, ws: seq<Widget>) returns (notified: seq<Notification>)
    requires IsIterationOf(order, delta)
    ensures notified == FanOut(delta, order, ws)
  {
    notified := [];
    for e := 0 to |order|
      invariant notified == FanOut(delta, order[..e], ws)
    {
      var key := order[e];
      assert order[..e + 1][..e] == order[..e];
      var hits := PushEntry(ws, key, delta[key]);
      notified := notified + hits;
    }
    assert order[..|order|] == order;
  }

  /** One entry of the delta, walked over the widgets in order. */
  method PushEntry(ws: seq<Widget>, key: int, value: string) returns (hits: seq<Notification>)
    ensures hits == WidgetHits(ws, key, value)
  {
    hits := [];
    for w := 0 to |ws|
      invariant hits == WidgetHits(ws[..w], key, value)
    {
      assert ws[..w + 1][..w] == ws[..w];
      var more := PushLinks(ws[w], key, value);
      hits := hits + more;
    }
    assert ws[..|ws|] == ws;
  }

  /** One entry of the delta, walked over one widget's links in order. */
  method PushLinks(widget: Widget, key: int, value: string) returns (hits: seq<Notification>)
    ensures hits == LinkHits(widget.id, widget.links, key, value)
  {
    hits := [];
    for l := 0 to |widget.links|
      invariant hits == LinkHits(widget.id, widget.links[..l], key, value)
    {
      assert widget.links[..l + 1][..l] == widget.links[..l];
      if widget.links[l].ref == key {
        hits := hits + [Notification(widget.id, widget.links[l].ref, value)];
      }
    }
    assert widget.links[..|widget.links|] == widget.links;
  }

  lemma {:induction false} LinkHitsMembership(id: nat, links: seq<SensorLink>, key: int, value: string, n: Notification)
    ensures n in LinkHits(id, links, key, value) <==> n == Notification(id, key, value) && SensorLink(key) in links
    decreases |links|
  {
    if |links| > 0 {
      var prefix := links[..|links| - 1];
      assert links == prefix + [links[|links| - 1]];
      LinkHitsMembership(id, prefix, key, value, n);
    }
  }

  /** Some widget of `ws` with identity `id` has a link with ref `ref`. */
  predicate HasLink(ws: seq<Widget>, id: nat, ref: int)
  {
    exists i :: 0 <= i < |ws| && ws[i].id == id && SensorLink(ref) in ws[i].links
  }

  lemma {:induction false} WidgetHitsMembership(ws: seq<Widget>, key: int, value: string, n: Notification)
    ensures n in WidgetHits(ws, key, value) <==> n.ref == key && n.value == value && HasLink(ws, n.widget, key)
    decreases |ws|
  {
    if |ws| > 0 {
      var prefix := ws[..|ws| - 1];
      var w := ws[|ws| - 1];
      WidgetHitsMembership(prefix, key, value, n);
      LinkHitsMembership(w.id, w.links, key, value, n);
      if HasLink(ws, n.widget, key) && !HasLink(prefix, n.widget, key) {
        var i :| 0 <= i < |ws| && ws[i].id == n.widget && SensorLink(key) in ws[i].links;
      }
      if HasLink(prefix, n.widget, key) {
        var i :| 0 <= i < |prefix| && prefix[i].id == n.widget && SensorLink(key) in prefix[i].links;
        assert ws[i] == prefix[i];
      }
    }
  }

  /** A notification is produced exactly for a delta key, with that key's value, at a
      widget that has a link with that ref: every (id, value) pair reaches every
      matching link and nothing else is notified. */
  lemma {:induction false} FanOutMembership(delta: map<int, string>, order: seq<int>, ws: seq<Widget>, n: Notification)
    requires IsIterationOf(order, delta)
    ensures n in FanOut(delta, order, ws) <==>
      n.ref in delta && n.value == delta[n.ref] && HasLink(ws, n.widget, n.ref)
  {
    FanOutPrefixMembership(delta, order, ws, n);
  }

  lemma {:induction false} FanOutPrefixMembership(delta: map<int, string>, order: seq<int>, ws: seq<Widget>, n: Notification)
    requires forall k :: k in order ==> k in delta
    ensures n in FanOut(delta, order, ws) <==>
      n.ref in order && n.value == delta[n.ref] && HasLink(ws, n.widget, n.ref)
    decreases |order|
  {
    if |order| > 0 {
      var prefix := order[..|order| - 1];
      var key := order[|order| - 1];
      assert order == prefix + [key];
      FanOutPrefixMembership(delta, prefix, ws, n);
      WidgetHitsMembership(ws, key, delta[key], n);
    }
  }
}

=== FILE: session.dfy ===
/**
 * The newer session manager. It keeps, per registered panel, a sensor
 * monitor, a resource locator and a command sender in three maps that always
 * share their key set. Registering a panel creates the three handles, asks
 * the connector for a snapshot of the panel's sensors when it has any, and
 * wires the handles into the panel's widgets and starts monitoring once the
 * snapshot arrives (at once when there are no sensors). Unregistering
 * disables and detaches the handles and drops the panel. Disconnecting
 * disables every handle; a successful connect re-enables them all and
 * restarts every monitor before the caller hears of it.
 *
 * Panels are identified by their id. The connector is not modelled here:
 * each operation returns the calls it hands to the connector and the events
 * it delivers to callers, and the connector's completions are operations
 * that receive the call they complete. The connector's `isConnected` answer
 * and the outcome of parsing the controller URL are parameters. The widgets'
 * locator and sender fields are summarised per panel by `wiring`.
 */
module Session {
  import opened Wrappers
  import opened Protocol
  import opened SensorValues
  import opened Gates
  import opened SensorMonitors
  import ConsoleConnector

  /** The locator and sender wired into a panel's resource consumers and command
      widgets. */
  datatype Wiring = Wiring(locator: ResourceLocator, sender: CommandSender)

  /** What the session hands to the connector. A snapshot request carries what its
      callback captured: the panel, its sensory widgets and the three handles. */
  datatype ConnectorCall =
    | SetCredentialsCall(credentials: Option<ConsoleConnector.Credentials>)
    | SetUrlCall(url: string)
    | ConnectCall(callback: CallbackId, timeout: int)
    | DisconnectCall
    | SnapshotCall(sensorIds: seq<int>, timeout: int, panel: Panel, sensory: seq<Widget>,
                   monitor: SensorMonitor, locator: ResourceLocator, sender: CommandSender)

  datatype Event =
    | Delivered(callback: CallbackId, delivery: Delivery)
    /** `registerPanel` threw on a panel whose widget list is null. */
    | RegisterEscaped(panel: nat)

  /** Some resource consumer among the widgets has a null resource list. */
  predicate HasNullResourceList(ws: seq<Widget>)
  {
    exists i :: 0 <= i < |ws| && ws[i].consumer && !ws[i].hasResources
  }

  /**
   * The registered panel ids after `unregisterPanel` as written, and whether it
   * throws. Its detach loop walks every consumer's resource list without the
   * null check that `connectHandlers` makes, so a consumer whose list is null
   * throws after the handles are disabled and before the maps are touched: the
   * panel stays registered.
   */
  function UnregisteredAsWritten(keys: set<nat>, p: Panel): (r: (set<nat>, bool))
    ensures r.0 <= keys && keys - r.0 <= {p.id}
  {
    if p.id !in keys then (keys, false)
    else if HasNullResourceList(p.widgets.GetOr([])) then (keys, true)
    else (keys - {p.id}, false)
  }

  /** A panel with one image-like consumer whose resource list is null cannot be
      unregistered as written. */
  lemma NullResourceListBlocksUnregister()
    ensures var p := Panel(7, Some([Widget(1, false, [], false, true, false)]));
      UnregisteredAsWritten({7}, p) == ({7}, true)
  {
    var ws := [Widget(1, false, [], false, true, false)];
    assert ws[0].consumer && !ws[0].hasResources;
    assert HasNullResourceList(ws);
  }

  class Controller {
    var timeout: int
    var panelMonitors: map<nat, SensorMonitor>
    var resourceLocators: map<nat, ResourceLocator>
    var panelSenders: map<nat, CommandSender>
    var wiring: map<nat, Wiring>
    var connectCallback: Option<CallbackId>
    /** The URL of the stored controller info; None when the info or its URL is null. */
    var infoUrl: Option<string>

    /** The three maps share one key set, no handle serves two panels, and only
        registered panels are wired. */
    predicate Valid()
      reads this
    {
      && panelMonitors.Keys == resourceLocators.Keys == panelSenders.Keys
      && wiring.Keys <= panelMonitors.Keys
      && (forall p, q :: p in panelMonitors && q in panelMonitors && p != q ==> panelMonitors[p] != panelMonitors[q])
      && (forall p, q :: p in resourceLocators && q in resourceLocators && p != q ==> resourceLocators[p] != resourceLocators[q])
      && (forall p, q :: p in panelSenders && q in panelSenders && p != q ==> panelSenders[p] != panelSenders[q])
    }

    /** The handles of one panel. */
    function HandlesOf(id: nat): set<object>
      reads this
    {
      (if id in panelMonitors then {panelMonitors[id] as object} else {})
      + (if id in resourceLocators then {resourceLocators[id] as object} else {})
      + (if id in panelSenders then {panelSenders[id] as object} else {})
    }

    twostate predicate SameRegistrations()
      reads this
    {
      && panelMonitors == old(panelMonitors) && resourceLocators == old(resourceLocators)
      && panelSenders == old(panelSenders) && wiring == old(wiring)
    }

    twostate predicate SameSettings()
      reads this
    {
      timeout == old(timeout) && connectCallback == old(connectCallback) && infoUrl == old(infoUrl)
    }

    /** An empty session with the default timeout, no stored callback and no
        controller info. */
    constructor()
      ensures Valid()
      ensures timeout == DefaultTimeout && infoUrl.None? && connectCallback.None?
      ensures panelMonitors == map[] && resourceLocators == map[] && panelSenders == map[] && wiring == map[]
    {
      timeout := DefaultTimeout;
      panelMonitors, resourceLocators, panelSenders, wiring := map[], map[], map[], map[];
      connectCallback := None;
      infoUrl := None;
    }

    /**
     * The public constructor: it stores the controller info through
     * `setControllerInfo`, whose fresh connector reports itself disconnected, and
     * then hands the credentials over. The connector sees a disconnect followed
     * by the credentials.
     */
    static method Create(url: Option<string>, credentials: Option<ConsoleConnector.Credentials>, malformed: bool)
      returns (c: Controller, sent: seq<ConnectorCall>)
      ensures fresh(c) && c.Valid()
      ensures c.timeout == DefaultTimeout && c.infoUrl == url && c.connectCallback.None?
      ensures c.panelMonitors == map[] && c.resourceLocators == map[] && c.panelSenders == map[] && c.wiring == map[]
      ensures sent == [DisconnectCall, SetCredentialsCall(credentials)]
    {
      c := new Controller();
      var sent1, _ := c.SetControllerInfo(url, false, malformed);
      var sent2 := c.SetCredentials(credentials);
      sent := sent1 + sent2;
    }

    method SetTimeout(t: int)
      modifies this
      ensures timeout == t && connectCallback == old(connectCallback) && infoUrl == old(infoUrl)
      ensures SameRegistrations()
    {
      timeout := t;
    }

    /** `setCredentials`: handed straight to the connector. */
    method SetCredentials(c: Option<ConsoleConnector.Credentials>) returns (sent: seq<ConnectorCall>)
      ensures sent == [SetCredentialsCall(c)]
    {
      sent := [SetCredentialsCall(c)];
    }

    /** A locator and a sender as a new registration leaves them: enabled, bound
        to the connector, with the default timeout and nothing handed over yet. */
    static predicate NewGates(l: ResourceLocator, s: CommandSender)
      reads l, s
    {
      && l.Valid() && l.enabled && l.connectorSet && l.timeout == DefaultTimeout && l.calls == [] && l.handed == []
      && s.Valid() && s.enabled && s.connectorSet && s.timeout == DefaultTimeout && s.calls == [] && s.handed == []
    }

    /** A fresh monitor, locator and sender for a panel with the given widgets, all
        bound to the connector; the monitor watches the sensory widgets and their
        de-duplicated link refs. */
    static method NewHandles(ws: seq<Widget>) returns (m: SensorMonitor, l: ResourceLocator, s: CommandSender)
      ensures fresh(m) && fresh(l) && fresh(s)
      ensures m.widgets == SensoryWidgets(ws) && m.sensorIds == Dedup(SensorRefs(ws))
      ensures m.enabled && m.connectorSet && m.polls == [] && m.notified == []
      ensures NewGates(l, s)
    {
      s := new CommandSender();
      l := new ResourceLocator();
      s.SetConnector(true);
      l.SetConnector(true);
      var monitored, ids := CollectSensorIds(ws);
      m := new SensorMonitor(monitored, ids);
      m.SetConnector(true);
    }

    /** Puts a new panel's handles into the three maps. */
    method AddPanel(id: nat, m: SensorMonitor, l: ResourceLocator, s: CommandSender)
      requires Valid() && id !in panelMonitors
      requires m !in panelMonitors.Values && l !in resourceLocators.Values && s !in panelSenders.Values
      modifies this
      ensures Valid() && SameSettings() && wiring == old(wiring)
      ensures panelMonitors == old(panelMonitors)[id := m]
      ensures resourceLocators == old(resourceLocators)[id := l]
      ensures panelSenders == old(panelSenders)[id := s]
    {
      panelMonitors := panelMonitors[id := m];
      resourceLocators := resourceLocators[id := l];
      panelSenders := panelSenders[id := s];
    }

    /**
     * `registerPanel`: nothing for a null or already registered panel, and a
     * null widget list throws before anything is stored. Otherwise the panel is
     * registered as `RegisterNew` describes.
     */
    method RegisterPanel(panel: Option<Panel>) returns (sent: seq<ConnectorCall>, out: seq<Event>)
      requires Valid()
      modifies this
      ensures Valid() && SameSettings()
      ensures panel.None? || panel.value.id in old(resourceLocators) ==> (
        SameRegistrations() && sent == [] && out == [])
      ensures panel.Some? && panel.value.id !in old(resourceLocators) && panel.value.widgets.None? ==> (
        SameRegistrations() && sent == [] && out == [RegisterEscaped(panel.value.id)])
      ensures panel.Some? && panel.value.id !in old(resourceLocators) && panel.value.widgets.Some? ==> (
        Registered(panel.value, sent) && out == [])
    {
      sent, out := [], [];
      if panel.None? || panel.value.id in resourceLocators {
        return;
      }
      var p := panel.value;
      if p.widgets.None? {
        out := [RegisterEscaped(p.id)];
        return;
      }
      sent := RegisterNew(p);
    }

    /**
     * The registration of panel `p`, and what it hands to the connector: the
     * panel has a fresh monitor, locator and sender, all bound to the connector
     * and in all three maps at once. With sensor refs to watch, a snapshot of
     * their values is requested; without, the handles are wired and the monitor
     * has started.
     */
    twostate predicate Registered(p: Panel, new sent: seq<ConnectorCall>)
      requires p.widgets.Some?
      reads this, HandlesOf(p.id)
    {
      var id, ws := p.id, p.widgets.value;
      && id in panelMonitors && id in resourceLocators && id in panelSenders
      && panelMonitors == old(panelMonitors)[id := panelMonitors[id]]
      && resourceLocators == old(resourceLocators)[id := resourceLocators[id]]
      && panelSenders == old(panelSenders)[id := panelSenders[id]]
      && var m, l, s := panelMonitors[id], resourceLocators[id], panelSenders[id];
      && fresh(m) && fresh(l) && fresh(s)
      && m.widgets == SensoryWidgets(ws) && m.sensorIds == Dedup(SensorRefs(ws))
      && m.enabled && m.connectorSet && m.notified == []
      && NewGates(l, s)
      && (|m.sensorIds| > 0 ==>
            sent == [SnapshotCall(m.sensorIds, timeout, p, m.widgets, m, l, s)] && m.polls == [] && wiring == old(wiring))
      && (|m.sensorIds| == 0 ==>
            sent == [] && m.polls == [Poll([], PollTimeout)] && wiring == old(wiring)[id := Wiring(l, s)])
    }

    /** Registers a panel that is not registered and has a widget list. */
    method RegisterNew(p: Panel) returns (sent: seq<ConnectorCall>)
      requires Valid() && p.id !in resourceLocators && p.widgets.Some?
      modifies this
      ensures Valid() && SameSettings()
      ensures Registered(p, sent)
    {
      var monitor, locator, sender := NewHandles(p.widgets.value);
      AddPanel(p.id, monitor, locator, sender);
      sent := [];
      if |monitor.sensorIds| > 0 {
        sent := [SnapshotCall(monitor.sensorIds, timeout, p, monitor.widgets, monitor, locator, sender)];
      } else {
        wiring := wiring[p.id := Wiring(locator, sender)];
        monitor.Start();
      }
    }

    /** Disables one panel's handles in the order of `unregisterPanel`. */
    static method DisablePanel(m: SensorMonitor, l: ResourceLocator, s: CommandSender)
      modifies m, l, s
      ensures !m.enabled && !l.enabled && !s.enabled
      ensures m.polls == old(m.polls) && m.notified == old(m.notified) && m.connectorSet == old(m.connectorSet)
      ensures l.calls == old(l.calls) && l.handed == old(l.handed) && l.connectorSet == old(l.connectorSet)
      ensures s.calls == old(s.calls) && s.handed == old(s.handed) && s.connectorSet == old(s.connectorSet)
    {
      l.Disable();
      s.Disable();
      m.Disable();
    }

    /** Detaches a panel's handles from its widgets and drops it from the maps. */
    method RemovePanel(id: nat)
      requires Valid()
      modifies this
      ensures Valid() && SameSettings()
      ensures panelMonitors == old(panelMonitors) - {id} && resourceLocators == old(resourceLocators) - {id}
      ensures panelSenders == old(panelSenders) - {id} && wiring == old(wiring) - {id}
    {
      wiring := wiring - {id};
      panelMonitors := panelMonitors - {id};
      resourceLocators := resourceLocators - {id};
      panelSenders := panelSenders - {id};
    }

    /**
     * `unregisterPanel`: nothing for a panel that is not registered. Otherwise its
     * locator, sender and monitor are disabled, detached from the widgets, and
     * the panel leaves all three maps. Consumers with a null resource list are
     * skipped while detaching, as they are while wiring.
     */
    method UnregisterPanel(panel: Panel)
      requires Valid()
      modifies this, HandlesOf(panel.id)
      ensures Valid() && SameSettings()
      ensures panel.id !in old(resourceLocators) ==> SameRegistrations()
      ensures panel.id in old(resourceLocators) ==> (
        && panelMonitors == old(panelMonitors) - {panel.id}
        && resourceLocators == old(resourceLocators) - {panel.id}
        && panelSenders == old(panelSenders) - {panel.id}
        && wiring == old(wiring) - {panel.id})
      ensures panel.id in old(resourceLocators) ==> (
        var m, l, s := old(panelMonitors)[panel.id], old(resourceLocators)[panel.id], old(panelSenders)[panel.id];
        && !m.enabled && !l.enabled && !s.enabled
        && m.polls == old(m.polls) && m.notified == old(m.notified) && m.connectorSet == old(m.connectorSet)
        && l.calls == old(l.calls) && l.handed == old(l.handed) && l.connectorSet == old(l.connectorSet)
        && s.calls == old(s.calls) && s.handed == old(s.handed) && s.connectorSet == old(s.connectorSet))
    {
      if panel.id !in resourceLocators {
        return;
      }
      DisablePanel(panelMonitors[panel.id], resourceLocators[panel.id], panelSenders[panel.id]);
      RemovePanel(panel.id);
    }

    /** The snapshot request `c` fails: the panel is unregistered if it is still (or
        again) registered, which disables its handles and removes it. */
    method OnSnapshotFailure(c: ConnectorCall, code: ResponseCode)
      requires Valid() && c.SnapshotCall?
      modifies this, HandlesOf(c.panel.id)
      ensures Valid() && SameSettings()
      ensures panelMonitors == old(panelMonitors) - {c.panel.id}
      ensures resourceLocators == old(resourceLocators) - {c.panel.id}
      ensures panelSenders == old(panelSenders) - {c.panel.id}
      ensures wiring == old(wiring) - {c.panel.id}
      ensures c.panel.id in old(panelMonitors) ==> (
        var m, l, s := old(panelMonitors)[c.panel.id], old(resourceLocators)[c.panel.id], old(panelSenders)[c.panel.id];
        && !m.enabled && !l.enabled && !s.enabled
        && m.polls == old(m.polls) && m.notified == old(m.notified) && m.connectorSet == old(m.connectorSet)
        && l.calls == old(l.calls) && l.handed == old(l.handed) && l.connectorSet == old(l.connectorSet)
        && s.calls == old(s.calls) && s.handed == old(s.handed) && s.connectorSet == old(s.connectorSet))
    {
      if c.panel.id in panelMonitors {
        UnregisterPanel(c.panel);
      }
    }

    /**
     * The snapshot request `c` succeeds with `result` (null for no values), whose
     * entries are visited in `order`. If the panel is still (or again) registered,
     * the handles the request captured are wired and its monitor is started.
     * Either way a result is pushed to every sensory link with a matching ref.
     */
    method OnSnapshotSuccess(c: ConnectorCall, result: Option<map<int, string>>, order: seq<int>)
      returns (pushed: seq<Notification>)
      requires Valid() && c.SnapshotCall?
      requires result.Some? ==> IsIterationOf(order, result.value)
      modifies this, c.monitor
      ensures Valid() && SameSettings()
      ensures panelMonitors == old(panelMonitors) && resourceLocators == old(resourceLocators)
      ensures panelSenders == old(panelSenders)
      ensures pushed == Pushed(result, order, c.sensory)
      ensures c.panel.id in panelMonitors ==> wiring == old(wiring)[c.panel.id := Wiring(c.locator, c.sender)]
      ensures c.panel.id !in panelMonitors ==> wiring == old(wiring)
      ensures c.monitor.polls == old(c.monitor.polls)
        + (if c.panel.id in panelMonitors && c.monitor.connectorSet && c.monitor.enabled
           then [Poll(c.monitor.sensorIds, PollTimeout)] else [])
      ensures c.monitor.enabled == old(c.monitor.enabled) && c.monitor.notified == old(c.monitor.notified)
      ensures c.monitor.connectorSet == old(c.monitor.connectorSet)
    {
      if c.panel.id in panelMonitors {
        wiring := wiring[c.panel.id := Wiring(c.locator, c.sender)];
        c.monitor.Start();
      }
      pushed := [];
      if result.Some? {
        pushed := PushDelta(result.value, order, c.sensory);
      }
    }

    /** Every monitor of `ms` has the flag `on` and keeps its connector and its
        notifications; it has issued one more poll if `restart` holds and its
        connector is set, and none otherwise. */
    static twostate predicate MonitorsSet(ms: map<nat, SensorMonitor>, on: bool, restart: bool)
      reads ms.Values
    {
      forall p :: p in ms ==>
        && ms[p].enabled == on
        && ms[p].notified == old(ms[p].notified) && ms[p].connectorSet == old(ms[p].connectorSet)
        && ms[p].polls == old(ms[p].polls)
             + (if restart && ms[p].connectorSet then [Poll(ms[p].sensorIds, PollTimeout)] else [])
    }

    /** Every locator of `ls` has the flag `on` and keeps everything else. */
    static twostate predicate LocatorsSet(ls: map<nat, ResourceLocator>, on: bool)
      reads ls.Values
    {
      forall p :: p in ls ==>
        && ls[p].enabled == on
        && ls[p].calls == old(ls[p].calls) && ls[p].handed == old(ls[p].handed)
        && ls[p].connectorSet == old(ls[p].connectorSet) && ls[p].timeout == old(ls[p].timeout)
    }

    /** Every sender of `ss` has the flag `on` and keeps everything else. */
    static twostate predicate SendersSet(ss: map<nat, CommandSender>, on: bool)
      reads ss.Values
    {
      forall p :: p in ss ==>
        && ss[p].enabled == on
        && ss[p].calls == old(ss[p].calls) && ss[p].handed == old(ss[p].handed)
        && ss[p].connectorSet == old(ss[p].connectorSet) && ss[p].timeout == old(ss[p].timeout)
    }

    /** One monitor of such a pass. */
    static method SetMonitor(m: SensorMonitor, on: bool, restart: bool)
      modifies m
      ensures m.enabled == on && m.notified == old(m.notified) && m.connectorSet == old(m.connectorSet)
      ensures m.polls == old(m.polls) + (if on && restart && m.connectorSet then [Poll(m.sensorIds, PollTimeout)] else [])
    {
      if on {
        m.Enable();
        if restart {
          m.Start();
        }
      } else {
        m.Disable();
      }
    }

    /** One pass over the monitors: each is enabled and started, with `restart`
        and `on`, or has its flag set. */
    static method SetMonitorFlags(ms: map<nat, SensorMonitor>, on: bool, restart: bool,
                                  ghost ls: map<nat, ResourceLocator>, ghost ss: map<nat, CommandSender>)
      requires forall p, q :: p in ms && q in ms && p != q ==> ms[p] != ms[q]
      modifies ms.Values
      ensures MonitorsSet(ms, on, on && restart)
      ensures unchanged(ls.Values) && unchanged(ss.Values)
    {
      var keys := ms.Keys;
      while keys != {}
        invariant keys <= ms.Keys
        invariant forall p :: p in ms && p !in keys ==> ms[p].enabled == on
        invariant forall p :: p in ms ==>
          && ms[p].notified == old(ms[p].notified) && ms[p].connectorSet == old(ms[p].connectorSet)
          && ms[p].polls == old(ms[p].polls)
               + (if p !in keys && on && restart && ms[p].connectorSet then [Poll(ms[p].sensorIds, PollTimeout)] else [])
        decreases keys
      {
        var p :| p in keys;
        SetMonitor(ms[p], on, restart);
        keys := keys - {p};
      }
    }

    /** One pass over the locators, setting each flag. */
    static method SetLocatorFlags(ls: map<nat, ResourceLocator>, on: bool,
                                  ghost ms: map<nat, SensorMonitor>, ghost ss: map<nat, CommandSender>)
      requires forall p, q :: p in ls && q in ls && p != q ==> ls[p] != ls[q]
      modifies ls.Values
      ensures LocatorsSet(ls, on)
      ensures unchanged(ms.Values) && unchanged(ss.Values)
    {
      var keys := ls.Keys;
      while keys != {}
        invariant keys <= ls.Keys
        invariant forall p :: p in ls && p !in keys ==> ls[p].enabled == on
        invariant forall p :: p in ls ==>
          && ls[p].calls == old(ls[p].calls) && ls[p].handed == old(ls[p].handed)
          && ls[p].connectorSet == old(ls[p].connectorSet) && ls[p].timeout == old(ls[p].timeout)
        decreases keys
      {
        var p :| p in keys;
        if on {
          ls[p].Enable();
        } else {
          ls[p].Disable();
        }
        keys := keys - {p};
      }
    }

    /** One pass over the senders, setting each flag. */
    static method SetSenderFlags(ss: map<nat, CommandSender>, on: bool,
                                 ghost ms: map<nat, SensorMonitor>, ghost ls: map<nat, ResourceLocator>)
      requires forall p, q :: p in ss && q in ss && p != q ==> ss[p] != ss[q]
      modifies ss.Values
      ensures SendersSet(ss, on)
      ensures unchanged(ms.Values) && unchanged(ls.Values)
    {
      var keys := ss.Keys;
      while keys != {}
        invariant keys <= ss.Keys
        invariant forall p :: p in ss && p !in keys ==> ss[p].enabled == on
        invariant forall p :: p in ss ==>
          && ss[p].calls == old(ss[p].calls) && ss[p].handed == old(ss[p].handed)
          && ss[p].connectorSet == old(ss[p].connectorSet) && ss[p].timeout == old(ss[p].timeout)
        decreases keys
      {
        var p :| p in keys;
        if on {
          ss[p].Enable();
        } else {
          ss[p].Disable();
        }
        keys := keys - {p};
      }
    }

    /** The three passes of `disconnect`: monitors, then senders, then locators. */
    static method DisableAll(ms: map<nat, SensorMonitor>, ls: map<nat, ResourceLocator>, ss: map<nat, CommandSender>)
      requires forall p, q :: p in ms && q in ms && p != q ==> ms[p] != ms[q]
      requires forall p, q :: p in ls && q in ls && p != q ==> ls[p] != ls[q]
      requires forall p, q :: p in ss && q in ss && p != q ==> ss[p] != ss[q]
      modifies ms.Values, ls.Values, ss.Values
      ensures MonitorsSet(ms, false, false) && LocatorsSet(ls, false) && SendersSet(ss, false)
    {
      SetMonitorFlags(ms, false, false, ls, ss);
      SetSenderFlags(ss, false, ms, ls);
      SetLocatorFlags(ls, false, ms, ss);
    }

    /** The three passes of a successful connect: senders, then locators, then the
        monitors, each enabled and started. */
    static method EnableAll(ms: map<nat, SensorMonitor>, ls: map<nat, ResourceLocator>, ss: map<nat, CommandSender>)
      requires forall p, q :: p in ms && q in ms && p != q ==> ms[p] != ms[q]
      requires forall p, q :: p in ls && q in ls && p != q ==> ls[p] != ls[q]
      requires forall p, q :: p in ss && q in ss && p != q ==> ss[p] != ss[q]
      modifies ms.Values, ls.Values, ss.Values
      ensures MonitorsSet(ms, true, true) && LocatorsSet(ls, true) && SendersSet(ss, true)
    {
      SetSenderFlags(ss, true, ms, ls);
      SetLocatorFlags(ls, true, ms, ss);
      SetMonitorFlags(ms, true, true, ls, ss);
    }

    /** The passes of `disconnect` over the registered handles. */
    method DisableHandles()
      requires Valid()
      modifies panelMonitors.Values, resourceLocators.Values, panelSenders.Values
      ensures unchanged(this)
      ensures MonitorsSet(panelMonitors, false, false)
      ensures LocatorsSet(resourceLocators, false) && SendersSet(panelSenders, false)
    {
      DisableAll(panelMonitors, resourceLocators, panelSenders);
    }

    /** `disconnect`: every handle is disabled before the connector disconnects. */
    method Disconnect() returns (sent: seq<ConnectorCall>)
      requires Valid()
      modifies panelMonitors.Values, resourceLocators.Values, panelSenders.Values
      ensures MonitorsSet(panelMonitors, false, false)
      ensures LocatorsSet(resourceLocators, false) && SendersSet(panelSenders, false)
      ensures sent == [DisconnectCall]
      ensures unchanged(this)
    {
      DisableHandles();
      sent := [DisconnectCall];
    }

    /** Whether the stored URL is missing, empty or does not parse. */
    static predicate BadUrl(url: Option<string>, malformed: bool)
    {
      url.None? || url.value == "" || malformed
    }

    /**
     * `connect`: the callback is stored first. A missing, empty or unparsable URL
     * fails with INVALID_URL without involving the connector; otherwise the
     * connector gets the URL and a connect request.
     */
    method Connect(cb: CallbackId, t: int, malformed: bool) returns (sent: seq<ConnectorCall>, out: seq<Event>)
      modifies this
      ensures connectCallback == Some(cb) && timeout == old(timeout) && infoUrl == old(infoUrl)
      ensures SameRegistrations()
      ensures BadUrl(infoUrl, malformed) ==> sent == [] && out == [Delivered(cb, Failure(InvalidUrl))]
      ensures !BadUrl(infoUrl, malformed) ==> sent == [SetUrlCall(infoUrl.value), ConnectCall(cb, t)] && out == []
    {
      connectCallback := Some(cb);
      sent, out := ConnectAttempt(infoUrl, cb, t, malformed);
    }

    /** What a connect attempt hands to the connector and delivers to the caller,
        once the callback is stored. */
    static method ConnectAttempt(url: Option<string>, cb: CallbackId, t: int, malformed: bool)
      returns (sent: seq<ConnectorCall>, out: seq<Event>)
      ensures BadUrl(url, malformed) ==> sent == [] && out == [Delivered(cb, Failure(InvalidUrl))]
      ensures !BadUrl(url, malformed) ==> sent == [SetUrlCall(url.value), ConnectCall(cb, t)] && out == []
    {
      if BadUrl(url, malformed) {
        sent, out := [], [Delivered(cb, Failure(InvalidUrl))];
        return;
      }
      sent, out := [SetUrlCall(url.value), ConnectCall(cb, t)], [];
    }

    /** The passes of a successful connect over the registered handles. */
    method EnableHandles()
      requires Valid()
      modifies panelMonitors.Values, resourceLocators.Values, panelSenders.Values
      ensures unchanged(this)
      ensures MonitorsSet(panelMonitors, true, true)
      ensures LocatorsSet(resourceLocators, true) && SendersSet(panelSenders, true)
    {
      EnableAll(panelMonitors, resourceLocators, panelSenders);
    }

    /**
     * The connect request `c` succeeds: every sender and locator is enabled, every
     * monitor is enabled and started, and only then does the caller hear of it.
     */
    method OnConnectSuccess(c: ConnectorCall, status: ResponseCode) returns (out: seq<Event>)
      requires Valid() && c.ConnectCall?
      modifies panelMonitors.Values, resourceLocators.Values, panelSenders.Values
      ensures MonitorsSet(panelMonitors, true, true)
      ensures LocatorsSet(resourceLocators, true) && SendersSet(panelSenders, true)
      ensures out == [Delivered(c.callback, Success(ConnectionStatus(status)))]
    {
      EnableHandles();
      out := [Delivered(c.callback, Success(ConnectionStatus(status)))];
    }

    /** The connect request `c` fails: the caller hears the failure and nothing else
        changes. */
    static method OnConnectFailure(c: ConnectorCall, code: ResponseCode) returns (out: seq<Event>)
      requires c.ConnectCall?
      ensures out == [Delivered(c.callback, Failure(code))]
    {
      out := [Delivered(c.callback, Failure(code))];
    }

    /** Stores the URL of new controller info. */
    method StoreUrl(url: Option<string>)
      requires Valid()
      modifies this
      ensures Valid() && SameRegistrations()
      ensures infoUrl == url && timeout == old(timeout) && connectCallback == old(connectCallback)
      ensures unchanged(panelMonitors.Values, resourceLocators.Values, panelSenders.Values)
    {
      infoUrl := url;
    }

    /**
     * `setControllerInfo`: always disconnects, stores the new URL, and reconnects
     * with the stored callback and the session timeout only if the connector
     * reported itself connected beforehand and a callback is stored.
     */
    method SetControllerInfo(url: Option<string>, isConnected: bool, malformed: bool)
      returns (sent: seq<ConnectorCall>, out: seq<Event>)
      requires Valid()
      modifies this, panelMonitors.Values, resourceLocators.Values, panelSenders.Values
      ensures Valid() && SameRegistrations()
      ensures infoUrl == url && timeout == old(timeout) && connectCallback == old(connectCallback)
      ensures MonitorsSet(panelMonitors, false, false)
      ensures LocatorsSet(resourceLocators, false) && SendersSet(panelSenders, false)
      ensures !(isConnected && old(connectCallback).Some?) ==> sent == [DisconnectCall] && out == []
      ensures isConnected && old(connectCallback).Some? && BadUrl(url, malformed) ==> (
        sent == [DisconnectCall] && out == [Delivered(old(connectCallback).value, Failure(InvalidUrl))])
      ensures isConnected && old(connectCallback).Some? && !BadUrl(url, malformed) ==> (
        sent == [DisconnectCall, SetUrlCall(url.value), ConnectCall(old(connectCallback).value, old(timeout))]
        && out == [])
    {
      sent := Disconnect();
      out := [];
      if isConnected && connectCallback.Some? {
        // `connect` stores the callback it is given, which is the stored one.
        var more;
        more, out := ConnectAttempt(url, connectCallback.value, timeout, malformed);
        sent := sent + more;
      }
      StoreUrl(url);
    }
  }
}

=== FILE: text.dfy ===
/**
 * Character-level string operations the connectors rely on: decimal rendering
 * of sensor ids, `Arrays.toString`-style joining, Java's `String.replace` on a
 * character sequence, and the ASCII part of `equalsIgnoreCase`.
 */
module Text {

  /** No character of `s` is in `cs`. */
  predicate NoneOf(s: string, cs: set<char>)
  {
    forall i :: 0 <= i < |s| ==> s[i] !in cs
  }

  predicate EndsWithSlash(s: string)
  {
    |s| > 0 && s[|s| - 1] == '/'
  }

  predicate IsSuffix(suffix: string, s: string)
  {
    |suffix| <= |s| && s[|s| - |suffix|..] == suffix
  }

  function DigitChar(d: nat): (c: char)
    requires d < 10
    ensures '0' <= c <= '9'
    ensures c as int - '0' as int == d
  {
    "0123456789"[d]
  }

  /** Decimal digits of a natural number, most significant first, with no
      leading zero. */
  function NatToString(n: nat): (s: string)
    ensures |s| > 0
    ensures forall i :: 0 <= i < |s| ==> '0' <= s[i] <= '9'
    ensures |s| > 1 ==> s[0] != '0'
    decreases n
  {
    if n < 10 then [DigitChar(n)] else NatToString(n / 10) + [DigitChar(n % 10)]
  }

  /** `Integer.toString`: an optional minus sign followed by decimal digits. */
  function IntToString(n: int): (s: string)
    ensures |s| > 0
    ensures forall i :: 0 <= i < |s| ==> s[i] == '-' || '0' <= s[i] <= '9'
    ensures s[0] == '-' <==> n < 0
  {
    if n < 0 then "-" + NatToString(-n) else NatToString(n)
  }

  /** The number a string of decimal digits denotes, read most significant first. */
  function DigitsValue(s: string): int
  {
    if |s| == 0 then 0 else 10 * DigitsValue(s[..|s| - 1]) + (s[|s| - 1] as int - '0' as int)
  }

  /** The number a decimal rendering denotes, with an optional leading minus sign. */
  function DecimalValue(s: string): int
  {
    if |s| > 0 && s[0] == '-' then -DigitsValue(s[1..]) else DigitsValue(s)
  }

  /** Reading the digits of a natural number back gives the number. */
  lemma {:induction false} NatToStringValue(n: nat)
    ensures DigitsValue(NatToString(n)) == n
    decreases n
  {
    var s := NatToString(n);
    if n >= 10 {
      NatToStringValue(n / 10);
      assert s[..|s| - 1] == NatToString(n / 10);
    }
  }

  /** Reading an integer's rendering back gives the integer. */
  lemma IntToStringValue(n: int)
    ensures DecimalValue(IntToString(n)) == n
  {
    if n < 0 {
      NatToStringValue(-n);
      assert IntToString(n)[1..] == NatToString(-n);
    } else {
      NatToStringValue(n);
    }
  }

  function IntsToStrings(ns: seq<int>): (ss: seq<string>)
    ensures |ss| == |ns|
    ensures forall i :: 0 <= i < |ns| ==> ss[i] == IntToString(ns[i])
  {
    if |ns| == 0 then [] else [IntToString(ns[0])] + IntsToStrings(ns[1..])
  }

  /** `parts` separated by `sep`, with no separator before the first or after the last part. */
  function JoinWith(parts: seq<string>, sep: string): string
    decreases |parts|
  {
    if |parts| == 0 then ""
    else if |parts| == 1 then parts[0]
    else parts[0] + sep + JoinWith(parts[1..], sep)
  }

  /** Java's `String.replace(CharSequence, CharSequence)`: every occurrence of `pat`, scanning
      left to right without overlap, is replaced by `rep`. */
  function ReplaceAll(s: string, pat: string, rep: string): string
    requires |pat| > 0
    decreases |s|
  {
    if |s| < |pat| then s
    else if s[..|pat|] == pat then rep + ReplaceAll(s[|pat|..], pat, rep)
    else [s[0]] + ReplaceAll(s[1..], pat, rep)
  }

  /** A prefix free of the pattern's first character passes through `ReplaceAll` untouched. */
  lemma {:induction false} ReplaceAllSkips(a: string, b: string, pat: string, rep: string)
    requires |pat| > 0
    requires NoneOf(a, {pat[0]})
    ensures ReplaceAll(a + b, pat, rep) == a + ReplaceAll(b, pat, rep)
    decreases |a|
  {
    if |a| > 0 {
      var s := a + b;
      if |s| < |pat| {
        assert |b| < |pat|;
      } else {
        assert s[..|pat|][0] == a[0] != pat[0];
        assert s[1..] == a[1..] + b;
        ReplaceAllSkips(a[1..], b, pat, rep);
      }
    } else {
      assert a + b == b;
    }
  }

  /** Every character of a joined string comes from a part or from the separator. */
  lemma {:induction false} JoinWithNoneOf(parts: seq<string>, sep: string, cs: set<char>)
    requires forall i :: 0 <= i < |parts| ==> NoneOf(parts[i], cs)
    requires NoneOf(sep, cs)
    ensures NoneOf(JoinWith(parts, sep), cs)
    decreases |parts|
  {
    if |parts| > 1 {
      JoinWithNoneOf(parts[1..], sep, cs);
      var rest := JoinWith(parts[1..], sep);
      var whole := parts[0] + sep + rest;
      forall i | 0 <= i < |whole| ensures whole[i] !in cs {
        if i < |parts[0]| {
          assert whole[i] == parts[0][i];
        } else if i < |parts[0]| + |sep| {
          assert whole[i] == sep[i - |parts[0]|];
        } else {
          assert whole[i] == rest[i - |parts[0]| - |sep|];
        }
      }
    }
  }

  /** `Arrays.toString` of an `int[]`: the decimal ids, separated by ", ", inside brackets. */
  function ArraysToString(ids: seq<int>): string
  {
    "[" + JoinWith(IntsToStrings(ids), ", ") + "]"
  }

  /** The path segment the polling and status requests carry: `Arrays.toString(ids)` with
      ", " turned into "," and both brackets removed. */
  function SensorIdSegment(ids: seq<int>): string
  {
    ReplaceAll(ReplaceAll(ReplaceAll(ArraysToString(ids), ", ", ","), "]", ""), "[", "")
  }

  /** The replace chain leaves exactly the decimal ids joined by single commas, in list order. */
  lemma {:induction false} SensorIdSegmentIsCommaJoin(ids: seq<int>)
    ensures SensorIdSegment(ids) == JoinWith(IntsToStrings(ids), ",")
    ensures NoneOf(SensorIdSegment(ids), {' ', '[', ']'})
  {
    var strs := IntsToStrings(ids);
    var k := JoinWith(strs, ",");
    assert NoneOf(k, {' ', '[', ']'}) by {
      IdStringsArePlain(ids);
      JoinWithNoneOf(strs, ",", {' ', '[', ']'});
    }
    var step1 := ReplaceAll(ArraysToString(ids), ", ", ",");
    assert step1 == "[" + k + "]" by {
      IdStringsArePlain(ids);
      CommaSpacesRemoved(strs);
    }
    var step2 := ReplaceAll(step1, "]", "");
    assert step2 == "[" + k by {
      ClosingBracketRemoved(k);
    }
    assert ReplaceAll(step2, "[", "") == k by {
      OpeningBracketRemoved(k);
    }
  }

  /** Decimal renderings contain neither separators nor brackets. */
  lemma {:induction false} IdStringsArePlain(ids: seq<int>)
    ensures forall i :: 0 <= i < |ids| ==> NoneOf(IntsToStrings(ids)[i], {',', ' ', '[', ']'})
  {
    forall i | 0 <= i < |ids| ensures NoneOf(IntsToStrings(ids)[i], {',', ' ', '[', ']'}) {
      assert IntsToStrings(ids)[i] == IntToString(ids[i]);
    }
  }

  lemma {:induction false} CommaSpacesRemoved(strs: seq<string>)
    requires forall i :: 0 <= i < |strs| ==> NoneOf(strs[i], {','})
    ensures ReplaceAll("[" + JoinWith(strs, ", ") + "]", ", ", ",") == "[" + JoinWith(strs, ",") + "]"
  {
    var spaced, tight := JoinWith(strs, ", "), JoinWith(strs, ",");
    assert NoneOf("]", {','});
    JoinReplacesSeparator(strs, "]");
    AfterOpeningBracket(spaced + "]", tight + "]");
    assert "[" + spaced + "]" == "[" + (spaced + "]");
    assert "[" + tight + "]" == "[" + (tight + "]");
  }

  lemma {:induction false} AfterOpeningBracket(before: string, after: string)
    requires ReplaceAll(before, ", ", ",") == after
    ensures ReplaceAll("[" + before, ", ", ",") == "[" + after
  {
    assert NoneOf("[", {','});
    ReplaceAllSkips("[", before, ", ", ",");
  }

  lemma {:induction false} ClosingBracketRemoved(k: string)
    requires NoneOf(k, {']'})
    ensures ReplaceAll("[" + k + "]", "]", "") == "[" + k
  {
    assert NoneOf("[" + k, {']'}) by {
      forall i | 0 <= i < |"[" + k| ensures ("[" + k)[i] != ']' {
        if i > 0 { assert ("[" + k)[i] == k[i - 1]; }
      }
    }
    ReplaceAllSkips("[" + k, "]", "]", "");
    assert ReplaceAll("]", "]", "") == "";
  }

  lemma {:induction false} OpeningBracketRemoved(k: string)
    requires NoneOf(k, {'['})
    ensures ReplaceAll("[" + k, "[", "") == k
  {
    var s := "[" + k;
    assert s[..1] == "[";
    assert s[1..] == k;
    ReplaceAllSkips(k, "", "[", "");
    assert k + "" == k;
  }

  /** Replacing ", " by "," in a ", "-join of comma-free parts gives their ","-join. */
  lemma {:induction false} JoinReplacesSeparator(parts: seq<string>, tail: string)
    requires forall i :: 0 <= i < |parts| ==> NoneOf(parts[i], {','})
    requires NoneOf(tail, {','})
    ensures ReplaceAll(JoinWith(parts, ", ") + tail, ", ", ",") == JoinWith(parts, ",") + tail
    decreases |parts|
  {
    if |parts| == 0 {
      ReplaceAllSkips(tail, "", ", ", ",");
      assert "" + tail == tail + "";
    } else if |parts| == 1 {
      SinglePartKept(parts[0], tail);
    } else {
      JoinReplacesSeparator(parts[1..], tail);
      JoinSeparatorStep(parts, tail);
    }
  }

  lemma SinglePartKept(part: string, tail: string)
    requires NoneOf(part, {','}) && NoneOf(tail, {','})
    ensures ReplaceAll(JoinWith([part], ", ") + tail, ", ", ",") == JoinWith([part], ",") + tail
  {
    var t := part + tail;
    assert NoneOf(t, {','}) by {
      forall i | 0 <= i < |t| ensures t[i] != ',' {
        if i < |part| { assert t[i] == part[i]; } else { assert t[i] == tail[i - |part|]; }
      }
    }
    ReplaceAllSkips(t, "", ", ", ",");
    assert t + "" == t;
  }

  /** One more comma-free part in front of a join whose separators are already
      replaced. */
  lemma JoinSeparatorStep(parts: seq<string>, tail: string)
    requires |parts| >= 2 && NoneOf(parts[0], {','})
    requires ReplaceAll(JoinWith(parts[1..], ", ") + tail, ", ", ",") == JoinWith(parts[1..], ",") + tail
    ensures ReplaceAll(JoinWith(parts, ", ") + tail, ", ", ",") == JoinWith(parts, ",") + tail
  {
    var x := JoinWith(parts[1..], ", ") + tail;
    var y := JoinWith(parts[1..], ",") + tail;
    assert JoinWith(parts, ", ") + tail == parts[0] + (", " + x);
    assert JoinWith(parts, ",") + tail == parts[0] + ("," + y);
    ReplaceAllSkips(parts[0], ", " + x, ", ", ",");
    SeparatorReplaced(x);
  }

  lemma SeparatorReplaced(x: string)
    ensures ReplaceAll(", " + x, ", ", ",") == "," + ReplaceAll(x, ", ", ",")
  {
    var s := ", " + x;
    assert s[..2] == ", ";
    assert s[2..] == x;
  }

  /** ASCII lower-casing, the part of `Character.toLowerCase` that header names use. */
  function Lower(c: char): char
  {
    if 'A' <= c <= 'Z' then (c as int + 32) as char else c
  }

  /** `String.equalsIgnoreCase` restricted to ASCII case folding. */
  predicate EqualsIgnoreCase(a: string, b: string)
  {
    |a| == |b| && forall i :: 0 <= i < |a| ==> Lower(a[i]) == Lower(b[i])
  }
}

=== FILE: wrappers.dfy ===
/** The optional value used wherever the Java code allows a reference to be null. */
module Wrappers {

  datatype Option<+T> = None | Some(value: T) {

    /** The wrapped value, or `default` for a null reference. */
    function GetOr(default: T): T
    {
      match this
      case Some(v) => v
      case None => default
    }
  }
}
